=== FILE: README.md ===
# Taipei Day Trip, modelled in Dafny

Taipei Day Trip is a small tourism site. Visitors browse Taipei attractions
on an endlessly scrolling home page, search them by keyword or by metro
(MRT) station, open an attraction's page, sign up or sign in, book a
half-day trip, and see or delete the booking on the booking page. The
server side is two generations of Python: the first FastAPI app (`app.py`,
one `attractions` table whose `mrt` column holds the station name), and the
newer package under `app/` (query functions in `app/crud/`, routers in
`app/api/routers/`, the bearer-token dependency in `app/api/deps.py`) over
an `attractions` table with a separate `attraction_mrt` station table. The
tables are filled from the city's open-data feed by `import_data.py`.

This project models the rules of that system as pure functions over
immutable data, and proves what they promise:

- the home page's pager (`static/index.js`) and its earlier draft
  (`static/script.js`), as state machines over search, scroll/trigger and
  response events, connected to the server's page window (`HomeFeed`,
  `DraftFeed`, `Paging`);
- the client's sign-in and sign-up dialog, the e-mail shape check, the
  login and booking buttons, and the consume-once post-login redirect
  (`AuthClient`);
- the attraction page's carousel, fee, detail load and booking button
  (`AttractionPage`), and the booking page's gate, rendering and delete
  (`BookingPage`);
- both servers' attraction listings with their pagination and keyword
  filters (`LegacyApp`, `AttractionCrud`, `AttractionRouter`);
- the three ways the code pulls image URLs out of the feed's `file` text:
  a comma split, and two lazy `re.findall` patterns (`ImageUrls`);
- the feed import with its name and station de-duplication (`Importer`);
- the booking table, order numbers and order completion, user
  registration and sign-in with their routes and request schemas, the
  booking routers with the `date` field's parsing, and the `Authorization`
  header rule (`BookingStore`, `BookingRouter`, `Dates`, `Orders`, `Users`,
  `UserRouter`, `Deps`).

Foreign behaviour is a parameter: `json.loads`, the JWT decoder and
Python's `float` of a coordinate text are oracle functions,
`bcrypt.checkpw` is a predicate and the new password's
hash an input, the TapPay reply is an input, the date prefix of order
numbers is an input, and a database that cannot be reached is
`Db.Down(reason)`. Browser storage is a `map<string, string>`; a fetch
reply is the parsed body the page reads.

Behaviours of the code worth knowing:

- A failed request does not always leave the page in its previous valid
  state. The draft pager freezes after an empty answer (see Findings).
- The sign-in route validates its body as `UserCreate`, which requires a
  `name`, and the pages send only an e-mail and a password. Every sign-in
  from a page is therefore FastAPI's 422, before the credentials are looked
  at (see Findings, `UserRouter.SigninAsWrittenRefused`).
- Any sign-in reply other than a 400 counts as success. The client stores
  `String(data.token)`, which is "undefined" when the reply has no token
  (`AuthClient.TokenlessReplySignsIn`). That is what the 422 does: the
  page shows itself signed in, and every guarded request then gets a 403.
- With the schema the module defines for sign-in, `UserLogin`, a refusal
  carries "帳號或密碼錯誤", which is not one of the reason codes the client
  maps to messages, so every refusal shows the generic retry message
  (`UserRouter.SigninAnswers`).
- The sign-up handler unpacks three values from `create_user`, which
  returns two. A validated sign-up always raises after the user is
  inserted, so the reply is the plain-text 500 and the pages only log it
  (`UserRouter.SignupRegistersSilently`).
- A reply that does not fit its route's `response_model` is FastAPI's
  plain-text 500. An attraction with a NULL name, category, description,
  address or transport cannot be listed or shown, and a booking whose
  attraction has no image cannot be read back (`AttractionRouter.ListEndpoint`,
  `BookingRouter.GetEndpoint`). The home page's pager then asks for the
  same page on every trigger (`HomeFeed.CrashRepeats`).
- A booking `date` that is not a `YYYY-MM-DD` day of the calendar, such as
  the empty date input, is FastAPI's 422. Its body has no `message`, so the
  attraction page alerts its fixed text (`AttractionPage.EmptyDateRefused`).
- The home page makes its scroll observer only once a card is shown. A
  station search whose first page keeps no card never loads another page
  (see Findings, `HomeFeed.StationSearchStalls`).
- A user who already has a booking and books another attraction still
  reads the older booking back: the upsert is keyed on the (user,
  attraction) pair and the read takes the first row (`BookingRouter.PostThenGetOlder`).
- The booking page reads a `userName` that the server never sends, so the
  greeting always addresses the generic user
  (`BookingPage.GreetingIsGeneric`).
- Transport failures on the booking page are only logged, with no notice
  to the user (`BookingPage.OnGet`, `BookingPage.OnDelete`).
- A negative page is a 500 in `app.py`: MySQL rejects the negative
  `OFFSET`. The newer query swallows the same error into `([], None)`, which
  its router turns into a 400.
- The importer never treats a NULL name as taken, so such an item is
  inserted on every run. A NULL `file`, a truthy coordinate that `float`
  rejects, a truthy `MRT` that is not a string, or an insert the database
  refuses (a text too long for its `VARCHAR(255)` column, a `nan` or
  infinite coordinate) raises inside the loop and aborts the whole import,
  because the transaction is never committed (`Importer.RaiseAborts`,
  `Importer.OverlongNameAborts`).

## Model

| member | source | states |
|---|---|---|
| Paging.Window | app/crud/attraction.py:36-38 | `LIMIT n OFFSET o` yields the rows from `o` on, at most `n` of them, in table order, and nothing past the end of the table |
| Paging.Paginate | app/crud/attraction.py:52-53 | a next page, numbered `page + 1`, exists exactly when more than 12 rows came back; the kept rows are the first 12 (all of them when there is no next page) |
| Paging.PageOf | app.py:109-128 | page `p` holds the rows `12p .. 12p+12` of the selection, clipped to its end, and has a successor exactly when rows remain after it |
| Paging.FollowCollectsRest | app.py:124-128 | following `nextPage` from page `p` until it is null yields every row from `12p` on, each once and in order; from page 0 that is the whole selection |
| LegacyApp.Selected | app.py:114-120 | with a truthy keyword, a row is selected exactly when its name contains the keyword (a NULL name never matches); otherwise the whole table; in both cases an order-preserving subsequence |
| LegacyApp.DecodeAll | app.py:131-132 | the page decodes exactly when every row's `images` decodes, and then each record is its row paired with the decoded list |
| LegacyApp.GetAttractions | app.py:107-137 | every failure is a 500, and an unreachable database or a negative page is one; a success holds exactly the selected rows from offset `12·page`, at most 12 and all that remain, in order with their decoded images, and a next page `page+1` exactly when more rows are selected |
| LegacyApp.GetAttractionsFilter | app.py:114-135 | with a truthy keyword every returned record's name contains it; a failure over a reachable database and a valid page means some row of that page does not decode |
| LegacyApp.Stations | app.py:163 | the station names listed are exactly the non-NULL, non-empty `mrt` values of the table |
| LegacyApp.GetMrts | app.py:158-171 | a 500 exactly when the database is unreachable; otherwise each non-NULL, non-empty station name once, and nothing else |
| Seqs.Distinct | app.py:163 | `SELECT DISTINCT` keeps every value of the input, adds none, and repeats none |
| ImageUrls.MarkSchemesOnlyAddsCommas | app.py:25 | inserting a comma before every scheme changes nothing else: with commas removed, the output is the input |
| ImageUrls.SplitFilterUrlsProperties | app.py:23-30 | the empty string gives no URL; every URL ends in .jpg/.png with case ignored and holds no comma; the URLs are exactly the image pieces of the comma split, as an order-preserving subsequence |
| ImageUrls.SchemeEnd | import_data.py:37 | `https?://` ends after the scheme and within the subject |
| ImageUrls.FirstExtension | import_data.py:37 | the alternation ends within the subject, after its start |
| ImageUrls.FirstExtensionMatch | import_data.py:37 | the end the alternation reports belongs to one listed extension that matches there, case ignored |
| ImageUrls.ExtensionEnd | import_data.py:37 | `\.(?:…)` matches only at a dot and ends after it |
| ImageUrls.LazyBody | import_data.py:37 | the lazy `+?` stops at the first dot after a non-empty run of body characters where an extension follows, and no earlier one |
| ImageUrls.MatchAt | import_data.py:37-38 | a match found at an offset starts there and ends within the subject |
| ImageUrls.MatchAtSound | import_data.py:37 | what the matcher finds is a match by the declarative definition: scheme, non-empty body run, extension, and no shorter body run followed by an extension |
| ImageUrls.MatchAtComplete | import_data.py:37 | every match by the declarative definition is what the matcher finds at its start, so the two definitions agree |
| ImageUrls.Scan | import_data.py:38 | `findall` returns matches at their own starts, in input order, without overlap |
| ImageUrls.ScanLeftmost | import_data.py:38 | no match is skipped: every offset where a match starts lies inside one of the returned spans |
| ImageUrls.FindSpans | import_data.py:38 | the spans `findall` takes over a string are matches of the pattern, in order and non-overlapping |
| ImageUrls.FindSpansLeftmost | import_data.py:38 | every offset of the string where the pattern matches lies inside a returned span |
| ImageUrls.FindAll | import_data.py:38 | the strings returned are the texts of the spans, one for one |
| ImageUrls.FindAllEmptyIff | import_data.py:38 | `findall` returns nothing exactly when the pattern matches at no offset |
| ImageUrls.SpanShape | import_data.py:37 | a match's text starts with a scheme, ends with a dot and a listed extension, and its body characters are in the body class |
| ImageUrls.ImportSpanPlain | import_data.py:37 | no character of an import-pattern match, scheme and extension included, is whitespace or a comma |
| ImageUrls.ImportUrlShape | import_data.py:37 | one import match starts with http:// or https://, ends in .jpg or .png, and holds no whitespace or comma |
| ImageUrls.ImportImageUrlsProperties | import_data.py:36-39 | every URL the import keeps starts with a scheme, ends in .jpg/.png (case ignored) and holds no whitespace or comma; the URLs are the non-overlapping matches in input order |
| ImageUrls.ParseImageField | app/crud/attraction.py:12-13 | an empty or NULL field yields no URL |
| ImageUrls.FieldUrlShape | app/crud/attraction.py:20 | one field-pattern match starts with a scheme, ends in .jpg/.jpeg/.png/.gif, and holds no whitespace |
| ImageUrls.ParseImageFieldCases | app/crud/attraction.py:10-20 | a stripped field in brackets that decodes yields the decoded list; a field that is not bracketed, or fails to decode, yields the regex matches over the stripped text, each with a scheme, one of the four extensions, and no whitespace |
| Text.TrimProperties | static/index.js:182-197 | a trimmed field is a contiguous piece of the input with no space at either end, and trimming it again changes nothing |
| AttractionCrud.StationName | app/crud/attraction.py:34 | the joined station name belongs to the station row with the attraction's station id, and it is NULL when no station row has that id |
| AttractionCrud.Join | app/crud/attraction.py:32-34 | the `LEFT JOIN` keeps every attraction, in order, paired with its station's name |
| AttractionCrud.Selected | app/crud/attraction.py:30-46 | with a non-empty keyword, a joined row is selected exactly when its name or its station name contains the keyword; without one, every joined row; a keyword every joined row matches selects them all, in table order |
| AttractionCrud.Shape | app/crud/attraction.py:55-82 | the returned attraction keeps the row's id, name and station name, and its images are the parsed image field |
| AttractionCrud.GetAttractions | app/crud/attraction.py:23-89 | an unreachable database raises; a negative page gives `([], None)`; otherwise at most 12 attractions, the shaped rows from offset `12·page` in order, empty exactly when no row lies past that offset, and a next page `page+1` exactly when more rows match |
| AttractionCrud.GetAttractionsKeyword | app/crud/attraction.py:35-38 | with a non-empty keyword every attraction returned has it in its name or in its station's name |
| AttractionCrud.FetchAttractionDetail | app/crud/attraction.py:92-126 | an unreachable database raises; otherwise `None` exactly when no attraction has the id, else the shaped row of an attraction with that id |
| AttractionCrud.FirstWithId | app/crud/attraction.py:104-110 | nothing exactly when no joined row has the id; otherwise a joined row with that id, shaped |
| AttractionRouter.ListEndpoint | app/api/routers/attraction.py:10-24 | a 200 exactly when the query returned attractions that all fit the `Attraction` schema, with the page unchanged; an empty page is a 400 "所查詢的頁面不存在"; an exception is a 500 carrying its text; a page holding an attraction that does not fit is exactly the plain-text 500 |
| AttractionRouter.ListOverQuery | app/api/routers/attraction.py:10-24 | over the query, a negative page and a page past the last matching row are both 400; an unreachable database is a 500; a 200 has 1 to 12 attractions and a next page exactly when more rows match |
| AttractionRouter.ShapeConforms | app/schemas/attraction.py:4-14 | a shaped row fits the `Attraction` schema exactly when its name, category, description, address and transport are all non-NULL |
| AttractionRouter.PageCrashes | app/schemas/attraction.py:16-18 | a page of shaped rows is the plain-text 500 exactly when one of its rows has a NULL text column |
| AttractionRouter.ListCrashes | app/api/routers/attraction.py:10-24 | over the query, the list reply is the plain-text 500 exactly when the requested page of matching rows holds a row with a NULL text column |
| AttractionRouter.DetailEndpoint | app/api/routers/attraction.py:33-48 | a 200 exactly when an attraction that fits the `Attraction` schema was found, carrying it; none found is a 400 "景點編號不正確"; an exception is a 500; a found attraction that does not fit is exactly the plain-text 500 |
| AttractionRouter.DetailOverQuery | app/api/routers/attraction.py:33-48 | an id that no row carries is a 400, and a 200 carries the attraction with the requested id |
| AttractionRouter.FirstCrashes | app/crud/attraction.py:104-110 | the detail reply of the joined rows is the plain-text 500 exactly when the first row with the id has a NULL text column |
| AttractionRouter.DetailCrashes | app/schemas/attraction.py:24-25 | over the query, the detail reply is the plain-text 500 exactly when the first attraction with the id has a NULL text column |
| AttractionRouter.MrtsEndpoint | app/api/routers/attraction.py:51-60 | the station list is returned unchanged, and an exception is a 500 |
| Deps.BearerToken | app/api/deps.py:18 | the token is the text after `Bearer ` up to the next space, and it holds no space |
| Deps.BearerTokenOf | app/api/deps.py:18 | for the header `Bearer t` with no space in `t`, the token extracted is `t` |
| Deps.CurrentUser | app/api/deps.py:14-23 | a missing header, or one not starting with `Bearer `, is 403 "未登入系統"; a token the decoder rejects is 403 "Token 驗證失敗"; a success is exactly the decoded claims of the header's token |
| Deps.CurrentUserOfClientHeader | app/api/deps.py:14-23 | the header the pages send, `Bearer ` + token, authenticates exactly as the token decodes |
| Text.JoinSplit | app/api/deps.py:18 | joining the pieces of a split gives back the string |
| Text.SplitJoin | app/api/deps.py:18 | splitting a join of separator-free pieces gives back the pieces |
| BookingStore.FirstImage | app/crud/booking.py:25 | the image is the first URL exactly when `images` is a non-empty list, and nothing otherwise |
| BookingStore.FirstOfUser | app/crud/booking.py:11-16 | the position found is the user's first booking in table order; none exactly when the user has no booking |
| BookingStore.AttractionById | app/crud/booking.py:13-24 | the attraction returned is in the table and has the requested id |
| BookingStore.View | app/crud/booking.py:19-32 | the reply shows the booking's id, attraction id, date, time and price |
| BookingStore.GetBooking | app/crud/booking.py:6-40 | "failed" exactly when the database is unreachable; otherwise no booking exactly when the user has none, else the user's first booking in table order |
| BookingStore.FindPair | app/crud/booking.py:48-52 | the row found belongs to the (user, attraction) pair; none exactly when no row does |
| BookingStore.Upsert | app/crud/booking.py:43-75 | an unreachable database re-raises its error; a new pair whose attraction does not exist fails on the foreign key; a success changes no attraction row |
| BookingStore.UpdateInPlaceValid | app/crud/booking.py:54-57 | updating the pair's row keeps ids unique, below the next id and pointing at existing attractions, and keeps one row per pair |
| BookingStore.UpdateInPlace | app/crud/booking.py:54-57 | the updated row holds the new date, time and price, and every row of another pair is unchanged |
| BookingStore.AppendNew | app/crud/booking.py:58-66 | inserting a row for a pair that had none keeps the table constraints and one row per pair, holds the new values, and changes no other row |
| BookingStore.UpsertEffect | app/crud/booking.py:43-75 | after a successful upsert the pair has a row with the new date, time and price, every other row is unchanged, and the constraints and one-row-per-pair are kept |
| BookingStore.UpsertThenGet | app/crud/booking.py:6-66 | a user with no booking who upserts one reads back that attraction, date, time and price |
| BookingStore.FirstOfUserAppended | app/crud/booking.py:11-16 | the first booking of a user who had none is the row appended for them |
| BookingStore.FirstOfUserKept | app/crud/booking.py:11-16 | a user's first booking stays first when rows are only appended and none changes owner |
| BookingStore.UpsertKeepsFirst | app/crud/booking.py:43-75 | an upsert by a user who has a booking keeps that booking first, and changes it only when it is the booking of the same attraction, to the new date, time and price |
| BookingStore.UpsertThenGetOlder | app/crud/booking.py:6-75 | a user who has a booking and books again reads the older booking back: unchanged for another attraction, with the new date, time and price for the same one |
| BookingStore.WithoutUser | app/crud/booking.py:83 | the `DELETE … WHERE user_id` keeps exactly the other users' rows, in order, and removes nothing exactly when the user had no row |
| BookingStore.FilterKeepsAll | app/crud/booking.py:83-87 | the deletion removes no row exactly when the user has none |
| BookingStore.Delete | app/crud/booking.py:78-93 | an unreachable database answers the error dict and changes nothing; otherwise exactly the user's rows go, the attractions and the next id are unchanged, and the reply is "nothing to delete" exactly when the user had no row |
| BookingStore.DeleteKeepsValid | app/crud/booking.py:83 | deleting keeps the table constraints and one row per pair |
| BookingStore.DeleteThenGet | app/crud/booking.py:6-88 | after a delete the user reads no booking |
| BookingRouter.GetEndpoint | app/api/routers/booking.py:12-24 | a rejected header is a 403 with the dependency's detail; an unreachable database is a 500 "後端錯誤"; a 200 carries the signed-in user's first booking, or null, and a booking it carries has an attraction name, address and image; a booking that lacks one of them is exactly the plain-text 500 of `BookingGetResponse` |
| BookingRouter.PostReply | app/api/routers/booking.py:41-61 | `{ok: true}` exactly when the upsert succeeded; a `ValueError` is a 400 with its message; any other exception is a 500 with its text |
| BookingRouter.PostEndpoint | app/api/routers/booking.py:27-61 | a rejected header is a 403 and writes nothing; for a signed-in user a date that is not a `YYYY-MM-DD` day is the 422 and writes nothing; every error leaves the table as it was and is never the 400, since the upsert raises no `ValueError`; a 200 needs a valid date and is the upsert of the request for the signed-in user |
| BookingRouter.DeleteEndpoint | app/api/routers/booking.py:64-74 | a rejected header is a 403; a signed-in user always gets `{ok: true}`, and a reachable table then keeps exactly the other users' rows |
| BookingRouter.PostThenGet | app/api/routers/booking.py:12-61 | for a user with no booking yet and a valid token: an invalid date is the 422 and writes nothing; after a 200 the attraction exists, and the read is the plain-text 500 when it lacks a name, an address or an image, and otherwise shows that attraction with the date, time and price sent |
| BookingRouter.PostThenGetOlder | app/api/routers/booking.py:12-61 | for a user who already has a booking: after a 200 for another attraction the read is exactly what it was before; for the same attraction a successful read shows the older booking with the new date, time and price |
| Dates.DaysIn | app/schemas/booking.py:7 | a month has 28 to 31 days, and February has 29 exactly in a leap year |
| Dates.Digits | app/schemas/booking.py:19 | a number is written with exactly the requested number of decimal digits |
| Dates.ValueOfDigits | app/schemas/booking.py:19 | reading back the digits written gives the number |
| Dates.DigitsOfValue | app/schemas/booking.py:7 | a digit string is its own value written at its own width |
| Dates.IsoFormat | app/schemas/booking.py:19 | `isoformat` of a date is ten characters |
| Dates.Parse | app/schemas/booking.py:7 | a text the `date` field accepts names a day of the calendar |
| Dates.FormatOfParse | app/schemas/booking.py:7-19 | the date the reply writes back is the text the request sent |
| Dates.ParseOfFormat | app/schemas/booking.py:7-19 | every day of the calendar is written in a form the request accepts, and it parses back to that day |
| Dates.Refused | app/schemas/booking.py:7 | the empty date and 2023-02-29 are refused, and 2024-02-29 is accepted |
| Decimal.Show | app/crud/order.py:22 | the rendering of a natural number is a non-empty string of digits |
| Decimal.ValueOfShow | app/crud/order.py:22 | reading back the digits of a number gives the number |
| Decimal.PadRoundTrip | app/crud/order.py:14-22 | the `04d` rendering has at least four digits, and MySQL's unsigned cast reads it back as the number |
| Text.AfterLast | app/crud/order.py:14 | `SUBSTRING_INDEX(s, '-', -1)` is a suffix without `-`, preceded by the last `-` when it is not all of `s` |
| Text.AfterLastOfSuffix | app/crud/order.py:14 | the text after the last `-` of `prefix-digits` is the digits |
| Orders.MaxSeq | app/crud/order.py:13-17 | the maximum is NULL exactly when no order number carries the day's prefix, and otherwise bounds the sequence number of each of the day's orders |
| Orders.MaxSeqAttained | app/crud/order.py:13-17 | the maximum is the sequence number of one of the day's orders |
| Orders.NextSeq | app/crud/order.py:20 | the next sequence number is at least 1 and exceeds that of every order of the day |
| Orders.GenerateOrderNumber | app/crud/order.py:9-22 | a new number starts with the day's prefix and a dash |
| Orders.GenerateOrderNumberProperties | app/crud/order.py:9-22 | the part after the last dash is the padded sequence number, at least four digits, and reads back as it; the number is not yet in use and its sequence number exceeds every order of the day |
| Orders.Numbers | app/crud/order.py:14 | the order numbers of the table, one per order, in order |
| Orders.StoredStatus | app/crud/order.py:73 | the stored status is 0 exactly when the payment reply's status is 0, and 1 otherwise |
| Orders.CreateOrder | app/crud/order.py:25-81 | an unreachable database or a failed payment call raises before anything is written; a success appends the order with the generated number and the mapped status, removes exactly the user's bookings, and keeps the attractions |
| Orders.CreateOrderEffect | app/crud/order.py:54-77 | after an order the user has no booking, other users keep theirs, the status is 0 exactly when the payment reported 0, and the number was new |
| Orders.OrderImage | app/crud/order.py:103 | a list's image is the booking's rule, its first URL or nothing when empty; any other value gives what MySQL extracts from it at `$[0]` |
| Orders.OrderImageVersusBooking | app/crud/order.py:103 | the order's image differs from the booking page's exactly for a non-list value from which MySQL extracts a text |
| Orders.FetchOrder | app/crud/order.py:84-112 | an order is returned only when its number and its owner both match and its attraction exists; nothing exactly when no such order exists |
| Orders.FirstWanted | app/crud/order.py:106 | the first order matching number, owner and an existing attraction, joined with that attraction |
| Orders.FetchOrderOwnerOnly | app/crud/order.py:106 | another user asking for an existing order's number gets nothing |
| Users.CreateUser | app/crud/user.py:6-19 | a known e-mail is refused with "Email 已重複註冊" and writes nothing; otherwise exactly one user is appended, with the next id and the password hash |
| Users.CreateUserKeepsValid | app/crud/user.py:10-17 | registration keeps e-mail addresses unique and ids unique and below the next id |
| Users.UserByEmail | app/crud/user.py:25-26 | the row found is the first with that e-mail; none exactly when no row has it |
| Users.Authenticate | app/crud/user.py:21-38 | an unknown e-mail and a wrong password give the same error "帳號或密碼錯誤"; a success is exactly a known e-mail whose hash accepts the password, and its claims carry that user's id, name and e-mail |
| Users.RegisterThenSignIn | app/crud/user.py:6-38 | after registering, signing in with a password the hash accepts yields the new user's claims |
| Users.FirstMatchAfter | app/crud/user.py:25-26 | a newly appended user is the one found by their new e-mail |
| AuthClient.EmailParts | static/index.js:86-89 | an accepted address is a non-empty part without `@`, one `@`, and a non-empty part without `@` |
| AuthClient.EmailOfParts | static/index.js:86-89 | conversely, every such address is accepted |
| AuthClient.SignupCheck | static/index.js:92-99 | the form sends exactly when every field is filled and the e-mail is well formed; an empty field and a malformed e-mail each refuse with their message and send nothing |
| AuthClient.SigninCheck | static/index.js:122-129 | the form sends exactly when both fields are filled and the e-mail is well formed; otherwise it refuses with the matching message and sends nothing |
| AuthClient.BlankTrimsToEmpty | static/index.js:182-197 | a field of only spaces trims to the empty string |
| AuthClient.BlankFieldsRefused | static/index.js:182-197 | a blank password refuses both forms before any request, and a sign-in request carries the trimmed fields |
| AuthClient.SignupOnHome | static/index.js:100-118 | a sign-up error shows the prefixed message and stays; a success shows "註冊成功！" and switches to sign-in after 1000 ms; an unreadable reply is only logged |
| AuthClient.SignupOnAttraction | static/attraction.js:279-308 | a sign-up error shows the message verbatim; a success shows "註冊成功！" and switches to sign-in after 1000 ms |
| AuthClient.SignupPagesAgree | static/attraction.js:295-303 | the two pages agree on success and on the switch, and the home page's error text is its prefix plus the attraction page's text |
| AuthClient.RefusalNote | static/index.js:137-144 | "User not found" and "Invalid credentials" map to their own messages, anything else to the generic retry message, always as an error |
| AuthClient.SigninOnHome | static/index.js:121-153 | a 400 shows the mapped message and stores nothing; any other status stores the token and goes to "/" |
| AuthClient.SigninOnAttraction | static/attraction.js:310-355 | the later declaration: a 400 shows the mapped message; any other status stores the token and the current address as the redirect, and closes the dialog without navigating |
| AuthClient.TokenlessReplySignsIn | static/index.js:145-149 | a non-400 reply without a token still signs the page in, storing "undefined" |
| AuthClient.OnLoad | static/attraction.js:358-364 | a stored redirect is followed exactly when present, and it is removed; afterwards none is stored |
| AuthClient.RedirectConsumedOnce | static/attraction.js:338-364 | after a successful sign-in, the next load returns to the page and the load after it goes nowhere, with the token kept |
| AuthClient.LoginLabel | static/index.js:62-70 | the button reads "登出系統" exactly when a token is stored |
| AuthClient.LoginClick | static/index.js:73-84 | signed in, the button removes the token and reloads; signed out, it opens the sign-in form |
| AuthClient.ReserveClick | static/index.js:29-39 | the booking button goes to the booking page exactly when a token is stored, and otherwise opens the sign-in form |
| AuthClient.LogoutSignsOut | static/index.js:73-84 | after signing out the label offers signing in, the booking button asks for it, and signing out again changes nothing |
| UserRouter.Signup | app/api/routers/user.py:9-15 | a body without a name, an e-mail and a password is the 422 and writes nothing; every validated body is the plain-text 500, after `create_user` has appended the user when the e-mail is new and left the table alone when it is known |
| UserRouter.SigninHandler | app/api/routers/user.py:19-23 | the token is returned exactly when the credentials authenticate, and it signs those claims; every refusal is a 400 "帳號或密碼錯誤" |
| UserRouter.SigninAsWritten | app/api/routers/user.py:17-18 | as written: the body is the 422 exactly when it lacks a name, an e-mail or a password, and otherwise reaches the handler |
| UserRouter.Signin | app/schemas/user.py:12-14 | corrected: the body is the 422 exactly when it lacks an e-mail or a password, and otherwise reaches the handler |
| UserRouter.SigninReceived | static/index.js:131-149 | the sign-in reply as read: a 200 gives the token, an error its status and detail, the 422 its status with neither, and the plain-text 500 is exactly the unreadable body |
| UserRouter.SignupReceived | static/index.js:101-118 | the sign-up reply as read: the plain-text 500 is exactly the unreadable body, and every JSON reply has no `error` field |
| UserRouter.SignupRegistersSilently | app/api/routers/user.py:9-15 | signing up from either page registers a new e-mail and keeps a known one as it was, yet both pages only log the reply |
| UserRouter.SigninAsWrittenRefused | app/api/routers/user.py:17-18 | as written, the pages' sign-in body is the 422 whatever the table holds; the home page stores "undefined", shows the signed-in label and goes home, the attraction page stores it too, and a decoder that rejects it makes every guarded request a 403 |
| UserRouter.SigninAnswers | app/crud/user.py:21-38 | corrected: the right password stores the signed token (and, on the attraction page, the redirect); an unknown e-mail and a wrong password both show the generic retry message and store nothing |
| UserRouter.RegisterThenSignInThrough | app/crud/user.py:6-38 | corrected: registering and then signing in from the home page stores a token that the bearer dependency reads back as the new user |
| HomeFeed.Load | static/index.js:286-288 | nothing is sent while a request is in flight or when no page is left; otherwise the request for `nextPage` is sent and the pager is loading, with grid and cursor unchanged |
| HomeFeed.Search | static/index.js:280-284 | a search empties the grid and resets the cursor to 0, and asks for page 0 exactly when nothing is loading; otherwise the earlier request stays in flight |
| HomeFeed.Trigger | static/index.js:349-369 | with no card shown there is no observer and nothing happens; once a card is shown, a trigger is exactly a load |
| HomeFeed.Settle | static/index.js:290-308 | every answer clears `isLoading`; an empty or missing page and a failure leave the grid and cursor unchanged; a page appends, in response order, the cards the station filter keeps and takes the response's `nextPage` |
| HomeFeed.StepConsistent | static/index.js:286-308 | every event keeps `isLoading` set exactly while a request is in flight, and an answer always clears it |
| HomeFeed.RunConsistent | static/index.js:286-308 | any sequence of events keeps `isLoading` set exactly while a request is in flight |
| HomeFeed.LoadTwiceSendsOnce | static/index.js:287-288 | a second load before the first is answered sends nothing and changes nothing |
| HomeFeed.StationSearchShowsStation | static/index.js:297 | a station search started when idle shows only attractions whose station is exactly the keyword, however many pages follow |
| HomeFeed.RunAtStation | static/index.js:296-297 | the station-only grid is kept through that search's own triggers and answers |
| HomeFeed.Serve | app/api/routers/attraction.py:10-24 | the page cannot read the reply exactly when the requested page holds an attraction that does not fit the reply schema; it receives attractions exactly for a page within the rows that holds none, and then they are that page and its successor |
| HomeFeed.Listed | app/crud/attraction.py:30-82 | the attractions listed for a keyword are the shaped selected rows, in table order |
| HomeFeed.Received | static/index.js:290-291 | a 200 is read as its attractions and `nextPage`; an error body and the 422 body have neither; the plain-text 500 is exactly the reply the page cannot read |
| HomeFeed.EndpointServes | app/api/routers/attraction.py:10-24 | what the page receives from the list endpoint over the newer query is exactly `Serve` over the listed attractions, for every page number, including a page that does not fit the schema |
| HomeFeed.ListedPage | app/crud/attraction.py:23-89 | for a page number that is not negative, the query answers exactly that page of the listed attractions |
| HomeFeed.NoBadOn | app/schemas/attraction.py:16-18 | when every attraction fits the schema, no page fails it |
| HomeFeed.RoundsIdle | static/index.js:287 | with no page left, triggers change nothing |
| HomeFeed.CrashRepeats | static/index.js:305-308 | a page the server answers with the plain-text 500 is asked for again on every trigger, and the pager never moves past it |
| HomeFeed.RoundServed | static/index.js:290-303 | one answered trigger on a page the server can serve appends what the filter keeps of that page and takes its successor; an empty page changes nothing |
| HomeFeed.RoundsCollect | static/index.js:286-303 | when every attraction fits the schema, enough answered loads from page `p` append what the filter keeps of every row from `12p` on, in order |
| HomeFeed.RoundsCollectPage | static/index.js:286-303 | the same, for a page that holds rows |
| HomeFeed.PageAdvances | static/index.js:296-302 | one answered trigger moves the cursor to the row after the page, and what it appends plus the rest is what the filter keeps from the page on |
| HomeFeed.RestCollected | static/index.js:286-303 | the remaining triggers collect the rest once the cursor has moved |
| HomeFeed.FilterConcat | static/index.js:296-297 | filtering two pieces and appending is filtering their concatenation |
| HomeFeed.SearchShowsAll | static/index.js:280-309 | with the intended pager, where every scroll loads, a search made when idle then enough scrolls shows each row the search keeps once and in table order, and for a keyword search every row, when every attraction fits the schema |
| HomeFeed.RoundKeepsShown | static/index.js:296-300 | a load never removes a card |
| HomeFeed.RoundsAgree | static/index.js:349-369 | once a card is shown, the page as written loads on every scroll exactly as the intended pager does |
| HomeFeed.ObservedIdle | static/index.js:354 | with no card shown, no scroll loads anything |
| HomeFeed.SearchShowsAllAsWritten | static/index.js:280-369 | as written: when the search's first page keeps a card, enough scrolls show every row the search keeps; when it keeps none, nothing ever changes again; a keyword search over existing rows always keeps a card |
| HomeFeed.StationSearchStalls | static/index.js:354 | for a table of twelve attractions at station "XY" and then one at "X", the rows the server lists for the keyword "X" are all thirteen, since `LIKE` matches both names; the page keeps only station "X", so as written the station search shows nothing however often the user scrolls, while the intended pager shows the one at "X" |
| HomeFeed.StallListed | app/crud/attraction.py:30-46 | for that table and the keyword "X" the server lists every row, in table order, each with its station's name |
| DraftFeed.Load | static/script.js:110-114 | nothing is sent while loading or when no page is left; otherwise the requested page is sent and the pager is loading |
| DraftFeed.Scroll | static/script.js:175-192 | a scroll loads exactly when it reaches within 200 px of the bottom, a next page exists and nothing is loading, and then asks for `nextPage` |
| DraftFeed.Boot | static/script.js:197-205 | the start sends exactly page 0; the follow-up check sends nothing, because page 0 is still loading |
| DraftFeed.SettleAsWritten | static/script.js:116-171 | as written: a failure clears `isLoading`; a non-empty page appends all its cards, takes `nextPage` and clears it; an empty or missing `data` leaves `isLoading` set |
| DraftFeed.Settle | static/script.js:116-171 | corrected: every answer clears `isLoading`, and only a non-empty page changes the grid and the cursor |
| DraftFeed.EmptyAnswerSticks | static/script.js:118 | as written, an empty or missing `data` leaves the pager loading with nothing in flight |
| DraftFeed.StuckStays | static/script.js:111 | once stuck, no event changes the pager or sends a request |
| DraftFeed.FirstErrorFreezesAsWritten | static/script.js:118 | as written, an error body answering the first request leaves the grid empty for good: no later scroll sends anything |
| DraftFeed.AnswerFrees | static/script.js:164-171 | corrected, every answer frees the pager, and the next scroll to the bottom loads `nextPage` when there is one |
| DraftFeed.RunConsistent | static/script.js:110-185 | corrected, any events keep `isLoading` set exactly while a request is in flight, so the pager never sticks |
| DraftFeed.SettleIsHomeFeed | static/index.js:290-308 | corrected, the draft's handler is the later pager's handler for a search with the empty keyword |
| AttractionPage.ChangeImage | static/attraction.js:116-123 | with images present the index stays in range, and an index already in range is kept |
| AttractionPage.ArrowsWrap | static/attraction.js:112-113 | the right arrow adds one and the left arrow subtracts one, both modulo the number of images |
| AttractionPage.ArrowsUndo | static/attraction.js:112-113 | each arrow undoes the other |
| AttractionPage.PressesWalk | static/attraction.js:113 | short of the last image, `k` right-arrow presses move `k` images on |
| AttractionPage.PressesSplit | static/attraction.js:113 | `a` presses then `b` presses are `a + b` presses |
| AttractionPage.PressesCycle | static/attraction.js:113 | as many right-arrow presses as there are images bring back the first image shown |
| AttractionPage.Fee | static/attraction.js:43-46 | the fee is 2000 exactly for the morning and 2500 exactly for the afternoon |
| AttractionPage.FeeLabelReads | static/attraction.js:45 | the label reads, between "新台幣" and "元", the decimal digits of the fee |
| AttractionPage.ShowDetail | static/attraction.js:48-61 | the attraction is rendered exactly when the reply carries one; the plain-text 500 is exactly the reply that is only logged; every other reply is the alert "無法載入景點資料" |
| AttractionPage.DetailOfId | static/attraction.js:48-57 | an unknown id and an unreachable database both end in the alert; a rendered attraction is the one asked for; the page is only logged exactly when the first attraction with the id has a NULL text column |
| AttractionPage.Payload | static/attraction.js:395-400 | the body carries the page's attraction and date, "morning" exactly for the morning, and the fee of the chosen half-day |
| AttractionPage.PayloadMatchesLabel | static/attraction.js:395-400 | the price sent is the one the label shows: 2000 exactly with "morning", 2500 exactly with "afternoon" |
| AttractionPage.StartBooking | static/attraction.js:384-410 | without a token the click opens sign-in and sends nothing; with one it posts the payload with `Bearer ` + token |
| AttractionPage.OnPostAnswer | static/attraction.js:413-421 | the page goes to "/booking" exactly for a 2xx with `ok`; any other answer alerts its message, or "建立預訂行程失敗" when it has none; an unreadable body is only logged |
| AttractionPage.Received | app/api/routers/booking.py:27-61 | the reply as read: 2xx and `ok` only for a success; a message for every error but the 403, whose body has only `detail`; the 422 has no message; the plain-text 500 is exactly the unreadable body |
| AttractionPage.BookingRoundTrip | static/attraction.js:384-422 | nothing is sent exactly when no token is stored; a rejected token and a date that does not parse each give the fixed alert and write nothing; going to "/booking" leaves the tables valid and needs a valid date |
| AttractionPage.BookedThenRead | static/attraction.js:384-422 | for a user with no booking yet, after the click went to "/booking" the read is the plain-text 500 when the attraction lacks a name, an address or an image, and otherwise shows that attraction with the date, the half-day and its fee |
| AttractionPage.EmptyDateRefused | static/attraction.js:397 | a signed-in click before a date is picked alerts "建立預訂行程失敗" and writes nothing |
| AttractionPage.BookingWhileDown | app/api/routers/booking.py:57-61 | with the database down, a signed-in click alerts: the server's 500 message when the date parses, the fixed text when it does not |
| BookingPage.FromView | app/crud/booking.py:19-32 | the page reads the booking's fields from the reply, and never a `userName` |
| BookingPage.JsNumber | static/booking.js:107 | a non-negative price is shown in plain decimal digits |
| BookingPage.TimeText | static/booking.js:77-82 | "morning" and "afternoon" are named; anything else reads as the whole day |
| BookingPage.Greeting | static/booking.js:63-66 | without a user name the greeting uses "使用者" |
| BookingPage.Update | static/booking.js:60-108 | the greeting is always written; every other element is written exactly when its value is truthy, and then ends with that value (the image is that URL, the price its decimal digits and "元"); otherwise it keeps what was there |
| BookingPage.UpdateTwice | static/booking.js:60-108 | rendering the same booking twice shows what rendering it once does |
| BookingPage.Open | static/booking.js:16-30 | without a token the page goes home and requests nothing; with one it asks with `Bearer ` + token and renders the session copy if there is one |
| BookingPage.OnGet | static/booking.js:32-54 | a failed status or unreadable body changes nothing; a booking is rendered and enables delete; no booking shows the empty state |
| BookingPage.ReceivedGet | app/api/routers/booking.py:12-24 | a 200 with a booking is read as that booking; a 200 with null carries none; every other reply, the 422 and the plain-text 500 included, is a failed status |
| BookingPage.OnDelete | static/booking.js:111-147 | only a 2xx with `ok` after a booking was rendered changes the page: the empty state shows and the session copy goes |
| BookingPage.ReceivedDelete | app/api/routers/booking.py:64-74 | the delete reply is ok exactly for a 200 with `ok`; every other reply is a failed status |
| BookingPage.GreetingIsGeneric | static/booking.js:63 | whatever the server answers, a written greeting addresses the generic user |
| BookingPage.RefusedLoadShowsNothing | static/booking.js:32-34 | a refused token or an unreachable database leaves the page as it opened |
| BookingPage.ShownBooking | static/booking.js:77-108 | a half-day booked at its fee shows the half-day by name, the date, and the fee in the attraction page's words |
| BookingPage.BookedTripShown | static/booking.js:23-108 | for a user with no booking yet, booking on the attraction page and then opening this page leaves the page as it opened when the attraction lacks a name, an address or an image, and otherwise shows the booked half-day, the date and the fee |
| BookingPage.DeleteThenReopen | static/booking.js:111-147 | the delete button empties the page and the session copy, and reopening shows the empty state |
| Importer.Get | import_data.py:90-98 | a missing key reads as "", a JSON null as NULL, and a string as itself |
| Importer.MrtText | import_data.py:95-109 | the station text is a string's own text, "" for a falsy value, and nothing exactly for a truthy value that is not a string, on which `strip` raises |
| Importer.StationId | import_data.py:111-116 | the id found belongs to a station with exactly that name; none exactly when no station has it |
| Importer.ResolveStation | import_data.py:107-124 | a blank station gives no id; an existing station's id is reused; otherwise exactly one station is appended with the next id, and that id is used |
| Importer.ResolveStationValid | import_data.py:111-124 | resolving a station keeps station names and ids unique |
| Importer.ResolveStationNames | import_data.py:111-124 | at most one station is appended, the others are kept, and the id returned names a station with the item's `MRT` text |
| Importer.ImportItem | import_data.py:60-133 | a non-object is skipped; an object raises exactly when a truthy coordinate does not convert, `file` is NULL, or its name is not taken and either its `MRT` is a truthy non-string or an insert is refused (a new station text, `name`, `CAT` or `address` too long for `VARCHAR(255)`, or a coordinate that is `nan` or infinite); an object whose name is taken and that does not raise changes nothing |
| Importer.OverlongNameAborts | import_data.py:71-137 | an untaken 256-letter name is refused at its insert, and the whole import leaves the tables as they were |
| Importer.NanLatitudeAborts | import_data.py:96-137 | a latitude text `float` reads as `nan` passes the conversion, is refused at the insert, and the whole import leaves the tables as they were |
| Importer.ImportItemValid | import_data.py:101-133 | one item keeps the constraints, keeps the existing rows and adds at most one |
| Importer.ImportItemAdds | import_data.py:101-133 | a row is added exactly for an object whose name is not taken; it carries the item's name, its name, category and address fit their `VARCHAR(255)` columns, and its station is blank exactly when the `MRT` text is, else a station with that text |
| Importer.ImportItemTakes | import_data.py:101-133 | after one object with a non-NULL name, some row has that name |
| Importer.ImportItemsValid | import_data.py:88-133 | the loop keeps the constraints and only appends rows |
| Importer.Import | import_data.py:41-140 | an unreadable file, a missing `result`/`results`, or an item that raises leaves the tables as they were; otherwise the tables are what the loop produced |
| Importer.RaiseAborts | import_data.py:88-140 | an item that raises aborts the whole import, whatever the items before it wrote: the tables stay as they were |
| Importer.CompletedPassedChecks | import_data.py:96-98 | a loop that completes met no object with a NULL `file` or a coordinate `float` rejects |
| Importer.ImportCovers | import_data.py:88-133 | after an import that completes, every object with a non-NULL name has a row with that name |
| Importer.ImportTwiceAddsNothing | import_data.py:101-106 | importing the same feed again adds nothing, when every object has a non-NULL name |
| Importer.SkipAllTaken | import_data.py:96-106 | items that pass the checks before the name lookup and whose names are all taken change nothing |
| Importer.AddStationValid | import_data.py:117-124 | appending a station with a new name keeps the constraints |
| Importer.AddRowValid | import_data.py:127-133 | appending a row with the next id, a name not taken and an existing station keeps the constraints |
| Importer.TakenStays | import_data.py:101-106 | a name taken before rows are appended is still taken after |

## Left out

- Page markup and styling: cards, dialogs, the dots, the slideshow, and the horizontal station scroll with its drag handlers. These are DOM and timer code, so the model keeps only the values shown.
- The IntersectionObserver and `requestAnimationFrame` mechanics. A trigger is an abstract event (`HomeFeed.Reached`), honoured only while a card is shown, since only then does an observer exist; a frame callback is one scroll event (`DraftFeed.Scrolled`).
- `fetch`, `localStorage`, `sessionStorage` and navigation are inputs and outputs. Storage is a map, a reply is the parsed body, and navigation is a returned URL.
- The station list's rendering and its fetch in `loadMRTStations` are DOM code. A click on a station is the event `Searched(station, true)`.
- The first `userSignin` declared in `static/attraction.js` is replaced by the later declaration before the page can call it, so only the later one is modelled.
- Every `updateBookingPage` call binds another delete listener, and the page can only bind handlers that all do the same thing. The model keeps one flag, `deletable`.
- `Number(attractionId)` on the path segment: the attraction id is an integer input.
- An image list with no images: `ChangeImage` states its bounds only for a non-empty list, because the page then indexes an empty array.
- Latitude and longitude values are floating point and are not part of any returned value in the model. The importer models only what `float` makes of a coordinate text, as the oracle `toFloat` (an error, a finite number, or `nan` or an infinity), because an error aborts the import and pymysql refuses a non-finite value at the insert; the newer query's fallback to 0.0 always yields a float, so coordinates never fail the reply schema.
- JSON, JWT and bcrypt are foreign code. `json.loads` and the token decoder are oracle functions, `bcrypt.checkpw` is a predicate, and the password hash is an input.
- The TapPay call is foreign. Its outcome is an input, `Orders.Payment`.
- `datetime.now` is a clock, so the order-number date prefix is a parameter. The 7-day token expiry is left out for the same reason.
- The module-level import block in `app.py` (lines 44-101) is I/O done when the module loads. `import_data.py` is the importer that is modelled.
- `app.py`'s detail endpoint (lines 140-156) overlaps the newer detail route and is not modelled. Its 400 is caught by its own handler and becomes a 500.
- `fetch_mrts` in `app/crud/attraction.py` orders stations with `GROUP BY … ORDER BY count`, which is database behaviour. `AttractionRouter.MrtsEndpoint` takes the query's outcome as input.
- The order router, `app/db`, `app/core` and `app/main.py` are wiring. The schemas of `app/schemas` are modelled where they decide a status: `Attraction`, `BookingModel`, `BookingAttraction`, `UserCreate` and `UserLogin`.
- `GET /api/user/auth` is not modelled. The home page sends it when a token is stored and ignores the reply.
- Request bodies whose `attractionId`, `price` or `time` have the wrong JSON type, and sign-up or sign-in fields that are not strings, are not modelled: the pages always send those fields with the right types.
- Dates.IsoDate: accepts only the `YYYY-MM-DD` form. Other spellings pydantic's `date` may take are treated as refused; the page sends a date input's value, which is that form or empty.
- BookingRouter.GetEndpoint: the reply in the model carries the booking's `id`, which `BookingData` leaves out of the JSON. No page reads it.
- Importer.Field: a text field of an object (`name`, `CAT`, `description`, `address`, `direction`) is a string, null or missing; a number or a list there is not modelled. Nor is a `file` that is a number or a list, which makes `re.findall` raise a `TypeError` and aborts the import (import_data.py:37-38, 98).
- MySQL `LIKE` is modelled as a case-sensitive substring test. Wildcards typed into the keyword (`%`, `_`) and collation-dependent case folding are not interpreted.
- Users.UserByEmail: compares e-mail addresses exactly. `WHERE email=%s` compares under the column's collation, which can ignore case and trailing spaces, so "A@x.com" may find "a@x.com" in the database and not in the model.
- Users.CreateUser: the duplicate test is exact equality, not the column's collation, so an address that differs from a registered one only in case is appended in the model and refused by a case-insensitive column.
- Users.Authenticate: finds the user by exact e-mail equality, not by the column's collation.
- Importer.StationId: `WHERE mrt = %s` is modelled as exact equality, not the column's collation.
- Importer.ImportItemAdds: "taken" is exact equality of names, not `WHERE name = %s` under the column's collation; names that differ only in case or trailing spaces count as different here.
- Importer.Import: `get_db_connection()` (import_data.py:55) is outside the `try`, so an unreachable database raises out of `import_data` before anything is written; the model takes the tables as reachable and has no `Db.Down` input here.
- Importer.Import: a `description` or `direction` longer than a `TEXT` column's 65,535 bytes is refused by strict mode and aborts the import; byte lengths are not modelled, so such an object is imported.
- Importer.TooLong: counts UTF-16 code units where MySQL counts characters, so a name with characters outside the Basic Multilingual Plane can count as too long here and fit in MySQL. A value whose excess is only spaces is stored whole here, while MySQL cuts it to 255 characters.
- Orders.FetchOrder: a list in `images` whose first element is not a string is not modelled (`ImageList` holds strings); the importer only ever writes lists of URL strings.
- Importer.Import: after an abort the tables are stated to be as they were, `nextRowId` and `nextStationId` included. InnoDB does not give back the AUTO_INCREMENT values the rolled-back inserts consumed, so the ids of a later import can be higher than the model's.
- Importer.RaiseAborts: states the same restored counters as `Importer.Import`, with the same gap.
- BookingRouter.PostEndpoint: when the insert of a new pair fails on the attraction's foreign key, the table, `nextId` included, is stated to be as it was. MySQL has consumed an AUTO_INCREMENT value by then, so the next booking's id can be one higher than the model's.
- Orders.GenerateOrderNumberProperties: "not yet in use" is stated against the table as read. Nothing locks the table between the `MAX` query and the insert, and the payment call sits between them, so two concurrent orders of the same day can compute the same number; concurrency is not modelled.
- Orders.CreateOrderEffect: "the number was new" holds only for orders that do not overlap in time, for the same reason.
- HomeFeed.EndpointServes: takes the keyword as the server receives it. The page puts it into the URL without encoding, so a keyword holding `&`, `#`, `+` or `%` reaches the server changed ("A&B" as "A", "C+D" as "C D"); URL encoding is not modelled.
- HomeFeed.SearchShowsAll: states the collected rows only when every attraction fits the reply schema; `HomeFeed.CrashRepeats` states what happens at a page that does not.
- HomeFeed.RoundsCollect: stated under the same condition as `HomeFeed.SearchShowsAll`.
- Row order is table (insertion) order wherever SQL gives no `ORDER BY`.
- `Text.LowerEndsWith` lowers only ASCII letters. That is exact for the suffixes .jpg and .png, but it does not model full Unicode lowering of the rest of the string.
- LegacyApp.GetMrts: states which names appear and that none repeats, not their order, because MySQL does not fix the order of `SELECT DISTINCT`. It also compares names exactly, while `DISTINCT` and `mrt <> ''` compare under the column's collation: names that differ only in case ("Abc", "abc") may come back once, and a name of spaces only equals `''` under PAD SPACE and is dropped; the model lists both case variants and keeps the blank name.
- AttractionCrud.Selected: states membership in both directions, not order. Order is stated where it matters, in `AttractionCrud.GetAttractions` and `HomeFeed.Listed`.
- ImageUrls.ParseImageField: says nothing about the contents of a decoded JSON list, because the decoder is an oracle. `ImageUrls.ParseImageFieldCases` states which branch is taken.
- BookingPage.JsNumber: states the rendering of non-negative numbers only. A booking's price comes from the fee, which is never negative.
- BookingPage.Greeting: states only the generic case. The server never sends a name (`BookingPage.GreetingIsGeneric`).
- Sub-second timing (the 1000 ms switch after sign-up) is a returned number, not a delay.

## Findings

| source | as written | input that shows it | evidently intended | confidence | as-written member | corrected member |
|---|---|---|---|---|---|---|
| static/script.js:118 | the response handler returns early when `data.data` is missing or empty, without clearing `isLoading` | the first request is answered with an error body (no `data`, as every 400 and 500 reply of the list endpoint is); `isLoading` stays true with nothing in flight, so no later scroll loads anything and the grid stays empty | clear `isLoading` before the early return, as `static/index.js:291-293` does | not executed | DraftFeed.FirstErrorFreezesAsWritten | DraftFeed.RunConsistent |
| static/index.js:354 | the scroll observer is made only when the grid holds a card, and the loader is called again only by that observer | a station search "X" over a table whose twelve first matches are at station "XY" (selected by `LIKE '%X%'`, dropped by the page's exact station test, static/index.js:297) and whose thirteenth is at "X": the first page keeps no card, so no observer exists and the page at "X" is never asked for | ask for the next page while no card is shown and a page is left, so that every page of the search is loaded | not executed | HomeFeed.StationSearchStalls | HomeFeed.SearchShowsAll |
| app/api/routers/user.py:18 | `signin` validates its body as `UserCreate`, which requires a `name` | the pages' sign-in body `{email, password}` (static/index.js:134, static/attraction.js:325) is the 422 for every account; the home page then stores "undefined" as the token and shows itself signed in | validate the body as `UserLogin` (app/schemas/user.py:12-14), which the module defines for sign-in and never uses | not executed | UserRouter.SigninAsWrittenRefused | UserRouter.SigninAnswers |

=== FILE: attraction_crud.dfy ===
/** The newer server's attraction queries, app/crud/attraction.py, over the
    `attractions` table and its `attraction_mrt` station table. */
module AttractionCrud {
  import opened Wrappers
  import opened Text
  import opened Seqs
  import opened Paging
  import opened ImageUrls

  /** A row of `attraction_mrt`. */
  datatype Station = Station(id: int, mrt: string)

  /** A row of `attractions`; `mrtId` is the `attraction_mrt_id` foreign key. */
  datatype Row = Row(
    id: int,
    name: Option<string>,
    category: Option<string>,
    description: Option<string>,
    address: Option<string>,
    transport: Option<string>,
    images: Option<string>,
    mrtId: Option<int>)

  /** Both tables. */
  datatype Tables = Tables(attractions: seq<Row>, stations: seq<Station>)

  /** A row joined with its station's name (`LEFT JOIN attraction_mrt`). */
  datatype Joined = Joined(row: Row, mrt: Option<string>)

  /** An attraction as the API returns it (coordinates left out). */
  datatype Attraction = Attraction(
    id: int,
    name: Option<string>,
    category: Option<string>,
    description: Option<string>,
    address: Option<string>,
    transport: Option<string>,
    mrt: Option<string>,
    images: seq<string>)

  /** The name of the station with id `mrtId`, if there is one. */
  function StationName(stations: seq<Station>, mrtId: Option<int>): (r: Option<string>)
    ensures r.Some? ==> mrtId.Some? && exists k :: 0 <= k < |stations| && stations[k] == Station(mrtId.value, r.value)
    ensures r.None? && mrtId.Some? ==> forall k :: 0 <= k < |stations| ==> stations[k].id != mrtId.value
  {
    if mrtId.None? || |stations| == 0 then None
    else if stations[0].id == mrtId.value then Some(stations[0].mrt)
    else
      var r := StationName(stations[1..], mrtId);
      assert forall k :: 1 <= k < |stations| ==> stations[k] == stations[1..][k - 1];
      r
  }

  /** The `LEFT JOIN` of every attraction with its station, in table order. */
  function Join(t: Tables): (js: seq<Joined>)
    ensures |js| == |t.attractions|
    ensures forall k :: 0 <= k < |js| ==>
      js[k] == Joined(t.attractions[k], StationName(t.stations, t.attractions[k].mrtId))
  {
    seq(|t.attractions|, k requires 0 <= k < |t.attractions| =>
      Joined(t.attractions[k], StationName(t.stations, t.attractions[k].mrtId)))
  }

  /** `a.name LIKE '%kw%' OR m.mrt LIKE '%kw%'`; NULL never matches. */
  predicate KeywordMatches(kw: string, j: Joined) {
    || (j.row.name.Some? && Contains(j.row.name.value, kw))
    || (j.mrt.Some? && Contains(j.mrt.value, kw))
  }

  /** The joined rows the query selects before `LIMIT`/`OFFSET`. */
  function Selected(t: Tables, keyword: Option<string>): (rows: seq<Joined>)
    ensures keyword.None? || keyword == Some("") ==> rows == Join(t)
    ensures keyword.Some? && keyword.value != "" ==>
      forall j :: j in rows <==> j in Join(t) && KeywordMatches(keyword.value, j)
    ensures keyword.Some? && (forall k :: 0 <= k < |Join(t)| ==> KeywordMatches(keyword.value, Join(t)[k])) ==>
      rows == Join(t)
  {
    if keyword.Some? && keyword.value != "" then
      var keep := j => KeywordMatches(keyword.value, j);
      FilterMembers(Join(t), keep);
      assert (forall k :: 0 <= k < |Join(t)| ==> keep(Join(t)[k])) ==> Filter(Join(t), keep) == Join(t) by {
        if forall k :: 0 <= k < |Join(t)| ==> keep(Join(t)[k]) {
          FilterAll(Join(t), keep);
        }
      }
      Filter(Join(t), keep)
    else Join(t)
  }

  /** The record built from a joined row; the images come from
      `_parse_image_field` (an empty or NULL column gives `[]`). */
  function Shape(j: Joined, decode: string -> Option<seq<string>>): (a: Attraction)
    ensures a.id == j.row.id && a.name == j.row.name && a.mrt == j.mrt
    ensures a.images == ParseImageField(j.row.images, decode)
  {
    Attraction(j.row.id, j.row.name, j.row.category, j.row.description,
               j.row.address, j.row.transport, j.mrt, ParseImageField(j.row.images, decode))
  }

  /** `get_attractions(page, keyword)`, with `json.loads` as the oracle
      `decode`. An unreachable database raises to the caller (`Failure`);
      a negative page makes MySQL reject the `OFFSET`, which the function
      swallows into `([], None)`; no rows also give `([], None)`. */
  function GetAttractions(db: Db<Tables>, page: int, keyword: Option<string>,
                          decode: string -> Option<seq<string>>): (r: Result<Page<Attraction>, string>)
    ensures r.Failure? <==> db.Down?
    ensures r.Failure? ==> r.error == db.reason
    ensures r.Success? && page < 0 ==> r.value == Page([], None)
    ensures r.Success? && page >= 0 ==> var rows := Selected(db.tables, keyword);
      && |r.value.items| <= PerPage
      && (forall k :: 0 <= k < |r.value.items| ==>
            page * PerPage + k < |rows| && r.value.items[k] == Shape(rows[page * PerPage + k], decode))
      && |r.value.items| == (if |rows| <= page * PerPage then 0 else Min(PerPage, |rows| - page * PerPage))
      && (r.value.items == [] <==> |rows| <= page * PerPage)
      && (r.value.next.Some? <==> (page + 1) * PerPage < |rows|)
      && (r.value.next.Some? ==> r.value.next.value == page + 1)
  {
    if db.Down? then Failure(db.reason)
    else if page < 0 then Success(Page([], None))
    else
      var p := PageOf(Selected(db.tables, keyword), page);
      if p.items == [] then Success(Page([], None))
      else Success(Page(seq(|p.items|, k requires 0 <= k < |p.items| => Shape(p.items[k], decode)), p.next))
  }

  /** With a non-empty keyword every returned attraction has it in its
      name or its station name. */
  lemma GetAttractionsKeyword(db: Db<Tables>, page: int, keyword: string,
                              decode: string -> Option<seq<string>>)
    requires keyword != ""
    ensures var r := GetAttractions(db, page, Some(keyword), decode);
      r.Success? ==> forall a :: a in r.value.items ==>
        (a.name.Some? && Contains(a.name.value, keyword)) || (a.mrt.Some? && Contains(a.mrt.value, keyword))
  {
    var r := GetAttractions(db, page, Some(keyword), decode);
    if r.Success? && page >= 0 {
      var rows := Selected(db.tables, Some(keyword));
      forall a | a in r.value.items
        ensures (a.name.Some? && Contains(a.name.value, keyword)) || (a.mrt.Some? && Contains(a.mrt.value, keyword))
      {
        var k :| 0 <= k < |r.value.items| && r.value.items[k] == a;
        assert rows[page * PerPage + k] in rows;
      }
    }
  }

  /** `fetch_attraction_detail(id)`: the first row with that id, shaped;
      `None` when there is none. */
  function FetchAttractionDetail(db: Db<Tables>, id: int, decode: string -> Option<seq<string>>): (r: Result<Option<Attraction>, string>)
    ensures r.Failure? <==> db.Down?
    ensures r.Failure? ==> r.error == db.reason
    ensures r.Success? ==> (r.value.None? <==> forall k :: 0 <= k < |db.tables.attractions| ==> db.tables.attractions[k].id != id)
    ensures r.Success? && r.value.Some? ==> r.value.value.id == id
    ensures r.Success? && r.value.Some? ==>
      exists k :: 0 <= k < |Join(db.tables)| && r.value.value == Shape(Join(db.tables)[k], decode)
  {
    if db.Down? then Failure(db.reason)
    else Success(FirstWithId(Join(db.tables), id, decode))
  }

  /** The shaped first joined row whose attraction id is `id`. */
  function FirstWithId(js: seq<Joined>, id: int, decode: string -> Option<seq<string>>): (r: Option<Attraction>)
    ensures r.None? <==> forall k :: 0 <= k < |js| ==> js[k].row.id != id
    ensures r.Some? ==> r.value.id == id
    ensures r.Some? ==> exists k :: 0 <= k < |js| && js[k].row.id == id && r.value == Shape(js[k], decode) &&
                                    forall i :: 0 <= i < k ==> js[i].row.id != id
  {
    if |js| == 0 then None
    else if js[0].row.id == id then Some(Shape(js[0], decode))
    else
      var r := FirstWithId(js[1..], id, decode);
      assert forall k :: 1 <= k < |js| ==> js[k] == js[1..][k - 1];
      assert r.Some? ==> exists k :: 0 <= k < |js| && js[k].row.id == id && r.value == Shape(js[k], decode) &&
                                       forall i :: 0 <= i < k ==> js[i].row.id != id by {
        if r.Some? {
          var k :| 0 <= k < |js[1..]| && js[1..][k].row.id == id && r.value == Shape(js[1..][k], decode) &&
            forall i :: 0 <= i < k ==> js[1..][i].row.id != id;
          assert js[k + 1] == js[1..][k];
        }
      }
      r
  }
}

=== FILE: attraction_page.dfy ===
/** The attraction page, static/attraction.js: the image carousel, the fee
    of the chosen half-day, the detail load and the "start booking" button
    with what it does with the server's answer. The sign-in dialog of this
    page is in AuthClient. */
module AttractionPage {
  import opened Wrappers
  import opened Http
  import opened Text
  import opened Decimal
  import opened Deps
  import opened BookingStore
  import opened BookingRouter
  import AttractionCrud
  import AttractionRouter
  import AuthClient
  import Dates

  // ---------------------------------------------------------------- carousel

  /** `changeImage(index)` over `count` images: an index before the first
      shows the last, one past the last shows the first, any other is
      shown as is. */
  function ChangeImage(index: int, count: nat): (r: int)
    ensures count > 0 ==> 0 <= r < count
    ensures 0 <= index < count ==> r == index
  {
    if index < 0 then count - 1
    else if index >= count then 0
    else index
  }

  /** The right arrow. */
  function Next(i: int, count: nat): int {
    ChangeImage(i + 1, count)
  }

  /** The left arrow. */
  function Prev(i: int, count: nat): int {
    ChangeImage(i - 1, count)
  }

  /** The arrows step round the images as a cycle: the right arrow adds
      one and the left arrow subtracts one, modulo the image count. */
  lemma ArrowsWrap(i: int, count: nat)
    requires 0 <= i < count
    ensures Next(i, count) == (i + 1) % count
    ensures Prev(i, count) == (i - 1) % count
  {
    if i == count - 1 {
      assert (i + 1) % count == 0 by {
        assert i + 1 == count * 1;
      }
    } else {
      assert (i + 1) % count == i + 1 by {
        assert i + 1 == count * 0 + (i + 1);
      }
    }
    if i == 0 {
      assert (i - 1) % count == count - 1 by {
        assert i - 1 == count * -1 + (count - 1);
      }
    } else {
      assert (i - 1) % count == i - 1 by {
        assert i - 1 == count * 0 + (i - 1);
      }
    }
  }

  /** Each arrow undoes the other. */
  lemma ArrowsUndo(i: int, count: nat)
    requires 0 <= i < count
    ensures Prev(Next(i, count), count) == i
    ensures Next(Prev(i, count), count) == i
  {
  }

  /** The image shown after `k` presses of the right arrow from `i`. */
  function Presses(i: int, count: nat, k: nat): int
    decreases k
  {
    if k == 0 then i else Presses(Next(i, count), count, k - 1)
  }

  /** Short of the last image, each press moves one image on. */
  lemma {:induction false} PressesWalk(i: int, count: nat, k: nat)
    requires 0 <= i && i + k < count
    ensures Presses(i, count, k) == i + k
    decreases k
  {
    if k > 0 {
      assert Next(i, count) == i + 1;
      PressesWalk(i + 1, count, k - 1);
    }
  }

  /** Pressing `a` times and then `b` times is pressing `a + b` times. */
  lemma {:induction false} PressesSplit(i: int, count: nat, a: nat, b: nat)
    ensures Presses(i, count, a + b) == Presses(Presses(i, count, a), count, b)
    decreases a
  {
    if a > 0 {
      PressesSplit(Next(i, count), count, a - 1, b);
    }
  }

  /** As many right-arrow presses as there are images bring back the image
      shown first. */
  lemma PressesCycle(i: int, count: nat)
    requires 0 <= i < count
    ensures Presses(i, count, count) == i
  {
    PressesSplit(i, count, count - 1 - i, i + 1);
    PressesWalk(i, count, count - 1 - i);
    assert Next(count - 1, count) == 0;
    PressesWalk(0, count, i);
  }

  // ---------------------------------------------------------------- fee

  /** The price of the morning and of the afternoon tour. */
  const MorningFee: nat := 2000
  const AfternoonFee: nat := 2500

  /** The fee of the chosen half-day. */
  function Fee(morning: bool): (fee: nat)
    ensures fee == MorningFee <==> morning
    ensures fee == AfternoonFee <==> !morning
  {
    if morning then MorningFee else AfternoonFee
  }

  /** `updateFee`: the text the fee label shows. */
  function FeeLabel(morning: bool): string {
    "新台幣" + Show(Fee(morning)) + "元"
  }

  /** The label reads, between its fixed prefix and suffix, the decimal
      digits of the fee. */
  lemma FeeLabelReads(morning: bool) returns (digits: string)
    ensures FeeLabel(morning) == "新台幣" + digits + "元"
    ensures AllDigits(digits) && ValueOf(digits) == Fee(morning)
  {
    digits := Show(Fee(morning));
    ValueOfShow(Fee(morning));
  }

  // ---------------------------------------------------------------- detail

  const DetailFailed: string := "無法載入景點資料"

  /** What the detail load shows: the attraction, an alert, or nothing
      but a line in the console. */
  datatype Detail = Rendered(attraction: AttractionCrud.Attraction) | DetailAlert(text: string) | DetailLogged

  /** `fetchAttractionDetails`: a reply with `data` renders it; a JSON
      error body has none and raises the alert; the plain-text 500 is not
      JSON, so reading it throws and the page only logs. */
  function ShowDetail(reply: Reply<AttractionCrud.Attraction>): (d: Detail)
    ensures d.Rendered? <==> reply.Ok?
    ensures d.Rendered? ==> d.attraction == reply.body
    ensures d.DetailLogged? <==> reply.Crash?
    ensures d.DetailAlert? ==> d.text == DetailFailed
  {
    match reply
    case Ok(a) => Rendered(a)
    case Error(_, _) => DetailAlert(DetailFailed)
    case Invalid => DetailAlert(DetailFailed)
    case Crash => DetailLogged
  }

  /** An id with no attraction, and a database that cannot be reached,
      both end in the alert; a rendered attraction is the one asked for;
      an attraction with a NULL text column leaves the page blank. */
  lemma DetailOfId(db: Db<AttractionCrud.Tables>, id: int, decode: string -> Option<seq<string>>)
    ensures var d := ShowDetail(AttractionRouter.DetailEndpoint(AttractionCrud.FetchAttractionDetail(db, id, decode)));
      && (db.Down? ==> d == DetailAlert(DetailFailed))
      && (db.Up? && (forall k :: 0 <= k < |db.tables.attractions| ==> db.tables.attractions[k].id != id) ==>
            d == DetailAlert(DetailFailed))
      && (d.Rendered? ==> d.attraction.id == id)
      && (d.DetailLogged? <==>
            && db.Up?
            && exists k :: && 0 <= k < |db.tables.attractions| && db.tables.attractions[k].id == id
                           && (forall i :: 0 <= i < k ==> db.tables.attractions[i].id != id)
                           && !AttractionRouter.RowConforms(db.tables.attractions[k]))
  {
    AttractionRouter.DetailOverQuery(db, id, decode);
    if db.Up? {
      AttractionRouter.DetailCrashes(db.tables, id, decode);
    }
  }

  // ---------------------------------------------------------------- booking

  /** The body the button sends: the page's attraction, the chosen date,
      and the half-day with its fee. */
  function Payload(attractionId: int, date: string, morning: bool): (b: BookingRequest)
    ensures b.attractionId == attractionId && b.date == date
    ensures b.time == "morning" <==> morning
    ensures !morning ==> b.time == "afternoon"
    ensures b.price == Fee(morning)
  {
    BookingRequest(attractionId, date, if morning then "morning" else "afternoon", if morning then MorningFee else AfternoonFee)
  }

  /** The price sent is the one the label shows, and it is tied to the
      half-day: the morning costs 2000, the afternoon 2500. */
  lemma PayloadMatchesLabel(attractionId: int, date: string, morning: bool) returns (digits: string)
    ensures var b := Payload(attractionId, date, morning);
      && FeeLabel(morning) == "新台幣" + digits + "元" && AllDigits(digits) && ValueOf(digits) == b.price
      && (b.price == 2000 <==> b.time == "morning")
      && (b.price == 2500 <==> b.time == "afternoon")
  {
    digits := FeeLabelReads(morning);
  }

  /** What a click on the button does: open the sign-in form, or post. */
  datatype Start = AskSignin | Post(header: string, body: BookingRequest)

  /** The click handler: without a stored token it opens the sign-in form
      and sends nothing; with one it posts the payload with the token as a
      bearer header. */
  function StartBooking(st: AuthClient.Storage, attractionId: int, date: string, morning: bool): (r: Start)
    ensures r.AskSignin? <==> !AuthClient.Holds(st, AuthClient.TokenKey)
    ensures r.Post? ==> StartsWith(r.header, "Bearer ") && r.header[7..] == st[AuthClient.TokenKey]
    ensures r.Post? ==> r.body == Payload(attractionId, date, morning)
  {
    if !AuthClient.Holds(st, AuthClient.TokenKey) then AskSignin
    else
      var h := "Bearer " + st[AuthClient.TokenKey];
      assert h[..7] == "Bearer ";
      Post(h, Payload(attractionId, date, morning))
  }

  const BookingFailed: string := "建立預訂行程失敗"

  /** The answer as the page reads it: whether the status was 2xx, the
      body's `ok` and `message`; or a body that is not JSON. */
  datatype PostAnswer = PostAnswer(responseOk: bool, ok: bool, message: Option<string>) | PostUnreadable

  /** What the page does next. */
  datatype Outcome = GoTo(url: string) | Alert(text: string) | Logged

  /** The answer handler: a 2xx with `ok` goes to the booking page; any
      other answer alerts its `message`, or a fixed text when there is
      none or it is empty; an unreadable body is only logged. */
  function OnPostAnswer(a: PostAnswer): (r: Outcome)
    ensures r == GoTo("/booking") <==> a.PostAnswer? && a.responseOk && a.ok
    ensures r.GoTo? ==> r == GoTo("/booking")
    ensures r.Logged? <==> a.PostUnreadable?
    ensures r.Alert? ==> (r.text == BookingFailed <==> a.message.GetOr("") == "" || a.message.value == BookingFailed)
    ensures r.Alert? && a.message.GetOr("") != "" ==> r.text == a.message.value
  {
    match a
    case PostUnreadable => Logged
    case PostAnswer(responseOk, ok, message) =>
      if responseOk && ok then GoTo("/booking")
      else if message.GetOr("") != "" then Alert(message.value)
      else Alert(BookingFailed)
  }

  /** The body of each reply of `POST /api/booking` as the page reads it.
      Success is `{"ok": true}`; the 400 and 500 replies are
      `{"error": true, "message": ...}`; the 403 comes from the exception
      `get_current_user` raises, and the 422 from validation, and both
      bodies are `{"detail": ...}` with no `message`; the plain-text 500 is
      not JSON. */
  function Received(reply: Reply<bool>): (a: PostAnswer)
    ensures a.PostUnreadable? <==> reply.Crash?
    ensures a.PostAnswer? ==> (a.responseOk <==> reply.Ok?)
    ensures a.PostAnswer? ==> (a.ok <==> reply.Ok? && reply.body)
    ensures a.PostAnswer? ==> (a.message.Some? <==> reply.Error? && reply.status != 403)
    ensures a.PostAnswer? && a.message.Some? ==> a.message.value == reply.message
  {
    match reply
    case Ok(b) => PostAnswer(true, b, None)
    case Error(status, m) => PostAnswer(false, false, if status == 403 then None else Some(m))
    case Invalid => PostAnswer(false, false, None)
    case Crash => PostUnreadable
  }

  /** One click against the server: the outcome and the database after. */
  function Book(st: AuthClient.Storage, attractionId: int, date: string, morning: bool,
                decode: string -> Option<Claims>, db: Db<Store>): (Db<Store>, Option<Outcome>)
  {
    match StartBooking(st, attractionId, date, morning)
    case AskSignin => (db, None)
    case Post(header, body) =>
      var (db', reply) := PostEndpoint(Some(header), decode, db, body);
      (db', Some(OnPostAnswer(Received(reply))))
  }

  /** A click with a stored token the library accepts goes to the booking
      page exactly when the upsert of the payload succeeds, which needs a
      date that parses; for a user with no booking yet, the booking page
      then reads that booking back when the attraction has a name, an
      address and an image, and gets the plain 500 otherwise. A token the
      library rejects, and a date that does not parse, give the fixed
      alert, because neither the 403 nor the 422 body has a message; an
      unreachable database alerts the server's message. Without a token
      nothing is sent. */
  lemma BookingRoundTrip(st: AuthClient.Storage, attractionId: int, date: string, morning: bool,
                         decode: string -> Option<Claims>, s: Store)
    requires Valid(s)
    requires AuthClient.Holds(st, AuthClient.TokenKey) ==> ' ' !in st[AuthClient.TokenKey]
    ensures var (db', out) := Book(st, attractionId, date, morning, decode, Up(s));
      && (out.None? <==> !AuthClient.Holds(st, AuthClient.TokenKey))
      && (out.None? ==> db' == Up(s))
      && (out.Some? && decode(st[AuthClient.TokenKey]).None? ==> out == Some(Alert(BookingFailed)) && db' == Up(s))
      && (out.Some? && !Dates.IsoDate(date) ==> out == Some(Alert(BookingFailed)) && db' == Up(s))
      && (out == Some(GoTo("/booking")) ==> db'.Up? && Valid(db'.tables) && Dates.IsoDate(date))
  {
    if AuthClient.Holds(st, AuthClient.TokenKey) {
      var token := st[AuthClient.TokenKey];
      CurrentUserOfClientHeader(token, decode);
      if decode(token).Some? {
        var (db', out) := Book(st, attractionId, date, morning, decode, Up(s));
        if out == Some(GoTo("/booking")) {
          UpsertEffect(s, decode(token).value.id, attractionId, date,
                       Payload(attractionId, date, morning).time, Fee(morning));
        }
      }
    }
  }

  /** After a click that went to the booking page, a user who had no
      booking reads the new one back when the attraction has a name, an
      address and an image, and gets the plain 500 otherwise. */
  lemma BookedThenRead(st: AuthClient.Storage, attractionId: int, date: string, morning: bool,
                       decode: string -> Option<Claims>, s: Store)
    requires Valid(s)
    requires AuthClient.Holds(st, AuthClient.TokenKey) && ' ' !in st[AuthClient.TokenKey]
    requires decode(st[AuthClient.TokenKey]).Some?
    requires forall j :: 0 <= j < |s.bookings| ==> s.bookings[j].userId != decode(st[AuthClient.TokenKey]).value.id
    ensures var (db', out) := Book(st, attractionId, date, morning, decode, Up(s));
      out == Some(GoTo("/booking")) ==> (
        && db'.Up? && Valid(db'.tables) && HasAttraction(s.attractions, attractionId)
        && var get := GetEndpoint(Some("Bearer " + st[AuthClient.TokenKey]), decode, db');
        && (!Presentable(s, attractionId) ==> get == Crash)
        && (Presentable(s, attractionId) ==>
              && get.Ok? && get.body.Some? && get.body.value.attraction.id == attractionId
              && get.body.value.date == date && get.body.value.price == Fee(morning)
              && get.body.value.time == (if morning then "morning" else "afternoon")))
  {
    var token := st[AuthClient.TokenKey];
    CurrentUserOfClientHeader(token, decode);
    PostThenGet(token, decode, s, Payload(attractionId, date, morning));
  }

  /** A click before a date is picked sends an empty `date`, which the
      server refuses with the 422: the page alerts the fixed text and
      nothing is written. */
  lemma EmptyDateRefused(st: AuthClient.Storage, attractionId: int, morning: bool,
                         decode: string -> Option<Claims>, s: Store)
    requires AuthClient.Holds(st, AuthClient.TokenKey) && ' ' !in st[AuthClient.TokenKey]
    requires decode(st[AuthClient.TokenKey]).Some?
    ensures Book(st, attractionId, "", morning, decode, Up(s)) == (Up(s), Some(Alert(BookingFailed)))
  {
    CurrentUserOfClientHeader(st[AuthClient.TokenKey], decode);
    Dates.Refused();
  }

  /** With the database down, a signed-in click alerts the server's
      message, which names the failure, when the date parses; a date that
      does not parse is refused first, with the fixed alert. */
  lemma BookingWhileDown(st: AuthClient.Storage, attractionId: int, date: string, morning: bool,
                         decode: string -> Option<Claims>, reason: string)
    requires AuthClient.Holds(st, AuthClient.TokenKey) && ' ' !in st[AuthClient.TokenKey]
    requires decode(st[AuthClient.TokenKey]).Some?
    ensures var out := Book(st, attractionId, date, morning, decode, Down(reason)).1;
      && out.Some? && out.value.Alert?
      && (Dates.IsoDate(date) ==> StartsWith(out.value.text, "伺服器內部錯誤："))
      && (!Dates.IsoDate(date) ==> out.value.text == BookingFailed)
  {
    CurrentUserOfClientHeader(st[AuthClient.TokenKey], decode);
    assert ("伺服器內部錯誤：" + reason)[..8] == "伺服器內部錯誤：";
  }
}

=== FILE: attraction_router.dfy ===
/** The status mapping of app/api/routers/attraction.py. Each endpoint
    takes what its query function produced: a value, or the text of the
    exception it raised. */
module AttractionRouter {
  import opened Wrappers
  import opened Http
  import opened Paging
  import opened AttractionCrud

  const PageNotFound: string := "所查詢的頁面不存在"
  const BadAttractionId: string := "景點編號不正確"

  /** The `Attraction` response schema: `name`, `category`,
      `description`, `address` and `transport` are `str`, so a NULL in any
      of them fails validation; `mrt` is optional, and the coordinates and
      images always have their types. */
  predicate Conforms(a: Attraction) {
    && a.name.Some? && a.category.Some? && a.description.Some?
    && a.address.Some? && a.transport.Some?
  }

  /** A row whose shaped record passes the schema. */
  predicate RowConforms(r: Row) {
    && r.name.Some? && r.category.Some? && r.description.Some?
    && r.address.Some? && r.transport.Some?
  }

  /** `GET /api/attractions`: 400 for an empty page, 500 when the query
      raised, otherwise the page as `{nextPage, data}`, which FastAPI then
      validates against `AttractionListResponse`: one attraction that does
      not fit the schema turns the reply into the plain-text 500. */
  function ListEndpoint(q: Result<Page<Attraction>, string>): (r: Reply<Page<Attraction>>)
    ensures r.Ok? <==> q.Success? && q.value.items != [] && forall a :: a in q.value.items ==> Conforms(a)
    ensures r.Ok? ==> r.body == q.value
    ensures q.Success? && q.value.items == [] ==> r == Error(400, PageNotFound)
    ensures q.Failure? ==> r == Error(500, InternalError(q.error))
    ensures r == Crash <==> q.Success? && exists a :: a in q.value.items && !Conforms(a)
  {
    match q
    case Failure(e) => Error(500, InternalError(e))
    case Success(p) =>
      if p.items == [] then Error(400, PageNotFound)
      else if exists a :: a in p.items && !Conforms(a) then Crash
      else Ok(p)
  }

  /** The endpoint over the query: a negative page and a page past the last
      matching row both answer 400; an answer of 200 carries 1 to 12
      attractions and a next page exactly when more rows match. */
  lemma ListOverQuery(db: Db<Tables>, page: int, keyword: Option<string>,
                      decode: string -> Option<seq<string>>)
    ensures var r := ListEndpoint(GetAttractions(db, page, keyword, decode));
      && (db.Up? && page < 0 ==> r == Error(400, PageNotFound))
      && (db.Up? && page >= 0 && |Selected(db.tables, keyword)| <= page * PerPage ==> r == Error(400, PageNotFound))
      && (db.Down? ==> r.Error? && r.status == 500)
      && (r.Ok? ==> page >= 0 && 0 < |r.body.items| <= PerPage)
      && (r.Ok? ==> (r.body.next.Some? <==> (page + 1) * PerPage < |Selected(db.tables, keyword)|))
  {
  }

  /** A shaped row passes the schema exactly when its text columns are
      all non-NULL. */
  lemma ShapeConforms(j: Joined, decode: string -> Option<seq<string>>)
    ensures Conforms(Shape(j, decode)) <==> RowConforms(j.row)
  {
  }

  /** A row of the requested page whose text column is NULL. */
  predicate BadRowOnPage(rows: seq<Joined>, page: int) {
    page >= 0 && exists k :: page * PerPage <= k < |rows| && k < page * PerPage + PerPage && !RowConforms(rows[k].row)
  }

  /** A page of shaped rows crashes the list reply exactly when one of
      those rows has a NULL text column. */
  lemma PageCrashes(pg: Page<Attraction>, rows: seq<Joined>, lo: nat, decode: string -> Option<seq<string>>)
    requires lo + |pg.items| <= |rows|
    requires forall i :: 0 <= i < |pg.items| ==> pg.items[i] == Shape(rows[lo + i], decode)
    ensures ListEndpoint(Success(pg)) == Crash <==> exists k :: lo <= k < lo + |pg.items| && !RowConforms(rows[k].row)
  {
    if exists a :: a in pg.items && !Conforms(a) {
      var a :| a in pg.items && !Conforms(a);
      var i :| 0 <= i < |pg.items| && pg.items[i] == a;
      ShapeConforms(rows[lo + i], decode);
    }
    if exists k :: lo <= k < lo + |pg.items| && !RowConforms(rows[k].row) {
      var k :| lo <= k < lo + |pg.items| && !RowConforms(rows[k].row);
      ShapeConforms(rows[k], decode);
      assert pg.items[k - lo] in pg.items;
    }
  }

  /** Over the query, the list reply crashes exactly when the requested
      page holds a row with a NULL text column. */
  lemma ListCrashes(t: Tables, page: int, keyword: Option<string>, decode: string -> Option<seq<string>>)
    ensures ListEndpoint(GetAttractions(Up(t), page, keyword, decode)) == Crash <==> BadRowOnPage(Selected(t, keyword), page)
  {
    var q := GetAttractions(Up(t), page, keyword, decode);
    var rows := Selected(t, keyword);
    if page >= 0 {
      var lo: nat := page * PerPage;
      var n := |q.value.items|;
      assert n == (if |rows| <= lo then 0 else Min(PerPage, |rows| - lo));
      if n > 0 {
        PageCrashes(q.value, rows, lo, decode);
        assert (exists k :: lo <= k < lo + n && !RowConforms(rows[k].row)) <==>
               (exists k :: lo <= k < |rows| && k < lo + PerPage && !RowConforms(rows[k].row));
      }
    }
  }

  /** `GET /api/attraction/{id}`: 400 when no attraction has the id, 500
      when the query raised, otherwise `{data}`, validated against
      `AttractionDetailResponse`: an attraction that does not fit the
      schema is the plain-text 500. */
  function DetailEndpoint(q: Result<Option<Attraction>, string>): (r: Reply<Attraction>)
    ensures r.Ok? <==> q.Success? && q.value.Some? && Conforms(q.value.value)
    ensures r.Ok? ==> r.body == q.value.value
    ensures q.Success? && q.value.None? ==> r == Error(400, BadAttractionId)
    ensures q.Failure? ==> r == Error(500, InternalError(q.error))
    ensures r == Crash <==> q.Success? && q.value.Some? && !Conforms(q.value.value)
  {
    match q
    case Failure(e) => Error(500, InternalError(e))
    case Success(None) => Error(400, BadAttractionId)
    case Success(Some(a)) => if Conforms(a) then Ok(a) else Crash
  }

  /** Over the query: an id no row carries answers 400; an answer of 200
      is the attraction with the requested id. */
  lemma DetailOverQuery(db: Db<Tables>, id: int, decode: string -> Option<seq<string>>)
    ensures var r := DetailEndpoint(FetchAttractionDetail(db, id, decode));
      && (db.Up? && (forall k :: 0 <= k < |db.tables.attractions| ==> db.tables.attractions[k].id != id) ==>
            r == Error(400, BadAttractionId))
      && (r.Ok? ==> r.body.id == id)
      && (db.Down? ==> r.Error? && r.status == 500)
  {
  }

  /** The first joined row with the id crashes the detail reply exactly
      when it has a NULL text column. */
  lemma FirstCrashes(js: seq<Joined>, id: int, decode: string -> Option<seq<string>>)
    ensures DetailEndpoint(Success(FirstWithId(js, id, decode))) == Crash <==>
      exists k :: 0 <= k < |js| && js[k].row.id == id &&
                  (forall i :: 0 <= i < k ==> js[i].row.id != id) && !RowConforms(js[k].row)
  {
    var r := FirstWithId(js, id, decode);
    if r.Some? {
      var k :| 0 <= k < |js| && js[k].row.id == id && r.value == Shape(js[k], decode) &&
               forall i :: 0 <= i < k ==> js[i].row.id != id;
      ShapeConforms(js[k], decode);
      forall k' | 0 <= k' < |js| && js[k'].row.id == id && (forall i :: 0 <= i < k' ==> js[i].row.id != id)
        ensures k' == k
      {
      }
    }
  }

  /** The detail reply crashes exactly when the first row with the id has
      a NULL text column. */
  lemma DetailCrashes(t: Tables, id: int, decode: string -> Option<seq<string>>)
    ensures DetailEndpoint(FetchAttractionDetail(Up(t), id, decode)) == Crash <==>
      exists k :: 0 <= k < |t.attractions| && t.attractions[k].id == id &&
                  (forall i :: 0 <= i < k ==> t.attractions[i].id != id) && !RowConforms(t.attractions[k])
  {
    var js := Join(t);
    FirstCrashes(js, id, decode);
    assert forall k :: 0 <= k < |js| ==> js[k].row == t.attractions[k];
  }

  /** `GET /api/mrts`: the station list as `{data}`, 500 when the query
      raised. */
  function MrtsEndpoint(q: Result<seq<string>, string>): (r: Reply<seq<string>>)
    ensures r.Ok? <==> q.Success?
    ensures r.Ok? ==> r.body == q.value
    ensures q.Failure? ==> r == Error(500, InternalError(q.error))
  {
    match q
    case Failure(e) => Error(500, InternalError(e))
    case Success(names) => Ok(names)
  }
}

=== FILE: auth_client.dfy ===
/** The sign-in and sign-up dialog and the two navigation buttons shared by
    the home page (static/index.js) and the attraction page
    (static/attraction.js), over an abstract `localStorage`. */
module AuthClient {
  import opened Wrappers
  import opened Text

  /** `localStorage`: keys to strings. */
  type Storage = map<string, string>

  const TokenKey: string := "jwtToken"
  const RedirectKey: string := "redirectAfterLogin"

  const IncompleteSignup: string := "請填寫完整的註冊資訊"
  const IncompleteSignin: string := "請填寫完整的登入資訊"
  const MalformedEmail: string := "請輸入符合格式的電子信箱"
  const NotRegistered: string := "該帳號尚未註冊"
  const WrongPassword: string := "請輸入正確的電子信箱或密碼"
  const SigninFailed: string := "登入失敗，請稍後再試"
  const SignupFailedPrefix: string := "註冊錯誤："
  const SignupDone: string := "註冊成功！"
  const SignedInLabel: string := "登出系統"
  const SignedOutLabel: string := "登入/註冊"

  /** The delay, in milliseconds, before a successful sign-up shows the
      sign-in form. */
  const SwitchDelay: nat := 1000

  /** `if (localStorage.getItem(key))`: stored and not the empty string. */
  predicate Holds(st: Storage, key: string) {
    key in st && st[key] != ""
  }

  /** JavaScript `String(v)` of a value that is a string or `undefined`. */
  function JsString(v: Option<string>): string {
    v.GetOr("undefined")
  }

  /** `validateEmail(email)`: the pattern `^[^@]+@[^@]+$`, read as "split at
      `@` gives exactly two pieces, neither empty". */
  predicate ValidateEmail(s: string) {
    var parts := Split(s, '@');
    |parts| == 2 && parts[0] != "" && parts[1] != ""
  }

  /** An accepted address is a non-empty part without `@`, one `@`, and a
      non-empty part without `@`. */
  lemma EmailParts(s: string) returns (local: string, domain: string)
    requires ValidateEmail(s)
    ensures s == local + "@" + domain
    ensures local != "" && domain != "" && '@' !in local && '@' !in domain
  {
    var parts := Split(s, '@');
    local, domain := parts[0], parts[1];
    JoinSplit(s, '@');
    assert parts[1..] == [domain];
  }

  /** Conversely, every such address is accepted. */
  lemma EmailOfParts(local: string, domain: string)
    requires local != "" && domain != "" && '@' !in local && '@' !in domain
    ensures ValidateEmail(local + "@" + domain)
  {
    var parts := [local, domain];
    assert Join(parts, '@') == local + "@" + domain by {
      assert parts[1..] == [domain];
    }
    SplitJoin(parts, '@');
  }

  /** A message in the dialog, red for an error and green otherwise. */
  datatype Note = Note(error: bool, text: string)

  /** A form either refuses with a message and sends nothing, or sends its
      request. */
  datatype Check<+T> = Refused(message: string) | Send(request: T)

  datatype SignupRequest = SignupRequest(name: string, email: string, password: string)
  datatype SigninRequest = SigninRequest(email: string, password: string)

  /** The guards of `userSignup`: every field filled, then the e-mail shape. */
  function SignupCheck(name: string, email: string, password: string): (r: Check<SignupRequest>)
    ensures r.Send? <==> name != "" && email != "" && password != "" && ValidateEmail(email)
    ensures r.Send? ==> r.request == SignupRequest(name, email, password)
    ensures name == "" || email == "" || password == "" ==> r == Refused(IncompleteSignup)
    ensures r.Refused? && name != "" && email != "" && password != "" ==> r == Refused(MalformedEmail)
  {
    if name == "" || email == "" || password == "" then Refused(IncompleteSignup)
    else if !ValidateEmail(email) then Refused(MalformedEmail)
    else Send(SignupRequest(name, email, password))
  }

  /** The guards of `userSignin`. */
  function SigninCheck(email: string, password: string): (r: Check<SigninRequest>)
    ensures r.Send? <==> email != "" && password != "" && ValidateEmail(email)
    ensures r.Send? ==> r.request == SigninRequest(email, password)
    ensures email == "" || password == "" ==> r == Refused(IncompleteSignin)
    ensures r.Refused? && email != "" && password != "" ==> r == Refused(MalformedEmail)
  {
    if email == "" || password == "" then Refused(IncompleteSignin)
    else if !ValidateEmail(email) then Refused(MalformedEmail)
    else Send(SigninRequest(email, password))
  }

  /** The sign-up button: the inputs are trimmed before the guards. */
  function SignupClick(name: string, email: string, password: string): Check<SignupRequest> {
    SignupCheck(JsTrim(name), JsTrim(email), JsTrim(password))
  }

  /** The sign-in button. */
  function SigninClick(email: string, password: string): Check<SigninRequest> {
    SigninCheck(JsTrim(email), JsTrim(password))
  }

  /** A field of nothing but spaces trims to the empty string. */
  lemma BlankTrimsToEmpty(s: string)
    requires forall i :: 0 <= i < |s| ==> IsJsSpace(s[i])
    ensures JsTrim(s) == ""
  {
  }

  /** A blank field refuses the form before any request, and a request
      carries the trimmed fields. */
  lemma BlankFieldsRefused(name: string, email: string, password: string)
    ensures (forall i :: 0 <= i < |password| ==> IsJsSpace(password[i])) ==>
      SignupClick(name, email, password) == Refused(IncompleteSignup) &&
      SigninClick(email, password) == Refused(IncompleteSignin)
    ensures SigninClick(email, password).Send? ==>
      SigninClick(email, password).request == SigninRequest(JsTrim(email), JsTrim(password))
  {
    if forall i :: 0 <= i < |password| ==> IsJsSpace(password[i]) {
      BlankTrimsToEmpty(password);
    }
  }

  /** The parsed body of the sign-up reply, or a body that is not JSON
      (then the page only logs). */
  datatype SignupReply = SignupReply(error: bool, message: Option<string>) | SignupUnreadable

  /** What a sign-up reply shows, and whether the dialog switches to the
      sign-in form after `SwitchDelay`. The home page prefixes the error
      with `SignupFailedPrefix` (so a missing message reads "undefined");
      the attraction page shows the message as it is (a missing one as
      nothing). */
  datatype SignupOutcome = SignupOutcome(note: Note, switchAfter: Option<nat>) | Logged

  function SignupOnHome(reply: SignupReply): (r: SignupOutcome)
    ensures reply.SignupUnreadable? <==> r.Logged?
    ensures reply.SignupReply? && reply.error ==>
      r == SignupOutcome(Note(true, SignupFailedPrefix + JsString(reply.message)), None)
    ensures reply.SignupReply? && !reply.error ==> r == SignupOutcome(Note(false, SignupDone), Some(SwitchDelay))
  {
    match reply
    case SignupUnreadable => Logged
    case SignupReply(error, message) =>
      if error then SignupOutcome(Note(true, SignupFailedPrefix + JsString(message)), None)
      else SignupOutcome(Note(false, SignupDone), Some(SwitchDelay))
  }

  function SignupOnAttraction(reply: SignupReply): (r: SignupOutcome)
    ensures reply.SignupUnreadable? <==> r.Logged?
    ensures reply.SignupReply? && reply.error ==> r == SignupOutcome(Note(true, reply.message.GetOr("")), None)
    ensures reply.SignupReply? && !reply.error ==> r == SignupOutcome(Note(false, SignupDone), Some(SwitchDelay))
  {
    match reply
    case SignupUnreadable => Logged
    case SignupReply(error, message) =>
      if error then SignupOutcome(Note(true, message.GetOr("")), None)
      else SignupOutcome(Note(false, SignupDone), Some(SwitchDelay))
  }

  /** The two pages tell the same story: they agree on success, and an
      error message shown on the attraction page appears after the prefix
      on the home page. */
  lemma SignupPagesAgree(reply: SignupReply, message: string)
    requires reply.SignupReply? && reply.message == Some(message)
    ensures SignupOnHome(reply).SignupOutcome? && SignupOnAttraction(reply).SignupOutcome?
    ensures SignupOnHome(reply).switchAfter == SignupOnAttraction(reply).switchAfter
    ensures reply.error ==> SignupOnHome(reply).note.text == SignupFailedPrefix + SignupOnAttraction(reply).note.text
    ensures !reply.error ==> SignupOnHome(reply) == SignupOnAttraction(reply)
  {
  }

  /** The parsed body of the sign-in reply with its HTTP status, or a reply
      that could not be fetched or parsed (then the page only logs). */
  datatype SigninReply = SigninReply(status: nat, detail: Option<string>, token: Option<string>) | SigninUnreadable

  /** The message a 400 reply shows. */
  function RefusalNote(detail: Option<string>): (n: Note)
    ensures n.error
    ensures detail == Some("User not found") <==> n.text == NotRegistered
    ensures detail == Some("Invalid credentials") <==> n.text == WrongPassword
    ensures n.text in {NotRegistered, WrongPassword, SigninFailed}
  {
    if detail == Some("User not found") then Note(true, NotRegistered)
    else if detail == Some("Invalid credentials") then Note(true, WrongPassword)
    else Note(true, SigninFailed)
  }

  /** What a sign-in reply does: the storage afterwards, the message shown,
      the page navigated to, and whether the dialog closes. */
  datatype SigninEffect = SigninEffect(storage: Storage, note: Option<Note>, navigate: Option<string>, closes: bool)

  /** `userSignin` on the home page: a 400 shows the mapped message; every
      other status counts as success, stores `String(data.token)` and goes
      to "/". */
  function SigninOnHome(st: Storage, reply: SigninReply): (r: SigninEffect)
    ensures reply.SigninUnreadable? ==> r == SigninEffect(st, None, None, false)
    ensures reply.SigninReply? && reply.status == 400 ==>
      r == SigninEffect(st, Some(RefusalNote(reply.detail)), None, false)
    ensures reply.SigninReply? && reply.status != 400 ==>
      && r.storage == st[TokenKey := JsString(reply.token)]
      && r.navigate == Some("/") && r.note.None?
  {
    match reply
    case SigninUnreadable => SigninEffect(st, None, None, false)
    case SigninReply(status, detail, token) =>
      if status == 400 then SigninEffect(st, Some(RefusalNote(detail)), None, false)
      else SigninEffect(st[TokenKey := JsString(token)], None, Some("/"), false)
  }

  /** `userSignin` on the attraction page, the later of its two
      declarations, which is the one the page runs: the same refusals; on
      success it stores the token and the current address `here` as the
      post-login redirect, and closes the dialog without navigating. */
  function SigninOnAttraction(st: Storage, reply: SigninReply, here: string): (r: SigninEffect)
    ensures reply.SigninUnreadable? ==> r == SigninEffect(st, None, None, false)
    ensures reply.SigninReply? && reply.status == 400 ==>
      r == SigninEffect(st, Some(RefusalNote(reply.detail)), None, false)
    ensures reply.SigninReply? && reply.status != 400 ==>
      && r.storage == st[TokenKey := JsString(reply.token)][RedirectKey := here]
      && r.navigate.None? && r.closes && r.note.None?
  {
    match reply
    case SigninUnreadable => SigninEffect(st, None, None, false)
    case SigninReply(status, detail, token) =>
      if status == 400 then SigninEffect(st, Some(RefusalNote(detail)), None, false)
      else SigninEffect(st[TokenKey := JsString(token)][RedirectKey := here], None, None, true)
  }

  /** Any status but 400 signs the page in, even without a token: the
      stored text is then "undefined", which the buttons treat as a token. */
  lemma TokenlessReplySignsIn(st: Storage, status: nat, detail: Option<string>)
    requires status != 400
    ensures var r := SigninOnHome(st, SigninReply(status, detail, None));
      r.storage[TokenKey] == "undefined" && Holds(r.storage, TokenKey) && LoginLabel(r.storage) == SignedInLabel
  {
  }

  /** The attraction page's load handler: a stored redirect is removed and
      then followed. */
  function OnLoad(st: Storage): (r: (Storage, Option<string>))
    ensures r.1.Some? <==> Holds(st, RedirectKey)
    ensures r.1.Some? ==> r.1.value == st[RedirectKey] && r.0 == st - {RedirectKey}
    ensures r.1.None? ==> r.0 == st
    ensures !Holds(r.0, RedirectKey)
  {
    if Holds(st, RedirectKey) then (st - {RedirectKey}, Some(st[RedirectKey])) else (st, None)
  }

  /** The redirect is consumed once: the load after a successful sign-in on
      page `here` goes back to `here`, and the load after that goes
      nowhere. The token stays. */
  lemma RedirectConsumedOnce(st: Storage, token: Option<string>, here: string)
    requires here != ""
    ensures var signedIn := SigninOnAttraction(st, SigninReply(200, None, token), here).storage;
      var (st1, go1) := OnLoad(signedIn);
      var (st2, go2) := OnLoad(st1);
      go1 == Some(here) && go2.None? && st2 == st1 && TokenKey in st1 && st1[TokenKey] == JsString(token)
  {
  }

  /** What a navigation button does. */
  datatype Action = Navigate(url: string) | Reload | OpenSignin

  /** The label of the login button. */
  function LoginLabel(st: Storage): (caption: string)
    ensures caption == SignedInLabel <==> Holds(st, TokenKey)
  {
    if Holds(st, TokenKey) then SignedInLabel else SignedOutLabel
  }

  /** The login button: signed in, it removes the token and reloads;
      otherwise it opens the sign-in form. */
  function LoginClick(st: Storage): (r: (Storage, Action))
    ensures Holds(st, TokenKey) ==> r == (st - {TokenKey}, Reload)
    ensures !Holds(st, TokenKey) ==> r == (st, OpenSignin)
  {
    if Holds(st, TokenKey) then (st - {TokenKey}, Reload) else (st, OpenSignin)
  }

  /** The booking button: signed in, it goes to the booking page; otherwise
      it opens the sign-in form. */
  function ReserveClick(st: Storage): (a: Action)
    ensures a == Navigate("/booking") <==> Holds(st, TokenKey)
    ensures a != Navigate("/booking") ==> a == OpenSignin
  {
    if Holds(st, TokenKey) then Navigate("/booking") else OpenSignin
  }

  /** Signing out leaves the page signed out: the label offers signing in
      and the booking button asks for it; signing out twice is signing out
      once. */
  lemma LogoutSignsOut(st: Storage)
    requires Holds(st, TokenKey)
    ensures var st' := LoginClick(st).0;
      && LoginLabel(st') == SignedOutLabel
      && ReserveClick(st') == OpenSignin
      && LoginClick(st') == (st', OpenSignin)
  {
  }
}

=== FILE: booking_page.dfy ===
/** The booking page, static/booking.js: the sign-in gate, the booking read
    from `GET /api/booking` and rendered field by field, the empty state,
    and the delete button. */
module BookingPage {
  import opened Wrappers
  import opened Http
  import opened Text
  import opened Decimal
  import opened Deps
  import opened BookingStore
  import opened BookingRouter
  import AuthClient
  import AttractionPage
  import Dates

  const HomeUrl: string := "/"
  const Anonymous: string := "使用者"
  const MorningText: string := "早上9點到下午4點"
  const AfternoonText: string := "下午2點到晚上9點"
  const AllDayText: string := "全天"

  /** A booking as the page reads it from a reply's `data` (or from the
      session copy): `userName` is read but the server never sends one. */
  datatype Info = Info(userName: Option<string>, attractionName: Option<string>, address: Option<string>,
                       image: Option<string>, date: string, time: string, price: int)

  /** The `data` of a `GET /api/booking` reply: no `userName`. */
  function FromView(v: BookingView): (i: Info)
    ensures i.userName.None?
    ensures (i.attractionName, i.address, i.image) == (v.attraction.name, v.attraction.address, v.attraction.image)
    ensures (i.date, i.time, i.price) == (v.date, v.time, v.price)
  {
    Info(None, v.attraction.name, v.attraction.address, v.attraction.image, v.date, v.time, v.price)
  }

  /** `if (x)` on a string that may be absent. */
  predicate Truthy(s: Option<string>) {
    s.Some? && s.value != ""
  }

  /** JavaScript's rendering of an integer in a template string. */
  function JsNumber(n: int): (s: string)
    ensures n >= 0 ==> s == Show(n)
  {
    if n < 0 then "-" + Show(-n) else Show(n)
  }

  /** The time slot's text: the two half-days by name, anything else as the
      whole day. */
  function TimeText(time: string): (text: string)
    ensures text == MorningText <==> time == "morning"
    ensures text == AfternoonText <==> time == "afternoon"
    ensures text == AllDayText <==> time != "morning" && time != "afternoon"
  {
    if time == "morning" then MorningText
    else if time == "afternoon" then AfternoonText
    else AllDayText
  }

  /** The greeting: the user's name, or a generic word for it. */
  function Greeting(info: Info): (g: string)
    ensures !Truthy(info.userName) ==> g == "您好，" + Anonymous + "，待預定的行程如下："
  {
    "您好，" + (if Truthy(info.userName) then info.userName.value else Anonymous) + "，待預定的行程如下："
  }

  /** The text of each element `updateBookingPage` writes; `None` is the
      page's own content, not written yet. */
  datatype Panel = Panel(greeting: Option<string>, title: Option<string>, time: Option<string>,
                         address: Option<string>, date: Option<string>, image: Option<string>,
                         price: Option<string>)

  const Untouched: Panel := Panel(None, None, None, None, None, None, None)

  /** `updateBookingPage(info)`: the greeting is always written; every
      other element only when its value is truthy, so a missing value
      leaves what was there. */
  function Update(p: Panel, info: Info): (q: Panel)
    ensures q.greeting == Some(Greeting(info))
    ensures !Truthy(info.attractionName) ==> q.title == p.title
    ensures info.time == "" ==> q.time == p.time
    ensures !Truthy(info.address) ==> q.address == p.address
    ensures info.date == "" ==> q.date == p.date
    ensures !Truthy(info.image) ==> q.image == p.image
    ensures info.price == 0 ==> q.price == p.price
    ensures Truthy(info.attractionName) ==> q.title.Some? && EndsWith(q.title.value, info.attractionName.value)
    ensures info.time != "" ==> q.time.Some? && EndsWith(q.time.value, TimeText(info.time))
    ensures info.date != "" ==> q.date.Some? && EndsWith(q.date.value, info.date)
    ensures Truthy(info.address) ==> q.address.Some? && EndsWith(q.address.value, info.address.value)
    ensures Truthy(info.image) ==> q.image == info.image
    ensures info.price > 0 ==> q.price.Some? && EndsWith(q.price.value, Show(info.price) + "元")
  {
    var title := "台北一日遊：" + info.attractionName.GetOr("");
    var time := "<span>時間：</span>" + TimeText(info.time);
    var date := "<span>日期：</span>" + info.date;
    assert title[|title| - |info.attractionName.GetOr("")|..] == info.attractionName.GetOr("");
    assert time[|time| - |TimeText(info.time)|..] == TimeText(info.time);
    assert date[|date| - |info.date|..] == info.date;
    var address := "<span>地點：</span>" + info.address.GetOr("");
    assert address[|address| - |info.address.GetOr("")|..] == info.address.GetOr("");
    var price := "<span>費用：</span>新台幣" + JsNumber(info.price) + "元";
    assert info.price > 0 ==> EndsWith(price, Show(info.price) + "元") by {
      if info.price > 0 {
        var digits := Show(info.price) + "元";
        assert price == "<span>費用：</span>新台幣" + digits;
        assert price[|price| - |digits|..] == digits;
      }
    }
    Panel(
      Some(Greeting(info)),
      if Truthy(info.attractionName) then Some(title) else p.title,
      if info.time != "" then Some(time) else p.time,
      if Truthy(info.address) then Some(address) else p.address,
      if info.date != "" then Some(date) else p.date,
      if Truthy(info.image) then info.image else p.image,
      if info.price != 0 then Some(price) else p.price)
  }

  /** Rendering the same booking twice shows what rendering it once does. */
  lemma UpdateTwice(p: Panel, info: Info)
    ensures Update(Update(p, info), info) == Update(p, info)
  {
  }

  /** The page: what it shows, whether the empty state replaced it, the
      session copy of the booking, and whether a delete handler is bound. */
  datatype Page = Page(panel: Panel, empty: bool, session: Option<Info>, deletable: bool)

  /** Where the page is after loading: gone home, or open with the header
      of the read it sent. */
  datatype Opened = GoHome | Opened(page: Page, header: string)

  /** The page on load: without a stored token it goes home and requests
      nothing; with one, it renders the session copy if there is one and
      asks for the booking with the token as a bearer header. */
  function Open(st: AuthClient.Storage, session: Option<Info>): (r: Opened)
    ensures r.GoHome? <==> !AuthClient.Holds(st, AuthClient.TokenKey)
    ensures r.Opened? ==> StartsWith(r.header, "Bearer ") && r.header[7..] == st[AuthClient.TokenKey]
    ensures r.Opened? ==> !r.page.empty && r.page.session == session && (r.page.deletable <==> session.Some?)
    ensures r.Opened? && session.None? ==> r.page.panel == Untouched
  {
    if !AuthClient.Holds(st, AuthClient.TokenKey) then GoHome
    else
      var h := "Bearer " + st[AuthClient.TokenKey];
      assert h[..7] == "Bearer ";
      var shown := if session.Some? then Update(Untouched, session.value) else Untouched;
      Opened(Page(shown, false, session, session.Some?), h)
  }

  /** The answer to the read: whether the status was 2xx and the `data`;
      or a body that is not JSON. */
  datatype GetAnswer = GetAnswer(responseOk: bool, data: Option<Info>) | GetUnreadable

  /** The read's handler: a failed status or an unreadable body only logs;
      a booking is rendered and binds the delete handler; no booking shows
      the empty state. */
  function OnGet(pg: Page, a: GetAnswer): (r: Page)
    ensures a.GetUnreadable? || !a.responseOk ==> r == pg
    ensures a.GetAnswer? && a.responseOk && a.data.None? ==> r == pg.(empty := true)
    ensures a.GetAnswer? && a.responseOk && a.data.Some? ==>
      r.deletable && r.empty == pg.empty && r.session == pg.session && r.panel == Update(pg.panel, a.data.value)
  {
    match a
    case GetUnreadable => pg
    case GetAnswer(responseOk, data) =>
      if !responseOk then pg
      else if data.Some? then pg.(panel := Update(pg.panel, data.value), deletable := true)
      else pg.(empty := true)
  }

  /** The body of each reply of `GET /api/booking` as the page reads it: a
      booking, `null`, or a failed status, which the page checks before
      reading the body, so the plain-text 500 is only a failed status. */
  function ReceivedGet(reply: Reply<Option<BookingView>>): (a: GetAnswer)
    ensures a.GetAnswer? && (a.responseOk <==> reply.Ok?)
    ensures a.data.Some? <==> reply.Ok? && reply.body.Some?
    ensures a.data.Some? ==> a.data.value == FromView(reply.body.value)
  {
    match reply
    case Ok(Some(v)) => GetAnswer(true, Some(FromView(v)))
    case Ok(None) => GetAnswer(true, None)
    case Error(_, _) => GetAnswer(false, None)
    case Invalid => GetAnswer(false, None)
    case Crash => GetAnswer(false, None)
  }

  /** The answer to the deletion. */
  datatype DeleteAnswer = DeleteAnswer(responseOk: bool, ok: bool) | DeleteUnreadable

  /** The delete button's handler: a 2xx with `ok` shows the empty state
      and drops the session copy; anything else only logs. Before a
      booking has been rendered the button has no handler. */
  function OnDelete(pg: Page, a: DeleteAnswer): (r: Page)
    ensures r != pg ==> pg.deletable && a.DeleteAnswer? && a.responseOk && a.ok
    ensures pg.deletable && a.DeleteAnswer? && a.responseOk && a.ok ==>
      r == pg.(empty := true, session := None)
  {
    if pg.deletable && a.DeleteAnswer? && a.responseOk && a.ok then pg.(empty := true, session := None)
    else pg
  }

  /** The body of each reply of `DELETE /api/booking` as the page reads
      it. */
  function ReceivedDelete(reply: Reply<bool>): (a: DeleteAnswer)
    ensures a.DeleteAnswer? && (a.responseOk <==> reply.Ok?) && (a.ok <==> reply.Ok? && reply.body)
  {
    match reply
    case Ok(b) => DeleteAnswer(true, b)
    case Error(_, _) => DeleteAnswer(false, false)
    case Invalid => DeleteAnswer(false, false)
    case Crash => DeleteAnswer(false, false)
  }

  /** The page opened with the stored token against the server. */
  function Load(st: AuthClient.Storage, decode: string -> Option<Claims>, db: Db<Store>): Opened
    requires db.Up? ==> Valid(db.tables)
  {
    match Open(st, None)
    case GoHome => GoHome
    case Opened(pg, header) => Opened(OnGet(pg, ReceivedGet(GetEndpoint(Some(header), decode, db))), header)
  }

  /** The page never learns the user's name: whatever the server answers,
      the greeting, once written, addresses the generic user. */
  lemma GreetingIsGeneric(st: AuthClient.Storage, decode: string -> Option<Claims>, db: Db<Store>)
    requires db.Up? ==> Valid(db.tables)
    ensures var r := Load(st, decode, db);
      r.Opened? && r.page.panel.greeting.Some? ==> r.page.panel.greeting.value == "您好，" + Anonymous + "，待預定的行程如下："
  {
  }

  /** A server that refuses the token, or whose database is down, leaves
      the page as it opened: nothing written, no empty state, nothing to
      delete. */
  lemma RefusedLoadShowsNothing(st: AuthClient.Storage, decode: string -> Option<Claims>, reason: string)
    requires AuthClient.Holds(st, AuthClient.TokenKey) && ' ' !in st[AuthClient.TokenKey]
    ensures var r := Load(st, decode, Down(reason));
      r.Opened? && r.page == Page(Untouched, false, None, false)
    ensures decode(st[AuthClient.TokenKey]).None? ==>
      forall s: Store :: Valid(s) ==>
        var r := Load(st, decode, Up(s));
        r.Opened? && r.page == Page(Untouched, false, None, false)
  {
    CurrentUserOfClientHeader(st[AuthClient.TokenKey], decode);
  }

  /** A booking of a half-day at its fee renders the half-day by name,
      the date, and the fee in the words of the attraction page's label. */
  lemma ShownBooking(v: BookingView, date: string, morning: bool)
    requires v.date == date && v.time == (if morning then "morning" else "afternoon")
    requires v.price == AttractionPage.Fee(morning)
    ensures var p := Update(Untouched, FromView(v));
      && p.time == Some("<span>時間：</span>" + (if morning then MorningText else AfternoonText))
      && p.price == Some("<span>費用：</span>" + AttractionPage.FeeLabel(morning))
      && (date != "" ==> p.date == Some("<span>日期：</span>" + date))
  {
    var fee := AttractionPage.Fee(morning);
    assert JsNumber(fee) == Show(fee);
    assert "<span>費用：</span>新台幣" + Show(fee) + "元" == "<span>費用：</span>" + ("新台幣" + Show(fee) + "元");
  }

  /** Booking on the attraction page, with no earlier booking, and then
      opening this page shows the booked half-day by name, the date, and
      the price in the same words as the fee label the attraction page
      showed, when the attraction has a name, an address and an image;
      otherwise the read is the plain 500 and the page stays as it opened. */
  lemma BookedTripShown(st: AuthClient.Storage, attractionId: int, date: string, morning: bool,
                        decode: string -> Option<Claims>, s: Store)
    requires Valid(s)
    requires AuthClient.Holds(st, AuthClient.TokenKey) && ' ' !in st[AuthClient.TokenKey]
    requires decode(st[AuthClient.TokenKey]).Some?
    requires forall j :: 0 <= j < |s.bookings| ==> s.bookings[j].userId != decode(st[AuthClient.TokenKey]).value.id
    ensures var (db', out) := AttractionPage.Book(st, attractionId, date, morning, decode, Up(s));
      out == Some(AttractionPage.GoTo("/booking")) ==> (
        && db'.Up? && Valid(db'.tables) && HasAttraction(s.attractions, attractionId)
        && var r := Load(st, decode, db');
        && r.Opened?
        && (!Presentable(s, attractionId) ==> r.page == Page(Untouched, false, None, false))
        && (Presentable(s, attractionId) ==>
              && !r.page.empty && r.page.deletable
              && r.page.panel.time == Some("<span>時間：</span>" + (if morning then MorningText else AfternoonText))
              && r.page.panel.price == Some("<span>費用：</span>" + AttractionPage.FeeLabel(morning))
              && r.page.panel.date == Some("<span>日期：</span>" + date)))
  {
    AttractionPage.BookingRoundTrip(st, attractionId, date, morning, decode, s);
    AttractionPage.BookedThenRead(st, attractionId, date, morning, decode, s);
    var (db', out) := AttractionPage.Book(st, attractionId, date, morning, decode, Up(s));
    if out == Some(AttractionPage.GoTo("/booking")) {
      var header := "Bearer " + st[AuthClient.TokenKey];
      assert Open(st, None) == Opened(Page(Untouched, false, None, false), header);
      if Presentable(s, attractionId) {
        var get := GetEndpoint(Some(header), decode, db');
        assert date != "" by { Dates.Refused(); }
        ShownBooking(get.body.value, date, morning);
      }
    }
  }

  /** Deleting through the button empties the page and the session copy,
      and opening the page again shows the empty state. */
  lemma DeleteThenReopen(st: AuthClient.Storage, decode: string -> Option<Claims>, s: Store, pg: Page)
    requires Valid(s) && pg.deletable
    requires AuthClient.Holds(st, AuthClient.TokenKey) && ' ' !in st[AuthClient.TokenKey]
    requires decode(st[AuthClient.TokenKey]).Some?
    ensures var (db', reply) := DeleteEndpoint(Some("Bearer " + st[AuthClient.TokenKey]), decode, Up(s));
      && OnDelete(pg, ReceivedDelete(reply)) == pg.(empty := true, session := None)
      && db'.Up? && Valid(db'.tables)
      && var r := Load(st, decode, db');
         r.Opened? && r.page.empty && !r.page.deletable && r.page.panel == Untouched
  {
    var token := st[AuthClient.TokenKey];
    CurrentUserOfClientHeader(token, decode);
    DeleteThenGet(s, decode(token).value.id);
  }
}

=== FILE: booking_router.dfy ===
/** app/api/routers/booking.py: `GET`, `POST` and `DELETE /api/booking`,
    each behind `get_current_user`. Every endpoint returns the reply and,
    for the writing ones, the database afterwards. */
module BookingRouter {
  import opened Wrappers
  import opened Http
  import opened Deps
  import opened BookingStore
  import Dates

  const BackendError: string := "後端錯誤"

  /** What the upsert raised: a `ValueError` or any other exception. */
  datatype Raised = ValueErr(message: string) | OtherErr(message: string)

  /** The body of a `POST`: `BookingModel`. */
  datatype BookingRequest = BookingRequest(attractionId: int, date: string, time: string, price: int)

  /** A booking the reply model `BookingGetResponse` accepts: its
      attraction has a name, an address and an image, each a `str`. */
  predicate Shows(v: BookingView) {
    v.attraction.name.Some? && v.attraction.address.Some? && v.attraction.image.Some?
  }

  /** `GET /api/booking`. A booking whose attraction lacks a name, an
      address or an image fails `response_model` validation: a plain 500. */
  function GetEndpoint(header: Option<string>, decode: string -> Option<Claims>, db: Db<Store>): (r: Reply<Option<BookingView>>)
    requires db.Up? ==> Valid(db.tables)
    ensures CurrentUser(header, decode).Failure? ==> r == Error(403, CurrentUser(header, decode).error)
    ensures CurrentUser(header, decode).Success? && db.Down? ==> r == Error(500, BackendError)
    ensures r.Ok? ==> db.Up? && CurrentUser(header, decode).Success?
    ensures r.Ok? ==> r.body == GetBooking(db, CurrentUser(header, decode).value.id).value
    ensures r.Ok? && r.body.Some? ==> Shows(r.body.value)
    ensures r.Crash? <==>
      && CurrentUser(header, decode).Success? && db.Up?
      && var g := GetBooking(db, CurrentUser(header, decode).value.id);
      g.Success? && g.value.Some? && !Shows(g.value.value)
    ensures !r.Invalid?
  {
    match CurrentUser(header, decode)
    case Failure(m) => Error(403, m)
    case Success(user) =>
      match GetBooking(db, user.id)
      case Failure(_) => Error(500, BackendError)
      case Success(data) => if data.Some? && !Shows(data.value) then Crash else Ok(data)
  }

  /** The reply of `create_booking` to the outcome of the upsert. */
  function PostReply(outcome: Result<Store, Raised>): (r: Reply<bool>)
    ensures r.Ok? <==> outcome.Success?
    ensures r.Ok? ==> r.body
    ensures outcome.Failure? && outcome.error.ValueErr? ==> r == Error(400, outcome.error.message)
    ensures outcome.Failure? && outcome.error.OtherErr? ==> r == Error(500, InternalError(outcome.error.message))
  {
    match outcome
    case Success(_) => Ok(true)
    case Failure(ValueErr(m)) => Error(400, m)
    case Failure(OtherErr(m)) => Error(500, InternalError(m))
  }

  /** `POST /api/booking`: the upsert for the signed-in user. The token is
      checked before the body, so a signed-out request is a 403 whatever it
      carries; a `date` that does not parse is the 422 of `BookingModel`
      and reaches no handler code. The date is stored as the `date` value
      it parses to. The upsert raises only database errors, so the 400
      branch is never taken. */
  function PostEndpoint(header: Option<string>, decode: string -> Option<Claims>, db: Db<Store>,
                        req: BookingRequest): (r: (Db<Store>, Reply<bool>))
    ensures CurrentUser(header, decode).Failure? ==> r == (db, Error(403, CurrentUser(header, decode).error))
    ensures CurrentUser(header, decode).Success? && !Dates.IsoDate(req.date) ==> r == (db, Invalid)
    ensures r.1.Error? ==> r.0 == db && r.1.status != 400
    ensures !r.1.Crash?
    ensures r.1.Ok? ==> r.1.body && r.0.Up? && CurrentUser(header, decode).Success? && Dates.IsoDate(req.date)
    ensures r.1.Ok? ==>
      Upsert(db, CurrentUser(header, decode).value.id, req.attractionId, req.date, req.time, req.price) == Success(r.0.tables)
  {
    match CurrentUser(header, decode)
    case Failure(m) => (db, Error(403, m))
    case Success(user) =>
      if !Dates.IsoDate(req.date) then (db, Invalid)
      else
        var (y, m, d) := Dates.Parse(req.date);
        Dates.FormatOfParse(req.date);
        match Upsert(db, user.id, req.attractionId, Dates.IsoFormat(y, m, d), req.time, req.price)
        case Failure(e) => (db, PostReply(Failure(OtherErr(e))))
        case Success(st) => (Up(st), PostReply(Success(st)))
  }

  /** `DELETE /api/booking`: `{ok: true}` for a signed-in user whether or
      not anything was deleted, and even when the deletion failed. */
  function DeleteEndpoint(header: Option<string>, decode: string -> Option<Claims>, db: Db<Store>): (r: (Db<Store>, Reply<bool>))
    ensures CurrentUser(header, decode).Failure? ==> r == (db, Error(403, CurrentUser(header, decode).error))
    ensures CurrentUser(header, decode).Success? ==> r.1 == Ok(true)
    ensures CurrentUser(header, decode).Success? && db.Up? ==>
      r.0.Up? && forall b :: b in r.0.tables.bookings <==> b in db.tables.bookings && b.userId != CurrentUser(header, decode).value.id
  {
    match CurrentUser(header, decode)
    case Failure(m) => (db, Error(403, m))
    case Success(user) => (Delete(db, user.id).0, Ok(true))
  }

  /** The booking the attraction's columns make presentable. */
  predicate Presentable(st: Store, attractionId: int)
    requires HasAttraction(st.attractions, attractionId)
  {
    var a := AttractionById(st.attractions, attractionId);
    a.name.Some? && a.address.Some? && FirstImage(a.images).Some?
  }

  /** A client that sends `Bearer <token>` for a token the library accepts
      and has no booking yet books and reads back: the `POST` succeeds only
      for a date that parses, and the `GET` then shows the booking, with the
      date written as it was sent, when the attraction has a name, an
      address and an image, and is a plain 500 otherwise. */
  lemma PostThenGet(token: string, decode: string -> Option<Claims>, st: Store, req: BookingRequest)
    requires ' ' !in token && decode(token).Some?
    requires Valid(st)
    requires forall j :: 0 <= j < |st.bookings| ==> st.bookings[j].userId != decode(token).value.id
    ensures var (db', post) := PostEndpoint(Some("Bearer " + token), decode, Up(st), req);
      && (!Dates.IsoDate(req.date) ==> db' == Up(st) && post == Invalid)
      && (post.Ok? ==>
        && db'.Up? && Valid(db'.tables) && HasAttraction(st.attractions, req.attractionId)
        && var get := GetEndpoint(Some("Bearer " + token), decode, db');
        && (!Presentable(st, req.attractionId) ==> get == Crash)
        && (Presentable(st, req.attractionId) ==>
              && get.Ok? && get.body.Some? && get.body.value.attraction.id == req.attractionId
              && (get.body.value.date, get.body.value.time, get.body.value.price) == (req.date, req.time, req.price)))
  {
    CurrentUserOfClientHeader(token, decode);
    var (db', post) := PostEndpoint(Some("Bearer " + token), decode, Up(st), req);
    if post.Ok? {
      UpsertThenGet(st, decode(token).value.id, req.attractionId, req.date, req.time, req.price);
      var bs' := db'.tables.bookings;
      var j := |st.bookings|;
      assert FirstOfUser(bs', decode(token).value.id) == Some(j);
      assert HasAttraction(db'.tables.attractions, bs'[j].attractionId);
    }
  }

  /** A client that already has a booking books again: the `GET` still
      shows the older booking, unchanged when the new one is for another
      attraction and with the new date, time and price when it is for the
      same one. */
  lemma PostThenGetOlder(token: string, decode: string -> Option<Claims>, st: Store, req: BookingRequest)
    requires ' ' !in token && decode(token).Some?
    requires Valid(st)
    requires FirstOfUser(st.bookings, decode(token).value.id).Some?
    ensures var older := st.bookings[FirstOfUser(st.bookings, decode(token).value.id).value];
      var (db', post) := PostEndpoint(Some("Bearer " + token), decode, Up(st), req);
      post.Ok? ==> (
        && db'.Up? && Valid(db'.tables)
        && var get := GetEndpoint(Some("Bearer " + token), decode, db');
        && (older.attractionId != req.attractionId ==> get == GetEndpoint(Some("Bearer " + token), decode, Up(st)))
        && (older.attractionId == req.attractionId && get.Ok? ==>
              && get.body.Some? && get.body.value.id == older.id
              && (get.body.value.date, get.body.value.time, get.body.value.price) == (req.date, req.time, req.price)))
  {
    CurrentUserOfClientHeader(token, decode);
    var (db', post) := PostEndpoint(Some("Bearer " + token), decode, Up(st), req);
    if post.Ok? {
      var u := decode(token).value.id;
      UpsertThenGetOlder(st, u, req.attractionId, req.date, req.time, req.price);
      UpsertKeepsFirst(st, u, req.attractionId, req.date, req.time, req.price);
    }
  }
}

=== FILE: booking_store.dfy ===
/** The `bookings` table and app/crud/booking.py: read a user's booking,
    insert-or-update one keyed on (user, attraction), delete all of a
    user's bookings. The table is kept in insertion order, which is the
    order `.first()` and the deletion see. */
module BookingStore {
  import opened Wrappers
  import opened Seqs

  /** A row of `bookings`. */
  datatype Booking = Booking(id: nat, userId: int, attractionId: int, date: string, time: string, price: int)

  /** The `images` JSON column: a list of URLs, or some other JSON value
      or NULL. For the latter, `extracted` is what MySQL's
      `JSON_UNQUOTE(JSON_EXTRACT(images, '$[0]'))` gives: a value that is
      not an array reads as a one-element array, so a string gives its own
      text and any other value its JSON text; NULL gives NULL. */
  datatype Images = ImageList(urls: seq<string>) | NotAList(extracted: Option<string>)

  /** The columns of an `attractions` row a booking shows. */
  datatype AttractionInfo = AttractionInfo(id: int, name: Option<string>, address: Option<string>, images: Images)

  /** The bookings, the next `AUTO_INCREMENT` id, and the attractions the
      foreign key refers to. */
  datatype Store = Store(bookings: seq<Booking>, nextId: nat, attractions: seq<AttractionInfo>)

  predicate HasAttraction(attractions: seq<AttractionInfo>, id: int) {
    exists k :: 0 <= k < |attractions| && attractions[k].id == id
  }

  /** The constraints of the table: ids are unique and below the next id,
      and every booking refers to an existing attraction. */
  ghost predicate Valid(st: Store) {
    && (forall i, j :: 0 <= i < j < |st.bookings| ==> st.bookings[i].id != st.bookings[j].id)
    && (forall i :: 0 <= i < |st.bookings| ==> st.bookings[i].id < st.nextId)
    && (forall i :: 0 <= i < |st.bookings| ==> HasAttraction(st.attractions, st.bookings[i].attractionId))
  }

  /** At most one booking per (user, attraction) pair. */
  ghost predicate PairsUnique(bs: seq<Booking>) {
    forall i, j :: 0 <= i < j < |bs| ==>
      !(bs[i].userId == bs[j].userId && bs[i].attractionId == bs[j].attractionId)
  }

  // ---------------------------------------------------------------------
  // get_booking_for_user

  /** The attraction part of the reply. */
  datatype AttractionView = AttractionView(id: int, name: Option<string>, address: Option<string>, image: Option<string>)

  /** The booking the reply shows. */
  datatype BookingView = BookingView(id: nat, attraction: AttractionView, date: string, time: string, price: int)

  /** The first image when `images` is a non-empty list, else `None`. */
  function FirstImage(images: Images): (r: Option<string>)
    ensures r.Some? <==> images.ImageList? && |images.urls| > 0
    ensures r.Some? ==> r.value == images.urls[0]
  {
    if images.ImageList? && |images.urls| > 0 then Some(images.urls[0]) else None
  }

  /** Index of the first booking of `userId`, if any. */
  function FirstOfUser(bs: seq<Booking>, userId: int): (r: Option<nat>)
    ensures r.Some? ==> r.value < |bs| && bs[r.value].userId == userId
    ensures r.Some? ==> forall j :: 0 <= j < r.value ==> bs[j].userId != userId
    ensures r.None? <==> forall j :: 0 <= j < |bs| ==> bs[j].userId != userId
  {
    if |bs| == 0 then None
    else if bs[0].userId == userId then Some(0)
    else
      var r := FirstOfUser(bs[1..], userId);
      assert forall j :: 1 <= j < |bs| ==> bs[j] == bs[1..][j - 1];
      if r.None? then None else Some(r.value + 1)
  }

  /** The attraction with `id`; the foreign key guarantees one exists. */
  function AttractionById(attractions: seq<AttractionInfo>, id: int): (a: AttractionInfo)
    requires HasAttraction(attractions, id)
    ensures a in attractions && a.id == id
  {
    if attractions[0].id == id then attractions[0]
    else
      assert forall k :: 1 <= k < |attractions| ==> attractions[k] == attractions[1..][k - 1];
      AttractionById(attractions[1..], id)
  }

  /** The reply's view of one booking. */
  function View(st: Store, b: Booking): (v: BookingView)
    requires HasAttraction(st.attractions, b.attractionId)
    ensures v.id == b.id && v.attraction.id == b.attractionId
    ensures (v.date, v.time, v.price) == (b.date, b.time, b.price)
  {
    var a := AttractionById(st.attractions, b.attractionId);
    BookingView(b.id, AttractionView(a.id, a.name, a.address, FirstImage(a.images)), b.date, b.time, b.price)
  }

  /** `get_booking_for_user(user_id)`: `status: "success"` with the user's
      first booking or `None`; `status: "failed"` when the database cannot
      be reached. */
  function GetBooking(db: Db<Store>, userId: int): (r: Result<Option<BookingView>, string>)
    requires db.Up? ==> Valid(db.tables)
    ensures r.Failure? <==> db.Down?
    ensures r.Failure? ==> r.error == "Database error"
    ensures r.Success? ==> (r.value.None? <==> forall j :: 0 <= j < |db.tables.bookings| ==> db.tables.bookings[j].userId != userId)
    ensures r.Success? && r.value.Some? ==>
      exists j :: && 0 <= j < |db.tables.bookings|
                  && db.tables.bookings[j].userId == userId
                  && r.value.value.id == db.tables.bookings[j].id
                  && (forall i :: 0 <= i < j ==> db.tables.bookings[i].userId != userId)
  {
    if db.Down? then Failure("Database error")
    else
      var st := db.tables;
      match FirstOfUser(st.bookings, userId)
      case None => Success(None)
      case Some(j) => Success(Some(View(st, st.bookings[j])))
  }

  // ---------------------------------------------------------------------
  // upsert_booking

  /** Index of the first booking of the pair, if any. */
  function FindPair(bs: seq<Booking>, userId: int, attractionId: int): (r: Option<nat>)
    ensures r.Some? ==> r.value < |bs| && bs[r.value].userId == userId && bs[r.value].attractionId == attractionId
    ensures r.Some? ==> forall j :: 0 <= j < r.value ==> !(bs[j].userId == userId && bs[j].attractionId == attractionId)
    ensures r.None? <==> forall j :: 0 <= j < |bs| ==> !(bs[j].userId == userId && bs[j].attractionId == attractionId)
  {
    if |bs| == 0 then None
    else if bs[0].userId == userId && bs[0].attractionId == attractionId then Some(0)
    else
      var r := FindPair(bs[1..], userId, attractionId);
      assert forall j :: 1 <= j < |bs| ==> bs[j] == bs[1..][j - 1];
      if r.None? then None else Some(r.value + 1)
  }

  /** `upsert_booking(...)`: update date, time and price of the pair's row
      in place, or append a new row. `Failure` is the SQLAlchemy error the
      function re-raises after rolling back, so the table stays as it was:
      an unreachable database, or a new row whose attraction does not exist
      (the foreign key rejects it). */
  function Upsert(db: Db<Store>, userId: int, attractionId: int, date: string, time: string, price: int): (r: Result<Store, string>)
    ensures db.Down? ==> r == Failure(db.reason)
    ensures (&& db.Up?
             && !HasAttraction(db.tables.attractions, attractionId)
             && FindPair(db.tables.bookings, userId, attractionId).None?) ==> r.Failure?
    ensures r.Success? ==> db.Up? && r.value.attractions == db.tables.attractions
  {
    if db.Down? then Failure(db.reason)
    else
      var st := db.tables;
      match FindPair(st.bookings, userId, attractionId)
      case Some(i) =>
        var b := st.bookings[i];
        Success(st.(bookings := st.bookings[i := b.(date := date, time := time, price := price)]))
      case None =>
        if !HasAttraction(st.attractions, attractionId) then Failure("foreign key constraint fails")
        else Success(st.(bookings := st.bookings + [Booking(st.nextId, userId, attractionId, date, time, price)],
                         nextId := st.nextId + 1))
  }

  /** The rows other than the pair's are the same before and after. */
  ghost predicate SameOthers(bs: seq<Booking>, bs': seq<Booking>, userId: int, attractionId: int) {
    && (forall b :: b in bs && !(b.userId == userId && b.attractionId == attractionId) ==> b in bs')
    && (forall b :: b in bs' && !(b.userId == userId && b.attractionId == attractionId) ==> b in bs)
  }

  /** Some row of the pair holds the given date, time and price. */
  ghost predicate Booked(bs: seq<Booking>, userId: int, attractionId: int, date: string, time: string, price: int) {
    exists j :: && 0 <= j < |bs|
                && bs[j].userId == userId
                && bs[j].attractionId == attractionId
                && (bs[j].date, bs[j].time, bs[j].price) == (date, time, price)
  }

  /** The update branch keeps the table constraints and one row per pair. */
  lemma UpdateInPlaceValid(st: Store, i: nat, date: string, time: string, price: int)
    requires Valid(st) && i < |st.bookings|
    ensures var b := st.bookings[i];
      var st' := st.(bookings := st.bookings[i := b.(date := date, time := time, price := price)]);
      && Valid(st')
      && (PairsUnique(st.bookings) ==> PairsUnique(st'.bookings))
  {
    var bs := st.bookings;
    var b := bs[i];
    var bs' := bs[i := b.(date := date, time := time, price := price)];
    assert forall j :: 0 <= j < |bs| && j != i ==> bs'[j] == bs[j];
  }

  /** The update branch: row `i` of the pair gets the new values and no
      other row changes. */
  lemma UpdateInPlace(st: Store, i: nat, date: string, time: string, price: int)
    requires i < |st.bookings|
    ensures var b := st.bookings[i];
      var st' := st.(bookings := st.bookings[i := b.(date := date, time := time, price := price)]);
      && Booked(st'.bookings, b.userId, b.attractionId, date, time, price)
      && SameOthers(st.bookings, st'.bookings, b.userId, b.attractionId)
  {
    var bs := st.bookings;
    var b := bs[i];
    var bs' := bs[i := b.(date := date, time := time, price := price)];
    forall c | c in bs && !(c.userId == b.userId && c.attractionId == b.attractionId)
      ensures c in bs'
    {
      var j :| 0 <= j < |bs| && bs[j] == c;
      assert bs'[j] == c;
    }
    forall c | c in bs' && !(c.userId == b.userId && c.attractionId == b.attractionId)
      ensures c in bs
    {
      var j :| 0 <= j < |bs'| && bs'[j] == c;
      assert bs[j] == c;
    }
    assert bs'[i].userId == b.userId && bs'[i].attractionId == b.attractionId;
  }

  /** The insert branch: a new row for a pair that had none. */
  lemma AppendNew(st: Store, userId: int, attractionId: int, date: string, time: string, price: int)
    requires Valid(st) && HasAttraction(st.attractions, attractionId)
    requires FindPair(st.bookings, userId, attractionId).None?
    ensures var st' := st.(bookings := st.bookings + [Booking(st.nextId, userId, attractionId, date, time, price)],
                           nextId := st.nextId + 1);
      && Valid(st')
      && (PairsUnique(st.bookings) ==> PairsUnique(st'.bookings))
      && Booked(st'.bookings, userId, attractionId, date, time, price)
      && SameOthers(st.bookings, st'.bookings, userId, attractionId)
  {
    var bs := st.bookings;
    var bs' := bs + [Booking(st.nextId, userId, attractionId, date, time, price)];
    assert bs'[|bs|].userId == userId;
    forall c | c in bs' && !(c.userId == userId && c.attractionId == attractionId)
      ensures c in bs
    {
      var j :| 0 <= j < |bs'| && bs'[j] == c;
      assert j < |bs|;
      assert bs[j] == c;
    }
  }

  /** The booking of the pair after a successful upsert holds the new date,
      time and price; every other row is unchanged; the table constraints
      and the one-row-per-pair property are preserved. */
  lemma UpsertEffect(st: Store, userId: int, attractionId: int, date: string, time: string, price: int)
    requires Valid(st)
    ensures var r := Upsert(Up(st), userId, attractionId, date, time, price);
      r.Success? ==> Valid(r.value) && (PairsUnique(st.bookings) ==> PairsUnique(r.value.bookings))
    ensures var r := Upsert(Up(st), userId, attractionId, date, time, price);
      r.Success? ==> Booked(r.value.bookings, userId, attractionId, date, time, price)
    ensures var r := Upsert(Up(st), userId, attractionId, date, time, price);
      r.Success? ==> SameOthers(st.bookings, r.value.bookings, userId, attractionId)
  {
    match FindPair(st.bookings, userId, attractionId)
    case Some(i) =>
      UpdateInPlaceValid(st, i, date, time, price);
      UpdateInPlace(st, i, date, time, price);
    case None =>
      if HasAttraction(st.attractions, attractionId) {
        AppendNew(st, userId, attractionId, date, time, price);
      }
  }

  /** A user without bookings who upserts one reads it back. */
  lemma UpsertThenGet(st: Store, userId: int, attractionId: int, date: string, time: string, price: int)
    requires Valid(st)
    requires forall j :: 0 <= j < |st.bookings| ==> st.bookings[j].userId != userId
    ensures var r := Upsert(Up(st), userId, attractionId, date, time, price);
      r.Success? ==> Valid(r.value) && var g := GetBooking(Up(r.value), userId);
        g.Success? && g.value.Some? && g.value.value.attraction.id == attractionId &&
        (g.value.value.date, g.value.value.time, g.value.value.price) == (date, time, price)
  {
    var r := Upsert(Up(st), userId, attractionId, date, time, price);
    if r.Success? {
      assert FindPair(st.bookings, userId, attractionId).None?;
      AppendNew(st, userId, attractionId, date, time, price);
      var bs' := r.value.bookings;
      assert bs' == st.bookings + [Booking(st.nextId, userId, attractionId, date, time, price)];
      FirstOfUserAppended(st.bookings, bs'[|st.bookings|], userId);
    }
  }

  /** The first booking of a user with none is the one appended for them. */
  lemma FirstOfUserAppended(bs: seq<Booking>, b: Booking, userId: int)
    requires forall j :: 0 <= j < |bs| ==> bs[j].userId != userId
    requires b.userId == userId
    ensures FirstOfUser(bs + [b], userId) == Some(|bs|)
  {
    var r := FirstOfUser(bs + [b], userId);
    assert (bs + [b])[|bs|] == b;
    assert r.Some?;
    assert forall j :: 0 <= j < |bs| ==> (bs + [b])[j] == bs[j];
  }

  /** The first booking of a user stays first when no row changes owner
      and rows are only appended. */
  lemma FirstOfUserKept(bs: seq<Booking>, bs': seq<Booking>, userId: int)
    requires FirstOfUser(bs, userId).Some?
    requires |bs| <= |bs'| && forall k :: 0 <= k < |bs| ==> bs'[k].userId == bs[k].userId
    ensures FirstOfUser(bs', userId) == FirstOfUser(bs, userId)
  {
    var j := FirstOfUser(bs, userId).value;
    assert bs'[j].userId == userId;
  }

  /** An upsert by a user who already has a booking leaves that booking
      first; it changes only when it is the booking of the same pair. */
  lemma UpsertKeepsFirst(st: Store, userId: int, attractionId: int, date: string, time: string, price: int)
    requires FirstOfUser(st.bookings, userId).Some?
    ensures var j := FirstOfUser(st.bookings, userId).value;
      var r := Upsert(Up(st), userId, attractionId, date, time, price);
      var b := st.bookings[j];
      r.Success? ==>
        && FirstOfUser(r.value.bookings, userId) == Some(j)
        && r.value.bookings[j] == (if b.attractionId == attractionId then b.(date := date, time := time, price := price) else b)
  {
    var j := FirstOfUser(st.bookings, userId).value;
    var bs := st.bookings;
    match FindPair(bs, userId, attractionId)
    case Some(i) =>
      var bs' := bs[i := bs[i].(date := date, time := time, price := price)];
      FirstOfUserKept(bs, bs', userId);
      if bs[j].attractionId == attractionId {
        assert i <= j;
        assert bs[i].userId == userId;
      }
    case None =>
      if HasAttraction(st.attractions, attractionId) {
        var bs' := bs + [Booking(st.nextId, userId, attractionId, date, time, price)];
        FirstOfUserKept(bs, bs', userId);
      }
  }

  /** A user who already has a booking and books again: `.first()` still
      finds the older booking. Booking another attraction leaves the reply
      exactly as it was; booking the attraction of that older booking
      again shows the new date, time and price. */
  lemma UpsertThenGetOlder(st: Store, userId: int, attractionId: int, date: string, time: string, price: int)
    requires Valid(st)
    requires FirstOfUser(st.bookings, userId).Some?
    ensures var j := FirstOfUser(st.bookings, userId).value;
      var r := Upsert(Up(st), userId, attractionId, date, time, price);
      r.Success? ==>
        && Valid(r.value)
        && var g := GetBooking(Up(r.value), userId);
        && (st.bookings[j].attractionId != attractionId ==> g == GetBooking(Up(st), userId))
        && (st.bookings[j].attractionId == attractionId ==>
              && g.Success? && g.value.Some? && g.value.value.attraction.id == attractionId
              && (g.value.value.date, g.value.value.time, g.value.value.price) == (date, time, price))
  {
    var r := Upsert(Up(st), userId, attractionId, date, time, price);
    if r.Success? {
      UpsertEffect(st, userId, attractionId, date, time, price);
      UpsertKeepsFirst(st, userId, attractionId, date, time, price);
    }
  }

  // ---------------------------------------------------------------------
  // delete_booking_for_user

  predicate OtherUser(userId: int, b: Booking) {
    b.userId != userId
  }

  /** The table without the rows of `userId`, order kept. */
  function WithoutUser(bs: seq<Booking>, userId: int): (r: seq<Booking>)
    ensures forall b :: b in r <==> b in bs && b.userId != userId
    ensures IsSubseq(r, bs)
    ensures |r| == |bs| <==> forall j :: 0 <= j < |bs| ==> bs[j].userId != userId
  {
    FilterIsSubseq(bs, b => OtherUser(userId, b));
    FilterMembers(bs, b => OtherUser(userId, b));
    var r := Filter(bs, b => OtherUser(userId, b));
    FilterKeepsAll(bs, userId);
    r
  }

  /** The filter keeps every row exactly when no row belongs to the user. */
  lemma {:induction false} FilterKeepsAll(bs: seq<Booking>, userId: int)
    ensures |Filter(bs, b => OtherUser(userId, b))| == |bs| <==> forall j :: 0 <= j < |bs| ==> bs[j].userId != userId
  {
    if |bs| > 0 {
      FilterKeepsAll(bs[1..], userId);
      assert forall j :: 1 <= j < |bs| ==> bs[j] == bs[1..][j - 1];
      assert |Filter(bs[1..], b => OtherUser(userId, b))| <= |bs[1..]|;
    }
  }

  /** The dict `delete_booking_for_user` returns. */
  datatype DeleteReply = Deleted | NothingToDelete | DeleteFailed

  /** `delete_booking_for_user(user_id)`: the store afterwards and the
      reply. A database error rolls back and answers `DeleteFailed`. */
  function Delete(db: Db<Store>, userId: int): (r: (Db<Store>, DeleteReply))
    ensures db.Down? ==> r == (db, DeleteFailed)
    ensures db.Up? ==> r.0.Up? && r.0.tables.attractions == db.tables.attractions && r.0.tables.nextId == db.tables.nextId
    ensures db.Up? ==> forall b :: b in r.0.tables.bookings <==> b in db.tables.bookings && b.userId != userId
    ensures db.Up? ==> (r.1 == NothingToDelete <==> forall j :: 0 <= j < |db.tables.bookings| ==> db.tables.bookings[j].userId != userId)
    ensures db.Up? ==> r.1 != DeleteFailed
  {
    if db.Down? then (db, DeleteFailed)
    else
      var st := db.tables;
      var kept := WithoutUser(st.bookings, userId);
      (Up(st.(bookings := kept)), if |kept| == |st.bookings| then NothingToDelete else Deleted)
  }

  /** Deleting keeps the table constraints and one row per pair. */
  lemma DeleteKeepsValid(st: Store, userId: int)
    requires Valid(st)
    ensures var (db', _) := Delete(Up(st), userId);
      && Valid(db'.tables)
      && (PairsUnique(st.bookings) ==> PairsUnique(db'.tables.bookings))
  {
    FilterPairwise(st.bookings, b => OtherUser(userId, b), (x: Booking, y: Booking) => x.id != y.id);
    if PairsUnique(st.bookings) {
      FilterPairwise(st.bookings, b => OtherUser(userId, b),
        (x: Booking, y: Booking) => !(x.userId == y.userId && x.attractionId == y.attractionId));
    }
  }

  /** After a delete the user reads no booking, and the store stays valid. */
  lemma DeleteThenGet(st: Store, userId: int)
    requires Valid(st)
    ensures var (db', _) := Delete(Up(st), userId);
      && Valid(db'.tables)
      && GetBooking(db', userId) == Success(None)
  {
    DeleteKeepsValid(st, userId);
  }
}

=== FILE: dates.dfy ===
/** Calendar dates as the booking body carries them: the `date` field of
    `BookingModel` parses `YYYY-MM-DD` into a `datetime.date`, and the reply
    of `GET /api/booking` writes it back with `isoformat`. */
module Dates {
  import opened Decimal

  predicate Leap(y: nat) {
    y % 4 == 0 && (y % 100 != 0 || y % 400 == 0)
  }

  /** The number of days of month `m` in year `y`. */
  function DaysIn(y: nat, m: nat): (d: nat)
    requires 1 <= m <= 12
    ensures 28 <= d <= 31
    ensures m == 2 ==> (d == 29 <==> Leap(y))
  {
    if m == 2 then (if Leap(y) then 29 else 28)
    else if m == 4 || m == 6 || m == 9 || m == 11 then 30
    else 31
  }

  /** A day of the calendar `datetime.date` can hold. */
  predicate ValidDate(y: nat, m: nat, d: nat) {
    1 <= y <= 9999 && 1 <= m <= 12 && 1 <= d <= DaysIn(y, m)
  }

  function Pow10(w: nat): (p: nat)
    ensures p >= 1
  {
    if w == 0 then 1 else 10 * Pow10(w - 1)
  }

  /** `n` written with exactly `w` decimal digits, zeros in front. */
  function Digits(n: nat, w: nat): (s: string)
    requires n < Pow10(w)
    ensures |s| == w && AllDigits(s)
  {
    if w == 0 then "" else Digits(n / 10, w - 1) + [DigitChar(n % 10)]
  }

  /** Reading back `w` digits gives the number. */
  lemma {:induction false} ValueOfDigits(n: nat, w: nat)
    requires n < Pow10(w)
    ensures ValueOf(Digits(n, w)) == n
  {
    if w > 0 {
      ValueOfDigits(n / 10, w - 1);
      ValueOfAppend(Digits(n / 10, w - 1), DigitChar(n % 10));
    }
  }

  /** A string of digits is its own value written with its own width. */
  lemma {:induction false} DigitsOfValue(s: string)
    requires AllDigits(s)
    ensures ValueOf(s) < Pow10(|s|)
    ensures Digits(ValueOf(s), |s|) == s
  {
    if |s| > 0 {
      var front := s[..|s| - 1];
      DigitsOfValue(front);
      var v := ValueOf(s);
      assert v == ValueOf(front) * 10 + DigitValue(s[|s| - 1]);
      assert v / 10 == ValueOf(front) && v % 10 == DigitValue(s[|s| - 1]);
      assert s == front + [s[|s| - 1]];
    }
  }

  /** `date.isoformat()`. */
  function IsoFormat(y: nat, m: nat, d: nat): (s: string)
    requires ValidDate(y, m, d)
    ensures |s| == 10
  {
    assert Pow10(2) == 100 && Pow10(4) == 10000;
    Digits(y, 4) + "-" + Digits(m, 2) + "-" + Digits(d, 2)
  }

  /** The text `date` accepts in the form a date input produces:
      `YYYY-MM-DD` naming a day of the calendar. */
  predicate IsoDate(s: string) {
    && |s| == 10 && s[4] == '-' && s[7] == '-'
    && AllDigits(s[..4]) && AllDigits(s[5..7]) && AllDigits(s[8..])
    && ValidDate(ValueOf(s[..4]), ValueOf(s[5..7]), ValueOf(s[8..]))
  }

  /** The date a text of `IsoDate` names. */
  function Parse(s: string): (r: (nat, nat, nat))
    requires IsoDate(s)
    ensures ValidDate(r.0, r.1, r.2)
  {
    (ValueOf(s[..4]), ValueOf(s[5..7]), ValueOf(s[8..]))
  }

  /** What the reply writes back is the text the request sent. */
  lemma FormatOfParse(s: string)
    requires IsoDate(s)
    ensures var (y, m, d) := Parse(s); IsoFormat(y, m, d) == s
  {
    var (y, m, d) := Parse(s);
    DigitsOfValue(s[..4]);
    DigitsOfValue(s[5..7]);
    DigitsOfValue(s[8..]);
    assert IsoFormat(y, m, d) == Digits(y, 4) + "-" + Digits(m, 2) + "-" + Digits(d, 2);
    assert s == s[..4] + "-" + s[5..7] + "-" + s[8..];
  }

  /** Every day of the calendar is written in a form the request accepts,
      and that form parses back to the day. */
  lemma ParseOfFormat(y: nat, m: nat, d: nat)
    requires ValidDate(y, m, d)
    ensures IsoDate(IsoFormat(y, m, d))
    ensures Parse(IsoFormat(y, m, d)) == (y, m, d)
  {
    assert Pow10(2) == 100 && Pow10(4) == 10000;
    var t := IsoFormat(y, m, d);
    assert t == Digits(y, 4) + "-" + Digits(m, 2) + "-" + Digits(d, 2);
    assert t[..4] == Digits(y, 4);
    assert t[5..7] == Digits(m, 2);
    assert t[8..] == Digits(d, 2);
    ValueOfDigits(y, 4);
    ValueOfDigits(m, 2);
    ValueOfDigits(d, 2);
  }

  /** The value of two digits. */
  lemma ValueOf2(s: string)
    requires |s| == 2 && AllDigits(s)
    ensures ValueOf(s) == DigitValue(s[0]) * 10 + DigitValue(s[1])
  {
    var front := s[..1];
    assert front[..0] == "" && front[0] == s[0];
    assert ValueOf(front) == ValueOf(front[..0]) * 10 + DigitValue(s[0]);
    assert ValueOf(s) == ValueOf(front) * 10 + DigitValue(s[1]);
  }

  /** The value of four digits. */
  lemma ValueOf4(s: string)
    requires |s| == 4 && AllDigits(s)
    ensures ValueOf(s) == ValueOf(s[..2]) * 100 + DigitValue(s[2]) * 10 + DigitValue(s[3])
  {
    assert s[..3][..2] == s[..2];
  }

  /** An empty date input and a day that does not exist are refused; a
      leap day is accepted in a leap year. */
  lemma Refused()
    ensures !IsoDate("")
    ensures !IsoDate("2023-02-29")
    ensures IsoDate("2024-02-29")
  {
    var bad, good := "2023-02-29", "2024-02-29";
    assert bad[..4] == "2023" && bad[5..7] == "02" && bad[8..] == "29";
    assert good[..4] == "2024" && good[5..7] == "02" && good[8..] == "29";
    ValueOf2("20");
    ValueOf4("2023");
    ValueOf4("2024");
    assert "2023"[..2] == "20" && "2024"[..2] == "20";
    ValueOf2("02");
    ValueOf2("29");
  }
}

=== FILE: decimal.dfy ===
/** Decimal rendering (Python `str`, `format(n, "04d")`) and MySQL's
    string-to-unsigned cast. */
module Decimal {
  import opened Text

  predicate IsDigit(c: char) {
    '0' <= c <= '9'
  }

  predicate AllDigits(s: string) {
    forall i :: 0 <= i < |s| ==> IsDigit(s[i])
  }

  function DigitChar(d: nat): (c: char)
    requires d < 10
    ensures IsDigit(c)
  {
    ('0' as int + d) as char
  }

  function DigitValue(c: char): (d: nat)
    requires IsDigit(c)
    ensures d < 10
  {
    c as int - '0' as int
  }

  /** Python `str(n)` for a natural number: digits only, no leading zero. */
  function Show(n: nat): (s: string)
    ensures |s| >= 1 && AllDigits(s)
    decreases n
  {
    if n < 10 then [DigitChar(n)] else Show(n / 10) + [DigitChar(n % 10)]
  }

  /** `k` zero characters. */
  function Zeros(k: nat): (s: string)
    ensures |s| == k && AllDigits(s)
  {
    seq(k, _ => '0')
  }

  /** Python `format(n, "04d")` for a natural number: `str(n)` padded on the
      left with zeros to at least four characters. */
  function Pad4(n: nat): (s: string)
    ensures AllDigits(s)
  {
    var d := Show(n);
    if |d| >= 4 then d else Zeros(4 - |d|) + d
  }

  /** The number a string of decimal digits denotes. */
  function ValueOf(s: string): nat
    requires AllDigits(s)
  {
    if |s| == 0 then 0 else ValueOf(s[..|s| - 1]) * 10 + DigitValue(s[|s| - 1])
  }

  /** The longest prefix of `s` made of digits. */
  function LeadingDigits(s: string): (r: string)
    ensures StartsWith(s, r) && AllDigits(r)
    ensures |r| < |s| ==> !IsDigit(s[|r|])
  {
    if |s| > 0 && IsDigit(s[0]) then [s[0]] + LeadingDigits(s[1..]) else ""
  }

  /** MySQL `CAST(s AS UNSIGNED)` for a string: the value of its leading
      digits, 0 when it does not start with a digit. */
  function CastUnsigned(s: string): nat {
    ValueOf(LeadingDigits(s))
  }

  lemma {:induction false} ValueOfAppend(s: string, c: char)
    requires AllDigits(s) && IsDigit(c)
    ensures ValueOf(s + [c]) == ValueOf(s) * 10 + DigitValue(c)
  {
    assert (s + [c])[..|s|] == s;
  }

  /** Reading back what `Show` writes gives the number. */
  lemma {:induction false} ValueOfShow(n: nat)
    ensures ValueOf(Show(n)) == n
    decreases n
  {
    if n >= 10 {
      ValueOfShow(n / 10);
      ValueOfAppend(Show(n / 10), DigitChar(n % 10));
    } else {
      assert Show(n) == [DigitChar(n)];
      assert ValueOf(Show(n)) == ValueOf([]) * 10 + DigitValue(DigitChar(n));
    }
  }

  /** Leading zeros do not change the value. */
  lemma {:induction false} ValueOfZerosPrefix(k: nat, t: string)
    requires AllDigits(t)
    ensures ValueOf(Zeros(k) + t) == ValueOf(t)
    decreases |t|
  {
    if |t| == 0 {
      ZerosValue(k);
      assert Zeros(k) + t == Zeros(k);
    } else {
      var t' := t[..|t| - 1];
      var c := t[|t| - 1];
      ValueOfZerosPrefix(k, t');
      assert Zeros(k) + t == (Zeros(k) + t') + [c];
      ValueOfAppend(Zeros(k) + t', c);
      ValueOfAppend(t', c);
      assert t == t' + [c];
    }
  }

  lemma {:induction false} ZerosValue(k: nat)
    ensures ValueOf(Zeros(k)) == 0
  {
    if k > 0 {
      ZerosValue(k - 1);
      assert Zeros(k)[..k - 1] == Zeros(k - 1);
    }
  }

  /** A string of digits is its own leading-digit prefix. */
  lemma {:induction false} LeadingDigitsOfDigits(s: string)
    requires AllDigits(s)
    ensures LeadingDigits(s) == s
  {
    if |s| > 0 {
      LeadingDigitsOfDigits(s[1..]);
      assert s == [s[0]] + s[1..];
    }
  }

  /** The padded rendering has at least four characters and casts back to
      the number it renders. */
  lemma PadRoundTrip(n: nat)
    ensures |Pad4(n)| >= 4
    ensures CastUnsigned(Pad4(n)) == n
  {
    var d := Show(n);
    ValueOfShow(n);
    LeadingDigitsOfDigits(Pad4(n));
    if |d| < 4 {
      ValueOfZerosPrefix(4 - |d|, d);
    }
  }
}

=== FILE: deps.dfy ===
/** app/api/deps.py `get_current_user`: the bearer token of the
    `Authorization` header, decoded by the JWT library (an oracle here). */
module Deps {
  import opened Wrappers
  import opened Text

  const NotSignedIn: string := "未登入系統"
  const BadToken: string := "Token 驗證失敗"

  /** The claims a token carries. */
  datatype Claims = Claims(id: int, name: string, email: string)

  /** `auth.split(" ")[1]` for a header that starts with `Bearer `: the
      text after the first space up to the next space. */
  function BearerToken(header: string): (t: string)
    requires StartsWith(header, "Bearer ")
    ensures ' ' !in t
    ensures StartsWith(header[7..], t)
  {
    var rest := header[7..];
    assert header == "Bearer" + ([' '] + rest);
    SplitPrefix("Bearer", [' '] + rest, ' ');
    assert ([' '] + rest)[1..] == rest;
    JoinSplit(rest, ' ');
    JoinStartsWithFirst(Split(rest, ' '), ' ');
    Split(header, ' ')[1]
  }

  /** A join starts with its first piece. */
  lemma {:induction false} JoinStartsWithFirst(parts: seq<string>, sep: char)
    requires |parts| >= 1
    ensures StartsWith(Join(parts, sep), parts[0])
  {
    if |parts| > 1 {
      assert Join(parts, sep)[..|parts[0]|] == parts[0];
    }
  }

  /** The token of `Bearer <t>` is `t` when `t` holds no space. */
  lemma BearerTokenOf(t: string)
    requires ' ' !in t
    ensures StartsWith("Bearer " + t, "Bearer ")
    ensures BearerToken("Bearer " + t) == t
  {
    var h := "Bearer " + t;
    assert h[..7] == "Bearer ";
    var parts := ["Bearer", t];
    assert Join(parts, ' ') == "Bearer" + [' '] + Join(parts[1..], ' ');
    assert parts[1..] == [t];
    assert "Bearer" + [' '] + t == h;
    SplitJoin(parts, ' ');
  }

  /** `get_current_user(request)`: the decoded claims, or the detail of the
      403 it raises: a missing header, or one not starting with `Bearer `,
      is not signed in; a token the library rejects fails verification. */
  function CurrentUser(header: Option<string>, decode: string -> Option<Claims>): (r: Result<Claims, string>)
    ensures header.None? || !StartsWith(header.value, "Bearer ") ==> r == Failure(NotSignedIn)
    ensures header.Some? && StartsWith(header.value, "Bearer ") && decode(BearerToken(header.value)).None? ==>
      r == Failure(BadToken)
    ensures r.Success? ==> header.Some? && StartsWith(header.value, "Bearer ")
    ensures r.Success? ==> decode(BearerToken(header.value)) == Some(r.value)
  {
    if header.None? || !StartsWith(header.value, "Bearer ") then Failure(NotSignedIn)
    else
      match decode(BearerToken(header.value))
      case None => Failure(BadToken)
      case Some(c) => Success(c)
  }

  /** The header the client sends, `"Bearer " + token`, yields the claims
      the library decodes from that token. */
  lemma CurrentUserOfClientHeader(token: string, decode: string -> Option<Claims>)
    requires ' ' !in token
    ensures CurrentUser(Some("Bearer " + token), decode) ==
      (if decode(token).Some? then Success(decode(token).value) else Failure(BadToken))
  {
    BearerTokenOf(token);
  }
}

=== FILE: draft_feed.dfy ===
/** The first version of the home-page pager, static/script.js: no search
    and no station filter, a scroll handler instead of an observer, and the
    same `nextPage` and `isLoading` variables as the later pager, whose
    state type it shares. Its requests all use the empty keyword. */
module DraftFeed {
  import opened Wrappers
  import opened Seqs
  import opened AttractionCrud
  import HomeFeed

  /** How close to the bottom of the page, in pixels, a scroll must reach. */
  const Margin: int := 200

  /** The in-flight record of a request for `page`. */
  function Asked(page: int): HomeFeed.Query {
    HomeFeed.Query(page, "", false)
  }

  /** `loadAttractions(page)`: the guard reads `nextPage`, the request asks
      for `page`. */
  function Load(p: HomeFeed.Pager, page: int): (r: (HomeFeed.Pager, Option<int>))
    ensures r.1.None? <==> p.isLoading || p.nextPage.None?
    ensures r.1.None? ==> r.0 == p
    ensures r.1.Some? ==>
      && r.1.value == page
      && r.0.isLoading && r.0.inFlight == Some(Asked(page))
      && r.0.nextPage == p.nextPage && r.0.shown == p.shown
  {
    if p.isLoading || p.nextPage.None? then (p, None)
    else (p.(isLoading := true, inFlight := Some(Asked(page))), Some(page))
  }

  /** The frame callback of `handleScroll`: it loads `nextPage` when the
      scroll position is within `Margin` of `bottom` (the document height
      less the window height), a next page exists and nothing is loading. */
  function Scroll(p: HomeFeed.Pager, scrollY: int, bottom: int): (r: (HomeFeed.Pager, Option<int>))
    ensures r.1.Some? <==> scrollY >= bottom - Margin && p.nextPage.Some? && !p.isLoading
    ensures r.1.Some? ==> r.1.value == p.nextPage.value && r.0.isLoading
    ensures r.1.None? ==> r.0 == p
  {
    if scrollY >= bottom - Margin && p.nextPage.Some? && !p.isLoading then Load(p, p.nextPage.value)
    else (p, None)
  }

  /** The page requested by a load or scroll, if any, as a list. */
  function Sent(q: Option<int>): (r: seq<int>)
    ensures |r| <= 1 && (q.Some? ==> r == [q.value])
  {
    if q.Some? then [q.value] else []
  }

  /** The page's start: `loadAttractions(0)`, then the same check as a
      scroll. The check never loads, because the first request is still in
      flight. */
  function Boot(scrollY: int, bottom: int): (r: (HomeFeed.Pager, seq<int>))
    ensures r.1 == [0]
    ensures r.0.isLoading && r.0.inFlight == Some(Asked(0)) && r.0.shown == []
  {
    var (p, q) := Load(HomeFeed.Start, 0);
    var (p', q') := Scroll(p, scrollY, bottom);
    (p', Sent(q) + Sent(q'))
  }

  /** The response handler as written. A failure clears `isLoading`; a page
      with attractions appends all of them, takes `nextPage` and clears
      `isLoading`; but an empty or missing `data` returns early and leaves
      `isLoading` set. */
  function SettleAsWritten(p: HomeFeed.Pager, resp: HomeFeed.Response): (r: HomeFeed.Pager)
    ensures p.inFlight.None? ==> r == p
    ensures p.inFlight.Some? ==> r.inFlight.None?
    ensures p.inFlight.Some? && resp.Broken? ==> !r.isLoading && r.shown == p.shown && r.nextPage == p.nextPage
    ensures p.inFlight.Some? && resp.Body? && !HomeFeed.Fills(resp) ==> r == p.(inFlight := None)
    ensures p.inFlight.Some? && HomeFeed.Fills(resp) ==>
      !r.isLoading && r.shown == p.shown + resp.data.value && r.nextPage == resp.nextPage
  {
    if p.inFlight.None? then p
    else if resp.Broken? then p.(isLoading := false, inFlight := None)
    else if !HomeFeed.Fills(resp) then p.(inFlight := None)
    else p.(shown := p.shown + resp.data.value, nextPage := resp.nextPage, isLoading := false, inFlight := None)
  }

  /** The handler with the early return clearing `isLoading` first, as the
      later pager does. */
  function Settle(p: HomeFeed.Pager, resp: HomeFeed.Response): (r: HomeFeed.Pager)
    ensures p.inFlight.Some? ==> !r.isLoading && r.inFlight.None?
    ensures p.inFlight.Some? ==> r.shown == p.shown + (if HomeFeed.Fills(resp) then resp.data.value else [])
    ensures p.inFlight.Some? ==> r.nextPage == if HomeFeed.Fills(resp) then resp.nextPage else p.nextPage
  {
    if p.inFlight.None? then p
    else if HomeFeed.Fills(resp) then p.(shown := p.shown + resp.data.value, nextPage := resp.nextPage, isLoading := false, inFlight := None)
    else p.(isLoading := false, inFlight := None)
  }

  /** A scroll to `scrollY` with the given `bottom`, or the answer to the
      request in flight. */
  datatype Event = Scrolled(scrollY: int, bottom: int) | Answered(resp: HomeFeed.Response)

  /** The state after `es` with the handler as written, and the pages
      requested on the way. */
  function RunAsWritten(p: HomeFeed.Pager, es: seq<Event>): (HomeFeed.Pager, seq<int>)
    decreases |es|
  {
    if |es| == 0 then (p, [])
    else
      match es[0]
      case Scrolled(y, b) =>
        var (p', q) := Scroll(p, y, b);
        var (last, sent) := RunAsWritten(p', es[1..]);
        (last, Sent(q) + sent)
      case Answered(resp) => RunAsWritten(SettleAsWritten(p, resp), es[1..])
  }

  /** The same with the corrected handler. */
  function Run(p: HomeFeed.Pager, es: seq<Event>): (HomeFeed.Pager, seq<int>)
    decreases |es|
  {
    if |es| == 0 then (p, [])
    else
      match es[0]
      case Scrolled(y, b) =>
        var (p', q) := Scroll(p, y, b);
        var (last, sent) := Run(p', es[1..]);
        (last, Sent(q) + sent)
      case Answered(resp) => Run(Settle(p, resp), es[1..])
  }

  /** Loading with nothing in flight: no answer can come to clear it. */
  predicate Stuck(p: HomeFeed.Pager) {
    p.isLoading && p.inFlight.None?
  }

  /** As written, an empty or missing `data` (the error body of a 400 or
      500 reply, or an empty page) leaves the pager stuck. */
  lemma EmptyAnswerSticks(p: HomeFeed.Pager, resp: HomeFeed.Response)
    requires p.isLoading && p.inFlight.Some?
    requires resp.Body? && !HomeFeed.Fills(resp)
    ensures Stuck(SettleAsWritten(p, resp))
  {
  }

  /** Once stuck, nothing changes and no page is requested again, whatever
      the user does. */
  lemma {:induction false} StuckStays(p: HomeFeed.Pager, es: seq<Event>)
    requires Stuck(p)
    ensures RunAsWritten(p, es) == (p, [])
    decreases |es|
  {
    if |es| > 0 {
      StuckStays(p, es[1..]);
      match es[0]
      case Scrolled(y, b) =>
        assert Scroll(p, y, b) == (p, None);
        assert Sent(None) + [] == [];
      case Answered(resp) =>
        assert SettleAsWritten(p, resp) == p;
    }
  }

  /** The concrete case: the first request is answered with an error body,
      after which no scroll loads anything and the grid stays empty. */
  lemma FirstErrorFreezesAsWritten(scrollY: int, bottom: int, es: seq<Event>)
    ensures var (p, sent) := Boot(scrollY, bottom);
      var p' := SettleAsWritten(p, HomeFeed.Body(None, None));
      && sent == [0]
      && RunAsWritten(p', es) == (p', [])
      && p'.shown == [] && p'.nextPage == Some(0)
  {
    var (p, _) := Boot(scrollY, bottom);
    StuckStays(SettleAsWritten(p, HomeFeed.Body(None, None)), es);
  }

  /** Corrected, every answer clears `isLoading`, so the pager is never
      stuck, and the next scroll to the bottom loads `nextPage` if there is
      one. */
  lemma AnswerFrees(p: HomeFeed.Pager, resp: HomeFeed.Response, scrollY: int, bottom: int)
    requires p.isLoading && p.inFlight.Some?
    requires scrollY >= bottom - Margin
    ensures var p' := Settle(p, resp);
      && !Stuck(p')
      && (p'.nextPage.Some? ==> Scroll(p', scrollY, bottom).1 == Some(p'.nextPage.value))
  {
  }

  /** `isLoading` is set exactly while a request is in flight. */
  predicate Consistent(p: HomeFeed.Pager) {
    p.isLoading <==> p.inFlight.Some?
  }

  /** Corrected, the pager stays consistent through any events, so it is
      never stuck. */
  lemma {:induction false} RunConsistent(p: HomeFeed.Pager, es: seq<Event>)
    requires Consistent(p)
    ensures Consistent(Run(p, es).0)
    ensures !Stuck(Run(p, es).0)
    decreases |es|
  {
    if |es| > 0 {
      match es[0]
      case Scrolled(y, b) =>
        RunConsistent(Scroll(p, y, b).0, es[1..]);
      case Answered(resp) =>
        RunConsistent(Settle(p, resp), es[1..]);
    }
  }

  /** Corrected, the handler is the later pager's handler for a keyword
      search with the empty keyword. */
  lemma SettleIsHomeFeed(p: HomeFeed.Pager, resp: HomeFeed.Response)
    requires p.inFlight.Some? ==> !p.inFlight.value.station
    ensures Settle(p, resp) == HomeFeed.Settle(p, resp)
  {
    if p.inFlight.Some? && HomeFeed.Fills(resp) {
      var q := p.inFlight.value;
      FilterAll(resp.data.value, HomeFeed.KeepFor(q.keyword, q.station));
    }
  }
}

=== FILE: feed.dfy ===
/** The discovery feed of the home page, static/index.js: a keyword search,
    a station search from the station list, and a pager that asks for the
    next page whenever the last card scrolls into view. */
module HomeFeed {
  import opened Wrappers
  import opened Seqs
  import opened Paging
  import opened Http
  import opened AttractionCrud
  import Text
  import AttractionRouter

  /** A request for `/api/attractions?page=…&keyword=…`, with the flag that
      tells its response handler to keep only cards at the station. */
  datatype Query = Query(page: int, keyword: string, station: bool)

  /** What a response handler receives: the parsed JSON body (an error body
      has no `data` and no `nextPage`), or a fetch or parse failure. */
  datatype Response = Body(data: Option<seq<Attraction>>, nextPage: Option<int>) | Broken

  /** The page's variables `nextPage` and `isLoading`, the cards in the grid,
      and the query of the request in flight, whose handler closes over its
      keyword and station flag. */
  datatype Pager = Pager(
    nextPage: Option<int>,
    isLoading: bool,
    shown: seq<Attraction>,
    inFlight: Option<Query>)

  /** The state when the page has loaded and before the first request. */
  const Start: Pager := Pager(Some(0), false, [], None)

  /** The handler's card filter: a station search skips every attraction
      whose `mrt` is not exactly the keyword (a missing `mrt` included). */
  predicate Keeps(keyword: string, station: bool, a: Attraction) {
    !station || a.mrt == Some(keyword)
  }

  /** `Keeps` as the filter of one search. */
  function KeepFor(keyword: string, station: bool): Attraction -> bool {
    a => Keeps(keyword, station, a)
  }

  /** A body that carries at least one attraction. */
  predicate Fills(resp: Response) {
    resp.Body? && resp.data.Some? && |resp.data.value| > 0
  }

  /** `loadAttractions(keyword, isMRTSearch)`: nothing while a request is in
      flight or when no page is left; otherwise the request for `nextPage`,
      and the pager is loading. */
  function Load(p: Pager, keyword: string, station: bool): (r: (Pager, Option<Query>))
    ensures r.1.None? <==> p.isLoading || p.nextPage.None?
    ensures r.1.None? ==> r.0 == p
    ensures r.1.Some? ==>
      && r.1.value == Query(p.nextPage.value, keyword, station)
      && r.0.isLoading && r.0.inFlight == r.1
      && r.0.nextPage == p.nextPage && r.0.shown == p.shown
  {
    if p.isLoading || p.nextPage.None? then (p, None)
    else
      var q := Query(p.nextPage.value, keyword, station);
      (p.(isLoading := true, inFlight := Some(q)), Some(q))
  }

  /** `searchAttractions(keyword, isMRTSearch)`: back to page 0 with an empty
      grid, then a load. While an earlier request is in flight the load does
      nothing, and that earlier request's handler still answers. */
  function Search(p: Pager, keyword: string, station: bool): (r: (Pager, Option<Query>))
    ensures r.0.shown == [] && r.0.nextPage == Some(0)
    ensures r.1.Some? <==> !p.isLoading
    ensures r.1.Some? ==> r.1.value == Query(0, keyword, station) && r.0.inFlight == r.1
    ensures p.isLoading ==> r.0.isLoading && r.0.inFlight == p.inFlight
  {
    Load(p.(nextPage := Some(0), shown := []), keyword, station)
  }

  /** The observer's callback. `observeLastImage` watches the last card of
      the grid and makes no observer when the grid is empty, so nothing
      triggers while no card is shown; the callback loads when a next page
      exists and nothing is loading, the guard `loadAttractions` repeats. An
      observer left from before a search watches a card no longer in the
      page and never fires. */
  function Trigger(p: Pager, keyword: string, station: bool): (r: (Pager, Option<Query>))
    ensures p.shown == [] ==> r == (p, None)
    ensures p.shown != [] ==> r == Load(p, keyword, station)
  {
    if p.shown != [] && p.nextPage.Some? && !p.isLoading then Load(p, keyword, station) else (p, None)
  }

  /** The handler of the request in flight. An empty or missing `data`, or a
      failure, only clears `isLoading`. A non-empty page appends the cards
      the filter keeps, in response order, and takes the response's
      `nextPage`. With no request in flight there is nothing to answer. */
  function Settle(p: Pager, resp: Response): (r: Pager)
    ensures p.inFlight.None? ==> r == p
    ensures p.inFlight.Some? ==> !r.isLoading && r.inFlight.None?
    ensures p.inFlight.Some? && !Fills(resp) ==> r.shown == p.shown && r.nextPage == p.nextPage
    ensures p.inFlight.Some? && Fills(resp) ==>
      && r.nextPage == resp.nextPage
      && r.shown == p.shown + Filter(resp.data.value, KeepFor(p.inFlight.value.keyword, p.inFlight.value.station))
  {
    match p.inFlight
    case None => p
    case Some(q) =>
      var done := p.(isLoading := false, inFlight := None);
      if Fills(resp) then
        done.(shown := p.shown + Filter(resp.data.value, KeepFor(q.keyword, q.station)),
              nextPage := resp.nextPage)
      else done
  }

  /** What happens on the page: a search (the search button, or a click on
      a station), the last card coming into view, or the answer to the
      request in flight. */
  datatype Event = Searched(keyword: string, station: bool) | Reached(keyword: string, station: bool) | Answered(resp: Response)

  function Step(p: Pager, e: Event): Pager {
    match e
    case Searched(k, s) => Search(p, k, s).0
    case Reached(k, s) => Trigger(p, k, s).0
    case Answered(resp) => Settle(p, resp)
  }

  function Run(p: Pager, es: seq<Event>): Pager
    decreases |es|
  {
    if |es| == 0 then p else Run(Step(p, es[0]), es[1..])
  }

  /** `isLoading` is set exactly while a request is in flight. */
  ghost predicate Consistent(p: Pager) {
    p.isLoading <==> p.inFlight.Some?
  }

  /** Every event keeps the pager consistent: whatever the answer, the
      pager is never left loading with nothing in flight, so the next
      trigger can always load again. */
  lemma StepConsistent(p: Pager, e: Event)
    requires Consistent(p)
    ensures Consistent(Step(p, e))
    ensures e.Answered? ==> !Step(p, e).isLoading
  {
  }

  lemma {:induction false} RunConsistent(p: Pager, es: seq<Event>)
    requires Consistent(p)
    ensures Consistent(Run(p, es))
    decreases |es|
  {
    if |es| > 0 {
      StepConsistent(p, es[0]);
      RunConsistent(Step(p, es[0]), es[1..]);
    }
  }

  /** A second load before the first is answered sends nothing. */
  lemma LoadTwiceSendsOnce(p: Pager, k1: string, s1: bool, k2: string, s2: bool)
    ensures var (p1, q1) := Load(p, k1, s1);
      var (p2, q2) := Load(p1, k2, s2);
      q2.None? && p2 == p1 && (q1.Some? ==> p1.isLoading)
  {
  }

  /** The grid shows only cards at `keyword`, and the request in flight,
      if any, is a station search for `keyword`. */
  ghost predicate AtStation(p: Pager, keyword: string) {
    && (forall k :: 0 <= k < |p.shown| ==> p.shown[k].mrt == Some(keyword))
    && (p.inFlight.Some? ==> p.inFlight.value.keyword == keyword && p.inFlight.value.station)
  }

  /** Events that stay within one station search: its own triggers and
      answers. */
  predicate StaysAt(es: seq<Event>, keyword: string) {
    forall k :: 0 <= k < |es| ==> es[k].Answered? || es[k] == Reached(keyword, true)
  }

  /** A station search started when nothing is loading shows only
      attractions at that station, however many pages follow. */
  lemma {:induction false} StationSearchShowsStation(p: Pager, keyword: string, es: seq<Event>)
    requires !p.isLoading
    requires StaysAt(es, keyword)
    ensures AtStation(Run(Search(p, keyword, true).0, es), keyword)
  {
    RunAtStation(Search(p, keyword, true).0, keyword, es);
  }

  lemma {:induction false} RunAtStation(p: Pager, keyword: string, es: seq<Event>)
    requires AtStation(p, keyword)
    requires StaysAt(es, keyword)
    ensures AtStation(Run(p, es), keyword)
    decreases |es|
  {
    if |es| > 0 {
      var p' := Step(p, es[0]);
      if es[0].Answered? && p.inFlight.Some? && Fills(es[0].resp) {
        var added := Filter(es[0].resp.data.value, KeepFor(keyword, true));
        FilterMembers(es[0].resp.data.value, KeepFor(keyword, true));
        assert p'.shown == p.shown + added;
        forall k | 0 <= k < |p'.shown|
          ensures p'.shown[k].mrt == Some(keyword)
        {
          if k >= |p.shown| {
            assert p'.shown[k] == added[k - |p.shown|];
            assert p'.shown[k] in added;
            assert KeepFor(keyword, true)(p'.shown[k]);
          }
        }
      }
      assert AtStation(p', keyword);
      assert StaysAt(es[1..], keyword) by {
        assert forall k :: 0 <= k < |es| - 1 ==> es[1..][k] == es[k + 1];
      }
      RunAtStation(p', keyword, es[1..]);
    }
  }

  /** Every attraction fits the reply schema of the list endpoint. */
  predicate AllConform(rows: seq<Attraction>) {
    forall a :: a in rows ==> AttractionRouter.Conforms(a)
  }

  /** Page `page` of `rows` holds an attraction that does not fit the reply
      schema. */
  predicate BadOn(rows: seq<Attraction>, page: int) {
    page >= 0 && exists a :: a in PageOf(rows, page).items && !AttractionRouter.Conforms(a)
  }

  lemma NoBadOn(rows: seq<Attraction>, page: int)
    requires AllConform(rows)
    ensures !BadOn(rows, page)
  {
    if page >= 0 {
      var lo := Min(page * PerPage, |rows|);
      var items := PageOf(rows, page).items;
      assert forall k :: 0 <= k < |items| ==> items[k] == rows[lo + k];
    }
  }

  /** The body the page receives for page `page` of `rows` from a server
      that answers 200 with `{nextPage, data}` for a non-empty page, an
      error body for an empty one, and the plain-text 500, which the page
      cannot parse, for a page with an attraction that does not fit the
      reply schema. */
  function Serve(rows: seq<Attraction>, page: int): (r: Response)
    ensures r.Broken? <==> BadOn(rows, page)
    ensures Fills(r) <==> 0 <= page && page * PerPage < |rows| && !BadOn(rows, page)
    ensures Fills(r) ==> r.data.value == PageOf(rows, page).items && r.nextPage == PageOf(rows, page).next
  {
    if page < 0 then Body(None, None)
    else
      var pg := PageOf(rows, page);
      if pg.items == [] then Body(None, None)
      else if exists a :: a in pg.items && !AttractionRouter.Conforms(a) then Broken
      else Body(Some(pg.items), pg.next)
  }

  /** The attractions the newer server lists for `keyword`, in table order. */
  function Listed(t: Tables, keyword: string, decode: string -> Option<seq<string>>): (r: seq<Attraction>)
    ensures |r| == |Selected(t, Some(keyword))|
    ensures forall k :: 0 <= k < |r| ==> r[k] == Shape(Selected(t, Some(keyword))[k], decode)
  {
    var rows := Selected(t, Some(keyword));
    seq(|rows|, k requires 0 <= k < |rows| => Shape(rows[k], decode))
  }

  /** The parsed JSON of a reply of `GET /api/attractions`: an error body,
      and the 422 body, carry neither `data` nor `nextPage`; the plain-text
      500 makes `res.json()` throw. */
  function Received(r: Reply<Page<Attraction>>): (resp: Response)
    ensures r.Ok? ==> resp == Body(Some(r.body.items), r.body.next)
    ensures r.Error? || r.Invalid? ==> resp == Body(None, None)
    ensures resp.Broken? <==> r.Crash?
  {
    match r
    case Ok(pg) => Body(Some(pg.items), pg.next)
    case Error(_, _) => Body(None, None)
    case Invalid => Body(None, None)
    case Crash => Broken
  }

  /** For a page that exists, the query answers exactly that page of the
      attractions `Listed` gives. */
  lemma ListedPage(t: Tables, keyword: string, page: nat, decode: string -> Option<seq<string>>)
    ensures GetAttractions(Up(t), page, Some(keyword), decode) == Success(PageOf(Listed(t, keyword, decode), page))
  {
    var q := GetAttractions(Up(t), page, Some(keyword), decode);
    var shown := Listed(t, keyword, decode);
    var pg := PageOf(shown, page);
    ListedItems(t, keyword, page, decode);
    assert q.value.items == pg.items;
    assert q.value.next == pg.next;
  }

  /** The items of a page of the query are that page of `Listed`. */
  lemma ListedItems(t: Tables, keyword: string, page: nat, decode: string -> Option<seq<string>>)
    ensures var q := GetAttractions(Up(t), page, Some(keyword), decode);
      q.Success? && q.value.items == PageOf(Listed(t, keyword, decode), page).items
  {
    var q := GetAttractions(Up(t), page, Some(keyword), decode);
    ShapedPage(Selected(t, Some(keyword)), Listed(t, keyword, decode), q.value.items, page, decode);
  }

  /** Shaping the rows of a page is taking that page of the shaped rows. */
  lemma ShapedPage(rows: seq<Joined>, shown: seq<Attraction>, items: seq<Attraction>, page: nat,
                   decode: string -> Option<seq<string>>)
    requires |shown| == |rows| && forall k :: 0 <= k < |shown| ==> shown[k] == Shape(rows[k], decode)
    requires |items| == (if |rows| <= page * PerPage then 0 else Min(PerPage, |rows| - page * PerPage))
    requires forall k :: 0 <= k < |items| ==> page * PerPage + k < |rows| && items[k] == Shape(rows[page * PerPage + k], decode)
    ensures items == PageOf(shown, page).items
  {
    var pg := PageOf(shown, page);
    var lo := page * PerPage;
    if |rows| <= lo {
      assert pg.items == [];
    } else {
      assert pg.items == shown[lo..Min(lo + PerPage, |shown|)];
      assert |items| == |pg.items|;
      forall k | 0 <= k < |pg.items|
        ensures items[k] == pg.items[k]
      {
        assert pg.items[k] == shown[lo + k];
      }
    }
  }

  /** What the page receives from the list endpoint over the newer server's
      query is exactly `Serve` over the attractions it lists. */
  lemma EndpointServes(t: Tables, keyword: string, page: int, decode: string -> Option<seq<string>>)
    ensures Received(AttractionRouter.ListEndpoint(GetAttractions(Up(t), page, Some(keyword), decode)))
         == Serve(Listed(t, keyword, decode), page)
  {
    if page >= 0 {
      ListedPage(t, keyword, page, decode);
    }
  }

  /** One load, answered with the server's page of `rows`. */
  function Round(p: Pager, keyword: string, station: bool, rows: seq<Attraction>): Pager {
    var (p', q) := Load(p, keyword, station);
    if q.Some? then Settle(p', Serve(rows, q.value.page)) else p'
  }

  /** `n` loads, each answered before the next: the pager as intended,
      where every scroll to the bottom asks for the next page. */
  function Rounds(p: Pager, keyword: string, station: bool, rows: seq<Attraction>, n: nat): Pager
    decreases n
  {
    if n == 0 then p else Rounds(Round(p, keyword, station, rows), keyword, station, rows, n - 1)
  }

  /** With no page left, triggers change nothing. */
  lemma {:induction false} RoundsIdle(p: Pager, keyword: string, station: bool, rows: seq<Attraction>, n: nat)
    requires !p.isLoading && p.nextPage.None?
    ensures Rounds(p, keyword, station, rows, n) == p
    decreases n
  {
    if n > 0 {
      RoundsIdle(Round(p, keyword, station, rows), keyword, station, rows, n - 1);
    }
  }

  /** A page the server cannot serve is asked for again on every trigger:
      the plain-text 500 only clears `isLoading`, so the pager never gets
      past that page and shows nothing more. */
  lemma {:induction false} CrashRepeats(p: Pager, keyword: string, station: bool, rows: seq<Attraction>, n: nat)
    requires !p.isLoading && p.inFlight.None? && p.nextPage.Some?
    requires BadOn(rows, p.nextPage.value)
    ensures Rounds(p, keyword, station, rows, n) == p
    decreases n
  {
    if n > 0 {
      assert Round(p, keyword, station, rows) == p;
      CrashRepeats(p, keyword, station, rows, n - 1);
    }
  }

  /** One trigger answered by the server on a page it can serve: an empty
      page changes nothing; otherwise the kept cards of the page are
      appended and the page's successor becomes `nextPage`. */
  lemma RoundServed(p: Pager, keyword: string, station: bool, rows: seq<Attraction>)
    requires !p.isLoading && p.inFlight.None? && p.nextPage.Some? && p.nextPage.value >= 0
    requires !BadOn(rows, p.nextPage.value)
    ensures var pg := PageOf(rows, p.nextPage.value);
      Round(p, keyword, station, rows)
      == if pg.items == [] then p
         else Pager(pg.next, false, p.shown + Filter(pg.items, KeepFor(keyword, station)), None)
  {
  }

  /** Scrolling to the bottom enough times from page `page` appends what
      the filter keeps of every row from `page * PerPage` on, in order. */
  lemma {:induction false} RoundsCollect(p: Pager, keyword: string, station: bool,
                                         rows: seq<Attraction>, n: nat)
    requires !p.isLoading && p.inFlight.None? && p.nextPage.Some? && p.nextPage.value >= 0
    requires (p.nextPage.value + n) * PerPage >= |rows|
    requires AllConform(rows)
    ensures Rounds(p, keyword, station, rows, n).shown
         == p.shown + Filter(rows[Min(p.nextPage.value * PerPage, |rows|)..], KeepFor(keyword, station))
    decreases n, 2
  {
    var page: nat := p.nextPage.value;
    var lo := Min(page * PerPage, |rows|);
    if lo == |rows| {
      assert rows[lo..] == [];
      NoBadOn(rows, page);
      RoundServed(p, keyword, station, rows);
      if n > 0 {
        RoundsCollect(p, keyword, station, rows, n - 1);
      }
    } else {
      RoundsCollectPage(p, keyword, station, rows, n);
    }
  }

  /** The step of `RoundsCollect` for a page that holds rows. */
  lemma {:induction false} RoundsCollectPage(p: Pager, keyword: string, station: bool,
                                             rows: seq<Attraction>, n: nat)
    requires !p.isLoading && p.inFlight.None? && p.nextPage.Some? && p.nextPage.value >= 0
    requires (p.nextPage.value + n) * PerPage >= |rows|
    requires p.nextPage.value * PerPage < |rows|
    requires AllConform(rows)
    ensures Rounds(p, keyword, station, rows, n).shown
         == p.shown + Filter(rows[p.nextPage.value * PerPage..], KeepFor(keyword, station))
    decreases n, 1
  {
    assert n > 0;
    var hi := PageAdvances(p, keyword, station, rows);
    var p1 := Round(p, keyword, station, rows);
    RestCollected(p1, keyword, station, rows, n - 1, hi);
  }

  /** One answered trigger on a page that holds rows moves the pager to
      the first row after the page, or past the last row, and what it
      appends together with what the filter keeps of the rows after the
      page is what the filter keeps of the rows from the page on. */
  lemma PageAdvances(p: Pager, keyword: string, station: bool, rows: seq<Attraction>)
    returns (hi: nat)
    requires !p.isLoading && p.inFlight.None? && p.nextPage.Some? && p.nextPage.value >= 0
    requires p.nextPage.value * PerPage < |rows|
    requires AllConform(rows)
    ensures var p1 := Round(p, keyword, station, rows);
      && !p1.isLoading && p1.inFlight.None? && hi <= |rows|
      && (p1.nextPage.None? ==> hi == |rows|)
      && (p1.nextPage.Some? ==> p1.nextPage.value == p.nextPage.value + 1 && p1.nextPage.value * PerPage == hi)
      && p.shown + Filter(rows[p.nextPage.value * PerPage..], KeepFor(keyword, station))
         == p1.shown + Filter(rows[hi..], KeepFor(keyword, station))
  {
    var page: nat := p.nextPage.value;
    var keep := KeepFor(keyword, station);
    var pg := PageOf(rows, page);
    var lo := page * PerPage;
    hi := Min(lo + PerPage, |rows|);
    NoBadOn(rows, page);
    RoundServed(p, keyword, station, rows);
    assert rows[lo..] == pg.items + rows[hi..];
    FilterConcat(p.shown, pg.items, rows[hi..], keep);
  }

  /** What the remaining triggers collect once the pager has moved to the
      row `hi`, or past the last row. */
  lemma {:induction false} RestCollected(p: Pager, keyword: string, station: bool,
                                         rows: seq<Attraction>, m: nat, hi: nat)
    requires !p.isLoading && p.inFlight.None? && hi <= |rows|
    requires p.nextPage.None? ==> hi == |rows|
    requires p.nextPage.Some? ==>
      p.nextPage.value >= 0 && p.nextPage.value * PerPage == hi && (p.nextPage.value + m) * PerPage >= |rows|
    requires AllConform(rows)
    ensures Rounds(p, keyword, station, rows, m).shown == p.shown + Filter(rows[hi..], KeepFor(keyword, station))
    decreases m + 1, 0
  {
    if p.nextPage.Some? {
      RoundsCollect(p, keyword, station, rows, m);
    } else {
      assert rows[hi..] == [];
      RoundsIdle(p, keyword, station, rows, m);
    }
  }

  lemma FilterConcat(front: seq<Attraction>, xs: seq<Attraction>, ys: seq<Attraction>, keep: Attraction -> bool)
    ensures front + Filter(xs, keep) + Filter(ys, keep) == front + Filter(xs + ys, keep)
  {
    FilterAppend(xs, ys, keep);
  }

  /** With the intended pager, a search made while nothing is loading,
      followed by enough scrolls to the bottom, each answered with the
      server's page of `rows`, shows every row the search keeps, once each
      and in table order: for a keyword search that is all of them. The
      first round is the search and its answer. By `EndpointServes`, the
      list endpoint answers with the pages of `Listed`. */
  lemma SearchShowsAll(p: Pager, rows: seq<Attraction>, keyword: string, station: bool, n: nat)
    requires !p.isLoading && p.inFlight.None?
    requires n * PerPage >= |rows|
    requires AllConform(rows)
    ensures var p0 := p.(nextPage := Some(0), shown := []);
      && Round(p0, keyword, station, rows) == Settle(Search(p, keyword, station).0, Serve(rows, 0))
      && Rounds(p0, keyword, station, rows, n).shown == Filter(rows, KeepFor(keyword, station))
      && (!station ==> Rounds(p0, keyword, station, rows, n).shown == rows)
  {
    var p0 := p.(nextPage := Some(0), shown := []);
    RoundsCollect(p0, keyword, station, rows, n);
    assert rows[0..] == rows;
    if !station {
      FilterAll(rows, KeepFor(keyword, station));
    }
  }

  // ------------------------------------------------------------- as written

  /** One scroll to the bottom as the page is written: the observer's
      trigger, answered with the server's page of `rows`. */
  function ObservedRound(p: Pager, keyword: string, station: bool, rows: seq<Attraction>): Pager {
    var (p', q) := Trigger(p, keyword, station);
    if q.Some? then Settle(p', Serve(rows, q.value.page)) else p'
  }

  function ObservedRounds(p: Pager, keyword: string, station: bool, rows: seq<Attraction>, n: nat): Pager
    decreases n
  {
    if n == 0 then p else ObservedRounds(ObservedRound(p, keyword, station, rows), keyword, station, rows, n - 1)
  }

  /** A load never removes a card. */
  lemma RoundKeepsShown(p: Pager, keyword: string, station: bool, rows: seq<Attraction>)
    ensures |Round(p, keyword, station, rows).shown| >= |p.shown|
  {
  }

  /** Once a card is shown, the observer loads on every scroll, so the page
      as written behaves as intended. */
  lemma {:induction false} RoundsAgree(p: Pager, keyword: string, station: bool, rows: seq<Attraction>, n: nat)
    requires p.shown != []
    ensures ObservedRounds(p, keyword, station, rows, n) == Rounds(p, keyword, station, rows, n)
    decreases n
  {
    if n > 0 {
      RoundKeepsShown(p, keyword, station, rows);
      RoundsAgree(Round(p, keyword, station, rows), keyword, station, rows, n - 1);
    }
  }

  /** With an empty grid there is no observer, and no scroll loads. */
  lemma {:induction false} ObservedIdle(p: Pager, keyword: string, station: bool, rows: seq<Attraction>, n: nat)
    requires p.shown == []
    ensures ObservedRounds(p, keyword, station, rows, n) == p
    decreases n
  {
    if n > 0 {
      ObservedIdle(p, keyword, station, rows, n - 1);
    }
  }

  /** As written: after a search and its answer, enough scrolls show every
      row the search keeps when the first page kept a card, which a keyword
      search over rows that exist always does; when the first page kept no
      card, no scroll loads anything again. */
  lemma SearchShowsAllAsWritten(p: Pager, rows: seq<Attraction>, keyword: string, station: bool, n: nat)
    requires !p.isLoading && p.inFlight.None?
    requires n * PerPage >= |rows|
    requires AllConform(rows)
    ensures var p1 := Round(p.(nextPage := Some(0), shown := []), keyword, station, rows);
      && (p1.shown != [] ==> ObservedRounds(p1, keyword, station, rows, n).shown == Filter(rows, KeepFor(keyword, station)))
      && (p1.shown == [] ==> ObservedRounds(p1, keyword, station, rows, n) == p1)
      && (!station && rows != [] ==> p1.shown != [])
  {
    var p0 := p.(nextPage := Some(0), shown := []);
    var p1 := Round(p0, keyword, station, rows);
    SearchShowsAll(p, rows, keyword, station, n + 1);
    assert Rounds(p0, keyword, station, rows, n + 1) == Rounds(p1, keyword, station, rows, n);
    if p1.shown != [] {
      RoundsAgree(p1, keyword, station, rows, n);
    } else {
      ObservedIdle(p1, keyword, station, rows, n);
    }
    if !station && rows != [] {
      NoBadOn(rows, 0);
      RoundServed(p0, keyword, station, rows);
      FilterAll(PageOf(rows, 0).items, KeepFor(keyword, station));
    }
  }

  /** A row of the stall's table: attraction `id` named `name`, at the
      station with id `mrtId`, with no images. */
  function StallRow(id: int, name: string, mrtId: int): Row {
    Row(id, Some(name), Some(""), Some(""), Some(""), Some(""), None, Some(mrtId))
  }

  /** Twelve attractions at station "XY", then one at station "X". */
  const StallTables: Tables :=
    Tables(seq(12, k => StallRow(k + 1, "a", 1)) + [StallRow(13, "b", 2)],
           [Station(1, "XY"), Station(2, "X")])

  /** The attraction the server lists for a row of `StallTables`. */
  function StallCard(id: int, name: string, mrt: string): Attraction {
    Attraction(id, Some(name), Some(""), Some(""), Some(""), Some(""), Some(mrt), [])
  }

  const StallRows: seq<Attraction> := seq(12, k => StallCard(k + 1, "a", "XY")) + [StallCard(13, "b", "X")]

  /** For the keyword "X" the newer server lists all thirteen rows of
      `StallTables`, in table order: every station name contains "X". */
  lemma StallListed(decode: string -> Option<seq<string>>)
    ensures Listed(StallTables, "X", decode) == StallRows
  {
    StallSelected();
    var js := Join(StallTables);
    var r := Listed(StallTables, "X", decode);
    forall k | 0 <= k < |r|
      ensures r[k] == StallRows[k]
    {
      assert r[k] == Shape(js[k], decode);
    }
  }

  /** The keyword "X" selects the whole join of `StallTables`. */
  lemma StallSelected()
    ensures Selected(StallTables, Some("X")) == Join(StallTables)
    ensures forall k :: 0 <= k < |Join(StallTables)| ==>
      Join(StallTables)[k] == Joined(StallTables.attractions[k], Some(if k < 12 then "XY" else "X"))
  {
    var js := Join(StallTables);
    StallJoined();
    assert Text.StartsWith("XY", "X") && Text.StartsWith("X", "X");
    assert forall k :: 0 <= k < |js| ==> KeywordMatches("X", js[k]);
  }

  /** Each row of `StallTables` joins with its station's name. */
  lemma StallJoined()
    ensures forall k :: 0 <= k < |Join(StallTables)| ==>
      Join(StallTables)[k] == Joined(StallTables.attractions[k], Some(if k < 12 then "XY" else "X"))
  {
    var t := StallTables;
    assert t.stations[1..] == [Station(2, "X")];
    assert StationName(t.stations, Some(1)) == Some("XY");
    assert StationName(t.stations, Some(2)) == Some("X");
    assert forall k :: 0 <= k < |t.attractions| ==> t.attractions[k].mrtId == Some(if k < 12 then 1 else 2);
  }

  /** A station search whose first page keeps no card stalls: the grid
      stays empty, so no observer is made and no later page is asked for,
      even when a later page holds attractions at the station. Concretely,
      the server lists twelve attractions at "XY" and then one at "X" for
      the keyword "X", since `LIKE` matches both station names, and the
      page keeps only the station "X": the page as written never shows a
      card, the intended pager shows the one at "X". */
  lemma StationSearchStalls(p: Pager, n: nat, decode: string -> Option<seq<string>>)
    requires !p.isLoading && p.inFlight.None?
    ensures var rows := Listed(StallTables, "X", decode);
      var p1 := Round(p.(nextPage := Some(0), shown := []), "X", true, rows);
      && p1.shown == [] && p1.nextPage == Some(1)
      && ObservedRounds(p1, "X", true, rows, n).shown == []
      && Rounds(p.(nextPage := Some(0), shown := []), "X", true, rows, 2).shown == [StallCard(13, "b", "X")]
  {
    StallListed(decode);
    StallRounds(p, n);
  }

  /** The shape of `StallRows`: twelve cards at "XY", then the one at "X",
      all fitting the reply schema. */
  lemma StallRowsShape()
    ensures |StallRows| == 13 && StallRows == StallRows[..12] + [StallCard(13, "b", "X")]
    ensures forall k :: 0 <= k < 12 ==> StallRows[k].mrt == Some("XY")
    ensures AllConform(StallRows)
  {
    assert forall k :: 0 <= k < |StallRows| ==> AttractionRouter.Conforms(StallRows[k]);
  }

  /** The rounds of `StationSearchStalls` over the rows themselves. */
  lemma StallRounds(p: Pager, n: nat)
    requires !p.isLoading && p.inFlight.None?
    ensures var p1 := Round(p.(nextPage := Some(0), shown := []), "X", true, StallRows);
      && p1.shown == [] && p1.nextPage == Some(1)
      && ObservedRounds(p1, "X", true, StallRows, n).shown == []
      && Rounds(p.(nextPage := Some(0), shown := []), "X", true, StallRows, 2).shown == [StallCard(13, "b", "X")]
  {
    StallRowsShape();
    var rows := StallRows;
    var b := StallCard(13, "b", "X");
    var keep := KeepFor("X", true);
    var p0 := p.(nextPage := Some(0), shown := []);
    var front := PageOf(rows, 0).items;
    assert front == rows[..12];
    FilterNone(front, keep);
    NoBadOn(rows, 0);
    RoundServed(p0, "X", true, rows);
    var p1 := Round(p0, "X", true, rows);
    ObservedIdle(p1, "X", true, rows, n);
    SearchShowsAll(p, rows, "X", true, 2);
    assert Filter(rows, keep) == [b] by {
      FilterAppend(rows[..12], [b], keep);
      assert Filter([b], keep) == [b] + Filter([], keep);
    }
  }
}

=== FILE: http.dfy ===
/** Replies of the HTTP endpoints. */
module Http {

  /** Status 200 with a body; an error status with the `message` of the
      JSON error body the handler returns; the 422 FastAPI answers when the
      request fails validation, whose JSON body holds only a `detail` list;
      or the plain-text 500 "Internal Server Error" FastAPI answers when an
      exception escapes the handler or the value it returns does not fit
      the route's `response_model`. */
  datatype Reply<+T> = Ok(body: T) | Error(status: nat, message: string) | Invalid | Crash

  /** The message of a 500 reply of the routers: a fixed prefix and the
      text of the exception. */
  function InternalError(e: string): (m: string)
    ensures |m| > |e|
  {
    "伺服器內部錯誤：" + e
  }
}

=== FILE: image_urls.dfy ===
/** The three ways the repository pulls image URLs out of the raw `file`
    string of the open-data feed:
    - app.py `filter_image_urls`: insert a comma before every scheme, split
      on commas, keep pieces ending in .jpg/.png;
    - import_data.py `filter_image_urls`: `re.findall` of
      `https?://[^\s,]+?\.(?:jpg|png)` with IGNORECASE;
    - app/crud/attraction.py `_parse_image_field`: a JSON array when the
      field is bracketed and decodes, otherwise `re.findall` of
      `https?://[^\s]+?\.(?:jpg|jpeg|png|gif)` with IGNORECASE. */
module ImageUrls {
  import opened Wrappers
  import opened Text
  import opened Seqs

  // ---------------------------------------------------------------------
  // app.py: split on scheme boundaries

  /** `re.sub(r'(https?://)', r',\1', s)`: a comma in front of every
      case-sensitive `https://` or `http://`, scanning left to right. */
  function MarkSchemes(s: string): string
    decreases |s|
  {
    if |s| == 0 then ""
    else if StartsWith(s, "https://") then ",https://" + MarkSchemes(s[8..])
    else if StartsWith(s, "http://") then ",http://" + MarkSchemes(s[7..])
    else [s[0]] + MarkSchemes(s[1..])
  }

  predicate NotComma(c: char) {
    c != ','
  }

  /** `s` with every comma removed. */
  function DropCommas(s: string): string {
    Filter(s, NotComma)
  }

  /** Dropping commas distributes over concatenation. */
  lemma DropCommasAppend(a: string, b: string)
    ensures DropCommas(a + b) == DropCommas(a) + DropCommas(b)
  {
    FilterAppend(a, b, NotComma);
  }

  /** A comma put in front of a scheme is dropped again. */
  lemma DropMarkedScheme(w: string, marked: string, rest: string)
    requires DropCommas(marked) == DropCommas(rest)
    ensures DropCommas("," + w + marked) == DropCommas(w + rest)
  {
    DropCommasAppend("," + w, marked);
    DropCommasAppend(",", w);
    DropCommasAppend(w, rest);
    assert DropCommas(",") == [];
  }

  /** `MarkSchemes` only inserts commas: with commas removed, its output is
      its input with commas removed. */
  lemma {:induction false} MarkSchemesOnlyAddsCommas(s: string)
    ensures DropCommas(MarkSchemes(s)) == DropCommas(s)
    decreases |s|
  {
    if |s| > 0 {
      var n := if StartsWith(s, "https://") then 8 else if StartsWith(s, "http://") then 7 else 1;
      MarkSchemesOnlyAddsCommas(s[n..]);
      assert s == s[..n] + s[n..];
      if n == 1 {
        assert s[..1] == [s[0]];
        DropCommasAppend([s[0]], MarkSchemes(s[1..]));
        DropCommasAppend([s[0]], s[1..]);
      } else {
        assert MarkSchemes(s) == "," + s[..n] + MarkSchemes(s[n..]);
        DropMarkedScheme(s[..n], MarkSchemes(s[n..]), s[n..]);
      }
    }
  }

  /** A piece app.py keeps: it ends in .jpg or .png once lower-cased. */
  predicate IsJpgOrPng(url: string) {
    LowerEndsWith(url, ".jpg") || LowerEndsWith(url, ".png")
  }

  /** app.py `filter_image_urls`. */
  function SplitFilterUrls(s: string): seq<string> {
    Filter(Split(MarkSchemes(s), ','), IsJpgOrPng)
  }

  /** The empty field yields no URL; every URL ends in .jpg/.png (case
      ignored) and holds no comma; the URLs are exactly the image pieces of
      the comma split, in the split's order. */
  lemma SplitFilterUrlsProperties(s: string)
    ensures s == "" ==> SplitFilterUrls(s) == []
    ensures var r := SplitFilterUrls(s);
      && (forall u :: u in r ==> IsJpgOrPng(u) && ',' !in u)
      && (forall u :: u in Split(MarkSchemes(s), ',') && IsJpgOrPng(u) ==> u in r)
      && IsSubseq(r, Split(MarkSchemes(s), ','))
  {
    var parts := Split(MarkSchemes(s), ',');
    FilterIsSubseq(parts, IsJpgOrPng);
    FilterMembers(parts, IsJpgOrPng);
    forall u | u in SplitFilterUrls(s)
      ensures ',' !in u
    {
      var k :| 0 <= k < |parts| && parts[k] == u;
    }
    if s == "" {
      assert MarkSchemes(s) == "";
      assert parts == [""];
      assert !IsJpgOrPng("");
    }
  }

  // ---------------------------------------------------------------------
  // `re.findall` of  https?://[BODY]+?\.(?:EXT1|EXT2|...)  with IGNORECASE

  /** The two regular expressions differ only in the body character class
      and the list of extensions (tried in order). */
  datatype UrlPattern = UrlPattern(body: char -> bool, exts: seq<string>)

  /** The lower-case literal `w` matches `s` at offset `k`, case ignored. */
  predicate MatchesAt(s: string, k: nat, w: string) {
    k + |w| <= |s| && forall i :: 0 <= i < |w| ==> CharMatchesIgnoreCase(s[k + i], w[i])
  }

  /** Where `https?://` ends when it matches at `k`. The optional `s` is
      greedy; giving it back never helps because `:` cannot match an `s`. */
  function SchemeEnd(s: string, k: nat): (r: Option<nat>)
    ensures r.Some? ==> k < r.value <= |s|
  {
    if MatchesAt(s, k, "https://") then Some(k + 8)
    else if MatchesAt(s, k, "http://") then Some(k + 7)
    else None
  }

  /** Where the first alternative of `exts` matching at `k` ends. */
  function FirstExtension(s: string, k: nat, exts: seq<string>): (r: Option<nat>)
    ensures r.Some? ==> k <= r.value <= |s|
  {
    if |exts| == 0 then None
    else if MatchesAt(s, k, exts[0]) then Some(k + |exts[0]|)
    else FirstExtension(s, k, exts[1..])
  }

  /** The alternative `FirstExtension` matched: one of `exts`, matching at
      `k`, whose end is the reported end. */
  lemma {:induction false} FirstExtensionMatch(s: string, k: nat, exts: seq<string>) returns (x: string)
    requires FirstExtension(s, k, exts).Some?
    ensures x in exts && MatchesAt(s, k, x) && FirstExtension(s, k, exts).value == k + |x|
  {
    if MatchesAt(s, k, exts[0]) {
      x := exts[0];
    } else {
      x := FirstExtensionMatch(s, k, exts[1..]);
    }
  }

  /** Where `\.(?:EXT1|...)` ends when it matches at `k`. */
  function ExtensionEnd(s: string, k: nat, exts: seq<string>): (r: Option<nat>)
    ensures r.Some? ==> k < r.value <= |s| && s[k] == '.'
  {
    if k < |s| && s[k] == '.' then FirstExtension(s, k + 1, exts) else None
  }

  /** One match: `s[start..end]`, scheme `s[start..bodyStart]`, body
      `s[bodyStart..dot]`, extension `s[dot..end]`. */
  datatype Span = Span(start: nat, bodyStart: nat, dot: nat, end: nat)

  /** Reference definition of a match of the pattern at `sp.start`: a
      scheme, a non-empty run of body characters, an extension, and no
      shorter run of body characters followed by an extension (the
      quantifier `+?` is lazy). */
  ghost predicate ValidSpan(s: string, sp: Span, pat: UrlPattern) {
    && sp.start < sp.bodyStart < sp.dot < sp.end <= |s|
    && SchemeEnd(s, sp.start) == Some(sp.bodyStart)
    && (forall j :: sp.bodyStart <= j < sp.dot ==> pat.body(s[j]))
    && ExtensionEnd(s, sp.dot, pat.exts) == Some(sp.end)
    && (forall k :: sp.bodyStart < k < sp.dot ==> ExtensionEnd(s, k, pat.exts).None?)
  }

  /** The lazy body: body characters `s[p..d]` have been consumed and no
      extension followed any shorter non-empty run; try the extension at
      `d`, else consume one more body character. */
  function LazyBody(s: string, p: nat, d: nat, pat: UrlPattern): (r: Option<(nat, nat)>)
    requires p <= d <= |s|
    requires forall j :: p <= j < d ==> pat.body(s[j])
    requires forall k :: p < k < d ==> ExtensionEnd(s, k, pat.exts).None?
    ensures r.Some? ==> var (dot, end) := r.value;
      && d <= dot && p < dot < end <= |s|
      && (forall j :: p <= j < dot ==> pat.body(s[j]))
      && (forall k :: p < k < dot ==> ExtensionEnd(s, k, pat.exts).None?)
      && ExtensionEnd(s, dot, pat.exts) == Some(end)
    decreases |s| - d
  {
    if d > p && ExtensionEnd(s, d, pat.exts).Some? then Some((d, ExtensionEnd(s, d, pat.exts).value))
    else if d < |s| && pat.body(s[d]) then LazyBody(s, p, d + 1, pat)
    else None
  }

  /** The regular expression tried at offset `i`. */
  function MatchAt(s: string, i: nat, pat: UrlPattern): (r: Option<Span>)
    requires i <= |s|
    ensures r.Some? ==> r.value.start == i < r.value.end <= |s|
  {
    match SchemeEnd(s, i)
    case None => None
    case Some(b) =>
      match LazyBody(s, b, b, pat)
      case None => None
      case Some((dot, end)) => Some(Span(i, b, dot, end))
  }

  /** What the regular expression finds is a match by the reference
      definition. */
  lemma MatchAtSound(s: string, i: nat, pat: UrlPattern)
    requires i <= |s|
    ensures MatchAt(s, i, pat).Some? ==> ValidSpan(s, MatchAt(s, i, pat).value, pat)
  {
  }

  lemma {:induction false} LazyBodyFinds(s: string, p: nat, d: nat, pat: UrlPattern, dot: nat, end: nat)
    requires p <= d <= dot && p < dot
    requires dot <= |s|
    requires forall j :: p <= j < dot ==> pat.body(s[j])
    requires forall k :: p < k < dot ==> ExtensionEnd(s, k, pat.exts).None?
    requires ExtensionEnd(s, dot, pat.exts) == Some(end)
    ensures LazyBody(s, p, d, pat) == Some((dot, end))
    decreases dot - d
  {
    if d < dot {
      assert pat.body(s[d]);
      LazyBodyFinds(s, p, d + 1, pat, dot, end);
    }
  }

  /** Conversely, a match by the reference definition is what the regular
      expression finds at that offset: the two definitions agree. */
  lemma MatchAtComplete(s: string, sp: Span, pat: UrlPattern)
    requires ValidSpan(s, sp, pat)
    ensures MatchAt(s, sp.start, pat) == Some(sp)
  {
    LazyBodyFinds(s, sp.bodyStart, sp.bodyStart, pat, sp.dot, sp.end);
  }

  /** `r` is a match at offset `j` that ends within `n` characters. */
  predicate MatchFits(r: Option<Span>, j: nat, n: nat) {
    r.Some? ==> r.value.start == j < r.value.end <= n
  }

  /** The scan `re.findall` makes over a subject of length `n`, given the
      match `m(j)` the pattern makes at each offset `j`: from `i`, left to
      right, take the match at the first offset where one starts and resume
      after it. The spans are matches at their starts, lie in `[i, n)`, and
      come in input order without overlapping. */
  function Scan(n: nat, i: nat, m: nat -> Option<Span>): (r: seq<Span>)
    requires i <= n
    requires forall j :: i <= j < n ==> MatchFits(m(j), j, n)
    ensures forall k :: 0 <= k < |r| ==> i <= r[k].start < r[k].end <= n
    ensures forall k :: 0 <= k < |r| ==> m(r[k].start) == Some(r[k])
    ensures forall k :: 0 <= k < |r| - 1 ==> r[k].end <= r[k + 1].start
    decreases n - i
  {
    if i >= n then []
    else
      assert MatchFits(m(i), i, n);
      match m(i)
      case Some(sp) => [sp] + Scan(n, sp.end, m)
      case None => Scan(n, i + 1, m)
  }

  /** The scan is leftmost: an offset where a match starts lies inside one
      of the spans, so no match starts before the first span, between two
      spans, or after the last one. The result is the index of that span. */
  lemma {:induction false} ScanLeftmost(n: nat, i: nat, m: nat -> Option<Span>, j: nat) returns (k: nat)
    requires i <= j < n && m(j).Some?
    requires forall j :: i <= j < n ==> MatchFits(m(j), j, n)
    ensures var r := Scan(n, i, m);
      k < |r| && r[k].start <= j < r[k].end
    decreases n - i
  {
    var r := Scan(n, i, m);
    assert MatchFits(m(i), i, n);
    match m(i)
    case Some(sp) =>
      var rest := Scan(n, sp.end, m);
      assert r == [sp] + rest;
      if j >= sp.end {
        var k' := ScanLeftmost(n, sp.end, m, j);
        k := k' + 1;
        assert r[k] == rest[k'];
      } else {
        k := 0;
      }
    case None =>
      k := ScanLeftmost(n, i + 1, m, j);
  }

  /** The pattern's match at each offset of `s`. */
  function Matcher(s: string, pat: UrlPattern): (m: nat -> Option<Span>)
    ensures forall j: nat :: j < |s| ==> MatchFits(m(j), j, |s|)
  {
    (j: nat) => if j <= |s| then MatchAt(s, j, pat) else None
  }

  /** `re.findall` from offset `i`: the scan over the pattern's matches. */
  function FindSpans(s: string, i: nat, pat: UrlPattern): (r: seq<Span>)
    requires i <= |s|
    ensures forall k :: 0 <= k < |r| ==> i <= r[k].start < r[k].end <= |s|
    ensures forall k :: 0 <= k < |r| ==> MatchAt(s, r[k].start, pat) == Some(r[k])
    ensures forall k :: 0 <= k < |r| - 1 ==> r[k].end <= r[k + 1].start
  {
    Scan(|s|, i, Matcher(s, pat))
  }

  /** An offset of `s` where the pattern matches lies inside a span. */
  lemma FindSpansLeftmost(s: string, i: nat, pat: UrlPattern, j: nat) returns (k: nat)
    requires i <= j < |s| && MatchAt(s, j, pat).Some?
    ensures var r := FindSpans(s, i, pat);
      k < |r| && r[k].start <= j < r[k].end
  {
    k := ScanLeftmost(|s|, i, Matcher(s, pat), j);
  }

  /** `re.findall(pattern, s, flags=re.IGNORECASE)`. */
  function FindAll(s: string, pat: UrlPattern): (r: seq<string>)
    ensures var spans := FindSpans(s, 0, pat);
      |r| == |spans| && forall k :: 0 <= k < |r| ==> r[k] == s[spans[k].start..spans[k].end]
  {
    var spans := FindSpans(s, 0, pat);
    seq(|spans|, k requires 0 <= k < |spans| => s[spans[k].start..spans[k].end])
  }

  /** The result is empty exactly when the pattern matches at no offset. */
  lemma FindAllEmptyIff(s: string, pat: UrlPattern)
    ensures FindAll(s, pat) == [] <==> forall j :: 0 <= j < |s| ==> MatchAt(s, j, pat).None?
  {
    var spans := FindSpans(s, 0, pat);
    if |spans| > 0 {
      assert MatchAt(s, spans[0].start, pat).Some?;
    } else {
      forall j | 0 <= j < |s|
        ensures MatchAt(s, j, pat).None?
      {
        if MatchAt(s, j, pat).Some? {
          var k := FindSpansLeftmost(s, 0, pat, j);
        }
      }
    }
  }

  /** A character the pattern's literals accept, case ignored, is never a
      space or a comma when the literal is a lower-case ASCII letter, `:`,
      `/` or `.`. */
  lemma LiteralCharIsPlain(c: char, p: char)
    requires 'a' <= p <= 'z' || p == ':' || p == '/' || p == '.'
    requires CharMatchesIgnoreCase(c, p)
    ensures !IsPySpace(c) && c != ','
  {
  }

  lemma {:induction false} MatchesAtPlain(s: string, k: nat, w: string, j: nat)
    requires MatchesAt(s, k, w)
    requires forall i :: 0 <= i < |w| ==> 'a' <= w[i] <= 'z' || w[i] == ':' || w[i] == '/'
    requires k <= j < k + |w|
    ensures !IsPySpace(s[j]) && s[j] != ','
  {
    LiteralCharIsPlain(s[j], w[j - k]);
  }

  /** The literal `w` matching `s` at `k` matches the slice `s[a..b]` at
      `k - a` when it lies inside the slice. */
  lemma MatchesAtSlice(s: string, a: nat, b: nat, k: nat, w: string)
    requires a <= k && k + |w| <= b <= |s|
    requires MatchesAt(s, k, w)
    ensures MatchesAt(s[a..b], k - a, w)
  {
    var u := s[a..b];
    forall i | 0 <= i < |w|
      ensures CharMatchesIgnoreCase(u[k - a + i], w[i])
    {
      assert u[k - a + i] == s[k + i];
    }
  }

  /** A URL starts with `http://` or `https://`, case ignored. */
  predicate HasScheme(u: string) {
    MatchesAt(u, 0, "http://") || MatchesAt(u, 0, "https://")
  }

  /** A URL ends with `.` and one of `exts`, case ignored. */
  predicate HasExtension(u: string, exts: seq<string>) {
    exists x :: x in exts && |x| + 1 <= |u| && u[|u| - |x| - 1] == '.' && MatchesAt(u, |u| - |x|, x)
  }

  /** The text of a valid span starts with a scheme. */
  lemma SpanScheme(s: string, sp: Span, pat: UrlPattern)
    requires ValidSpan(s, sp, pat)
    ensures HasScheme(s[sp.start..sp.end])
  {
    if MatchesAt(s, sp.start, "https://") {
      MatchesAtSlice(s, sp.start, sp.end, sp.start, "https://");
    } else {
      MatchesAtSlice(s, sp.start, sp.end, sp.start, "http://");
    }
  }

  /** A slice that ends with a dot and a listed extension has an
      extension. */
  lemma DotExtensionSlice(s: string, a: nat, dot: nat, x: string, exts: seq<string>)
    requires a <= dot && dot + 1 + |x| <= |s|
    requires s[dot] == '.' && x in exts && MatchesAt(s, dot + 1, x)
    ensures HasExtension(s[a..dot + 1 + |x|], exts)
  {
    var b := dot + 1 + |x|;
    var u := s[a..b];
    MatchesAtSlice(s, a, b, dot + 1, x);
    assert u[|u| - |x| - 1] == s[dot];
  }

  /** The text of a valid span ends with a dot and an extension. */
  lemma SpanExtension(s: string, sp: Span, pat: UrlPattern)
    requires ValidSpan(s, sp, pat)
    ensures HasExtension(s[sp.start..sp.end], pat.exts)
  {
    var x := FirstExtensionMatch(s, sp.dot + 1, pat.exts);
    DotExtensionSlice(s, sp.start, sp.dot, x, pat.exts);
  }

  /** The text of a valid span starts with a scheme, ends with an
      extension, and its body characters satisfy the body class. */
  lemma {:induction false} SpanShape(s: string, sp: Span, pat: UrlPattern)
    requires ValidSpan(s, sp, pat)
    ensures var u := s[sp.start..sp.end];
      && HasScheme(u)
      && HasExtension(u, pat.exts)
      && (forall j :: sp.bodyStart - sp.start <= j < sp.dot - sp.start ==> pat.body(u[j]))
  {
    var u := s[sp.start..sp.end];
    SpanScheme(s, sp, pat);
    SpanExtension(s, sp, pat);
    forall j | sp.bodyStart - sp.start <= j < sp.dot - sp.start
      ensures pat.body(u[j])
    {
      assert u[j] == s[sp.start + j];
    }
  }

  // ---------------------------------------------------------------------
  // import_data.py: filter_image_urls

  /** `[^\s,]`: neither whitespace nor a comma. */
  predicate NotSpaceOrComma(c: char) {
    !IsPySpace(c) && c != ','
  }

  /** `https?://[^\s,]+?\.(?:jpg|png)`. */
  function ImportPattern(): UrlPattern {
    UrlPattern(NotSpaceOrComma, ["jpg", "png"])
  }

  /** import_data.py `filter_image_urls`. */
  function ImportImageUrls(s: string): seq<string> {
    FindAll(s, ImportPattern())
  }

  /** Every extension is made of lower-case ASCII letters. */
  predicate LowerExtensions(exts: seq<string>) {
    forall x :: x in exts ==> forall i :: 0 <= i < |x| ==> 'a' <= x[i] <= 'z'
  }

  /** A character of the scheme or the extension of a match is neither
      whitespace nor a comma. */
  lemma {:induction false} LiteralPartPlain(s: string, sp: Span, pat: UrlPattern, j: nat)
    requires ValidSpan(s, sp, pat) && LowerExtensions(pat.exts)
    requires sp.start <= j < sp.bodyStart || sp.dot <= j < sp.end
    ensures NotSpaceOrComma(s[j])
  {
    if j < sp.bodyStart {
      if MatchesAt(s, sp.start, "https://") {
        MatchesAtPlain(s, sp.start, "https://", j);
      } else {
        MatchesAtPlain(s, sp.start, "http://", j);
      }
    } else if j > sp.dot {
      var x := FirstExtensionMatch(s, sp.dot + 1, pat.exts);
      MatchesAtPlain(s, sp.dot + 1, x, j);
    }
  }

  /** No character of a match of the import pattern is whitespace or a
      comma. */
  lemma {:induction false} ImportSpanPlain(s: string, sp: Span)
    requires ValidSpan(s, sp, ImportPattern())
    ensures forall j :: sp.start <= j < sp.end ==> NotSpaceOrComma(s[j])
  {
    forall j | sp.start <= j < sp.end
      ensures NotSpaceOrComma(s[j])
    {
      if j < sp.bodyStart || j >= sp.dot {
        LiteralPartPlain(s, sp, ImportPattern(), j);
      }
    }
  }

  /** The text of one import match has the shape the pattern promises. */
  lemma {:induction false} ImportUrlShape(s: string, sp: Span)
    requires ValidSpan(s, sp, ImportPattern())
    ensures var u := s[sp.start..sp.end];
      && HasScheme(u)
      && HasExtension(u, ["jpg", "png"])
      && (forall j :: 0 <= j < |u| ==> NotSpaceOrComma(u[j]))
  {
    var u := s[sp.start..sp.end];
    SpanShape(s, sp, ImportPattern());
    ImportSpanPlain(s, sp);
    forall j | 0 <= j < |u|
      ensures NotSpaceOrComma(u[j])
    {
      assert u[j] == s[sp.start + j];
    }
  }

  /** Every URL the import keeps starts with `http://` or `https://`, ends
      in `.jpg` or `.png` (case ignored) and holds no whitespace or comma;
      the URLs are the matches at their offsets, in input order and
      non-overlapping. */
  lemma ImportImageUrlsProperties(s: string)
    ensures var r := ImportImageUrls(s);
      forall u :: u in r ==>
        && HasScheme(u)
        && HasExtension(u, ["jpg", "png"])
        && (forall j :: 0 <= j < |u| ==> NotSpaceOrComma(u[j]))
    ensures var spans := FindSpans(s, 0, ImportPattern());
      && |ImportImageUrls(s)| == |spans|
      && (forall k :: 0 <= k < |spans| ==> ImportImageUrls(s)[k] == s[spans[k].start..spans[k].end])
      && (forall k :: 0 <= k < |spans| - 1 ==> spans[k].end <= spans[k + 1].start)
  {
    var spans := FindSpans(s, 0, ImportPattern());
    var r := ImportImageUrls(s);
    forall u | u in r
      ensures HasScheme(u) && HasExtension(u, ["jpg", "png"])
      ensures forall j :: 0 <= j < |u| ==> NotSpaceOrComma(u[j])
    {
      var k :| 0 <= k < |r| && r[k] == u;
      MatchAtSound(s, spans[k].start, ImportPattern());
      ImportUrlShape(s, spans[k]);
    }
  }

  // ---------------------------------------------------------------------
  // app/crud/attraction.py: _parse_image_field

  /** `[^\s]`: not whitespace. */
  predicate NotSpace(c: char) {
    !IsPySpace(c)
  }

  /** `https?://[^\s]+?\.(?:jpg|jpeg|png|gif)`. */
  function FieldPattern(): UrlPattern {
    UrlPattern(NotSpace, ["jpg", "jpeg", "png", "gif"])
  }

  /** `_parse_image_field(raw)`, with `json.loads` as the oracle
      `decodeJson` (`None` for a `JSONDecodeError`, else the decoded list). */
  function ParseImageField(raw: Option<string>, decodeJson: string -> Option<seq<string>>): (r: seq<string>)
    ensures raw == None || raw == Some("") ==> r == []
  {
    if raw.None? || raw.value == "" then []
    else
      var t := PyStrip(raw.value);
      if StartsWith(t, "[") && EndsWith(t, "]") && decodeJson(t).Some? then decodeJson(t).value
      else FindAll(t, FieldPattern())
  }

  /** The field pattern's extensions are lower-case. */
  lemma FieldExtensionsLower()
    ensures LowerExtensions(FieldPattern().exts)
  {
    forall x | x in ["jpg", "jpeg", "png", "gif"]
      ensures forall i :: 0 <= i < |x| ==> 'a' <= x[i] <= 'z'
    {
      assert x == "jpg" || x == "jpeg" || x == "png" || x == "gif";
    }
  }

  /** No character of a match of the field pattern is whitespace. */
  lemma {:induction false} FieldCharPlain(t: string, sp: Span, j: nat)
    requires ValidSpan(t, sp, FieldPattern())
    requires sp.start <= j < sp.end
    ensures NotSpace(t[j])
  {
    var pat := FieldPattern();
    if j < sp.bodyStart || j >= sp.dot {
      FieldExtensionsLower();
      LiteralPartPlain(t, sp, pat, j);
      assert NotSpaceOrComma(t[j]);
    } else {
      assert pat.body(t[j]);
    }
  }

  /** The text of one field-pattern match has the shape the pattern
      promises. */
  lemma {:induction false} FieldUrlShape(t: string, sp: Span)
    requires ValidSpan(t, sp, FieldPattern())
    ensures var u := t[sp.start..sp.end];
      && HasScheme(u)
      && HasExtension(u, ["jpg", "jpeg", "png", "gif"])
      && (forall j :: 0 <= j < |u| ==> NotSpace(u[j]))
  {
    var u := t[sp.start..sp.end];
    SpanShape(t, sp, FieldPattern());
    forall j | 0 <= j < |u|
      ensures NotSpace(u[j])
    {
      FieldCharPlain(t, sp, sp.start + j);
      assert u[j] == t[sp.start + j];
    }
  }

  /** A bracketed field that decodes yields the decoded list; any other
      non-empty field yields the regex matches over the stripped text, each
      starting with a scheme, ending in .jpg/.jpeg/.png/.gif (case ignored)
      and free of whitespace. */
  lemma ParseImageFieldCases(raw: string, decodeJson: string -> Option<seq<string>>)
    requires raw != ""
    ensures var t := PyStrip(raw);
      && (StartsWith(t, "[") && EndsWith(t, "]") && decodeJson(t).Some? ==>
            ParseImageField(Some(raw), decodeJson) == decodeJson(t).value)
      && (!(StartsWith(t, "[") && EndsWith(t, "]")) || decodeJson(t).None? ==>
            ParseImageField(Some(raw), decodeJson) == FindAll(t, FieldPattern()))
    ensures forall u :: u in FindAll(PyStrip(raw), FieldPattern()) ==>
      && HasScheme(u)
      && HasExtension(u, ["jpg", "jpeg", "png", "gif"])
      && (forall j :: 0 <= j < |u| ==> NotSpace(u[j]))
  {
    var t := PyStrip(raw);
    var spans := FindSpans(t, 0, FieldPattern());
    var r := FindAll(t, FieldPattern());
    forall u | u in r
      ensures HasScheme(u) && HasExtension(u, ["jpg", "jpeg", "png", "gif"])
      ensures forall j :: 0 <= j < |u| ==> NotSpace(u[j])
    {
      var k :| 0 <= k < |r| && r[k] == u;
      MatchAtSound(t, spans[k].start, FieldPattern());
      FieldUrlShape(t, spans[k]);
    }
  }
}

=== FILE: importer.dfy ===
/** import_data.py `import_data`: load the open-data feed into
    `attractions` and `attraction_mrt`, skipping names already present and
    creating each station row once. All inserts share one transaction, so
    an exception part-way leaves the tables as they were. */
module Importer {
  import opened Wrappers
  import opened Text
  import opened ImageUrls
  import opened AttractionCrud

  /** A JSON value where the importer expects a string. */
  datatype Field = Missing | Null | Str(s: string)

  /** A JSON value the importer tests for truthiness before using it: the
      station and the coordinates. `Num` is a number or a boolean, `zero`
      when it is falsy and `finite` unless it is one of the `NaN` and
      `Infinity` literals Python's `json` reads; `Compound` is a list or an
      object, `empty` when it is falsy. */
  datatype Value = Absent | Nothing | Text(s: string) | Num(zero: bool, finite: bool) | Compound(empty: bool)

  /** What Python's `float` makes of a text: an error, a finite number, or
      `nan` or an infinity. */
  datatype Float = NoFloat | Finite | NonFinite

  /** The width of the `VARCHAR(255)` columns: `attraction_mrt.mrt` and
      `attractions.name`, `category` and `address`. */
  const MaxVarchar: nat := 255

  /** An element of `results`: an object with the fields the importer
      reads, or some other JSON value. */
  datatype Item = Entry(name: Field, cat: Field, description: Field, address: Field,
                        direction: Field, mrt: Value, latitude: Value, longitude: Value,
                        file: Field)
                | NotADict

  /** The feed file: unreadable or not JSON, or parsed, with `results`
      absent when `result` or `result.results` is missing. */
  datatype Doc = Unreadable | Parsed(results: Option<seq<Item>>)

  /** A row the importer writes to `attractions`; `images` is the list it
      stores with `json.dumps`. */
  datatype Imported = Imported(id: nat, name: Option<string>, category: Option<string>,
                               description: Option<string>, address: Option<string>,
                               transport: Option<string>, images: seq<string>, mrtId: Option<int>)

  /** The two tables and their next `AUTO_INCREMENT` ids. */
  datatype Tables = Tables(rows: seq<Imported>, stations: seq<Station>, nextRowId: nat, nextStationId: nat)

  /** `item.get(key, '')`. */
  function Get(f: Field): (r: Option<string>)
    ensures f.Missing? ==> r == Some("")
    ensures f.Null? ==> r.None?
    ensures f.Str? ==> r == Some(f.s)
  {
    match f
    case Missing => Some("")
    case Null => None
    case Str(s) => Some(s)
  }

  /** Python truthiness of `item.get(key)`; a missing key reads as `None`. */
  predicate Truthy(v: Value) {
    match v
    case Absent => false
    case Nothing => false
    case Text(s) => s != ""
    case Num(zero, _) => !zero
    case Compound(empty) => !empty
  }

  /** `float(item.get(key, 0)) if item.get(key) else None` does not raise.
      `toFloat(s)` is what Python's `float` makes of the text `s`; numbers
      and booleans convert, lists and objects raise `TypeError`. */
  predicate CoordOk(v: Value, toFloat: string -> Float) {
    !Truthy(v) || match v
      case Text(s) => toFloat(s) != NoFloat
      case Compound(_) => false
      case _ => true
  }

  /** The coordinate the importer computes is NULL or a finite float;
      pymysql refuses to put `nan` or an infinity into a statement. */
  predicate CoordFinite(v: Value, toFloat: string -> Float) {
    !Truthy(v) || match v
      case Text(s) => toFloat(s) == Finite
      case Num(_, finite) => finite
      case _ => true
  }

  /** Strict mode refuses a value for a `VARCHAR(255)` column that goes on
      past the width with a character other than a space (excess spaces are
      cut off with a warning). NULL always fits. */
  predicate TooLong(f: Option<string>) {
    f.Some? && exists k :: MaxVarchar <= k < |f.value| && f.value[k] != ' '
  }

  /** The inserts for an object whose name is not taken fail: a new
      station whose text is too long for `attraction_mrt.mrt` (line 123),
      or a `name`, `CAT` or `address` too long for its column, or a
      coordinate that is not finite (lines 131-133). */
  predicate InsertRefused(t: Tables, item: Item, station: string, toFloat: string -> Float) {
    && item.Entry?
    && (|| (PyStrip(station) != "" && StationId(t.stations, station).None? && TooLong(Some(station)))
        || TooLong(Get(item.name)) || TooLong(Get(item.cat)) || TooLong(Get(item.address))
        || !CoordFinite(item.latitude, toFloat) || !CoordFinite(item.longitude, toFloat))
  }

  /** `mrt = item.get('MRT', '') or ''` followed by `mrt.strip()`: the text
      of a string, "" for a falsy value, and `None` for a truthy value
      that is not a string, on which `strip` raises. */
  function MrtText(v: Value): (r: Option<string>)
    ensures r.None? <==> Truthy(v) && !v.Text?
    ensures v.Text? ==> r == Some(v.s)
    ensures !Truthy(v) ==> r == Some("")
  {
    match v
    case Text(s) => Some(s)
    case _ => if Truthy(v) then None else Some("")
  }

  /** `SELECT COUNT(*) ... WHERE name = %s` is not zero. A NULL name
      equals nothing, so it never counts as taken. */
  predicate NameTaken(rows: seq<Imported>, name: Option<string>) {
    name.Some? && exists k :: 0 <= k < |rows| && rows[k].name == name
  }

  /** `SELECT id FROM attraction_mrt WHERE mrt = %s`. */
  function StationId(stations: seq<Station>, mrt: string): (r: Option<int>)
    ensures r.None? <==> forall k :: 0 <= k < |stations| ==> stations[k].mrt != mrt
    ensures r.Some? ==> exists k :: 0 <= k < |stations| && stations[k] == Station(r.value, mrt)
  {
    if |stations| == 0 then None
    else if stations[0].mrt == mrt then Some(stations[0].id)
    else
      var r := StationId(stations[1..], mrt);
      assert forall k :: 1 <= k < |stations| ==> stations[k] == stations[1..][k - 1];
      r
  }

  /** The station id for the raw `MRT` text: none for a blank one, the
      existing row's id, or the id of a new row. */
  function ResolveStation(t: Tables, mrt: string): (r: (Tables, Option<int>))
    ensures r.0.rows == t.rows && r.0.nextRowId == t.nextRowId
    ensures PyStrip(mrt) == "" ==> r == (t, None)
    ensures PyStrip(mrt) != "" && StationId(t.stations, mrt).Some? ==> r == (t, StationId(t.stations, mrt))
    ensures PyStrip(mrt) != "" && StationId(t.stations, mrt).None? ==>
      && r.0.stations == t.stations + [Station(t.nextStationId, mrt)]
      && r.0.nextStationId == t.nextStationId + 1
      && r.1 == Some(t.nextStationId as int)
  {
    if PyStrip(mrt) == "" then (t, None)
    else match StationId(t.stations, mrt)
      case Some(id) => (t, Some(id))
      case None =>
        (t.(stations := t.stations + [Station(t.nextStationId, mrt)], nextStationId := t.nextStationId + 1),
         Some(t.nextStationId as int))
  }

  /** An object the loop raises on: `float` of a truthy coordinate it
      cannot convert (lines 96-97), `re.findall` on a NULL `file` (line 98),
      both before the name check; or, for an object whose name is not
      taken, `strip` on a truthy non-string `MRT` (line 109) or an insert
      the database refuses. */
  predicate Raises(t: Tables, item: Item, toFloat: string -> Float) {
    && item.Entry?
    && (|| !CoordOk(item.latitude, toFloat)
        || !CoordOk(item.longitude, toFloat)
        || item.file.Null?
        || (!NameTaken(t.rows, Get(item.name)) && MrtText(item.mrt).None?)
        || (!NameTaken(t.rows, Get(item.name)) && MrtText(item.mrt).Some? &&
            InsertRefused(t, item, MrtText(item.mrt).value, toFloat)))
  }

  /** One pass of the loop; `None` when it raises, which aborts the
      import. */
  function ImportItem(t: Tables, item: Item, toFloat: string -> Float): (r: Option<Tables>)
    ensures r.None? <==> Raises(t, item, toFloat)
    ensures item.NotADict? ==> r == Some(t)
    ensures r.Some? && item.Entry? && NameTaken(t.rows, Get(item.name)) ==> r.value == t
  {
    match item
    case NotADict => Some(t)
    case Entry(name, cat, description, address, direction, mrt, latitude, longitude, file) =>
      if !CoordOk(latitude, toFloat) || !CoordOk(longitude, toFloat) || file.Null? then None
      else
        var images := ImportImageUrls(Get(file).value);
        if NameTaken(t.rows, Get(name)) then Some(t)
        else match MrtText(mrt)
          case None => None
          case Some(station) =>
            if InsertRefused(t, item, station, toFloat) then None
            else
              var (t', mrtId) := ResolveStation(t, station);
              var row := Imported(t'.nextRowId, Get(name), Get(cat), Get(description), Get(address),
                                  Get(direction), images, mrtId);
              Some(t'.(rows := t'.rows + [row], nextRowId := t'.nextRowId + 1))
  }

  /** The loop over `results`; `None` when an item aborts it. */
  function ImportItems(t: Tables, items: seq<Item>, toFloat: string -> Float): Option<Tables>
    decreases |items|
  {
    if |items| == 0 then Some(t)
    else match ImportItem(t, items[0], toFloat)
      case None => None
      case Some(t') => ImportItems(t', items[1..], toFloat)
  }

  /** `import_data()`: the tables afterwards. An unreadable file, a
      missing `result`/`results`, or an item that raises leaves them as
      they were. */
  function Import(doc: Doc, t: Tables, toFloat: string -> Float): (r: Tables)
    ensures doc.Unreadable? || (doc.Parsed? && doc.results.None?) ==> r == t
    ensures doc.Parsed? && doc.results.Some? && ImportItems(t, doc.results.value, toFloat).None? ==> r == t
    ensures doc.Parsed? && doc.results.Some? && ImportItems(t, doc.results.value, toFloat).Some? ==>
      r == ImportItems(t, doc.results.value, toFloat).value
  {
    if doc.Unreadable? || doc.results.None? then t
    else match ImportItems(t, doc.results.value, toFloat)
      case None => t
      case Some(t') => t'
  }

  /** An object that raises aborts the whole import, whatever the objects
      before it wrote: the tables stay as they were. */
  lemma {:induction false} RaiseAborts(t: Tables, items: seq<Item>, i: nat, toFloat: string -> Float)
    requires i < |items|
    requires ImportItems(t, items[..i], toFloat).Some?
    requires Raises(ImportItems(t, items[..i], toFloat).value, items[i], toFloat)
    ensures ImportItems(t, items, toFloat).None?
    ensures Import(Parsed(Some(items)), t, toFloat) == t
    decreases i
  {
    if i > 0 {
      assert items[..i][0] == items[0];
      var t1 := ImportItem(t, items[0], toFloat).value;
      assert items[..i][1..] == items[1..][..i - 1];
      assert ImportItems(t, items[..i], toFloat) == ImportItems(t1, items[1..][..i - 1], toFloat);
      RaiseAborts(t1, items[1..], i - 1, toFloat);
    }
  }

  /** An object whose name is 256 letters long and not taken aborts the
      whole import: the insert is refused as too long for `name`. */
  lemma OverlongNameAborts(t: Tables, toFloat: string -> Float)
    requires !NameTaken(t.rows, Some(seq(256, _ => 'a')))
    ensures var item := Entry(Str(seq(256, _ => 'a')), Missing, Missing, Missing, Missing,
                              Absent, Absent, Absent, Missing);
      && Raises(t, item, toFloat)
      && Import(Parsed(Some([item])), t, toFloat) == t
  {
    var name := seq(256, _ => 'a');
    assert name[MaxVarchar] != ' ';
  }

  /** An object with the latitude text "nan", which `float` accepts, and a
      name not taken aborts the whole import at its insert. */
  lemma NanLatitudeAborts(t: Tables, toFloat: string -> Float, name: string)
    requires toFloat("nan") == NonFinite
    requires !NameTaken(t.rows, Some(name))
    ensures var item := Entry(Str(name), Missing, Missing, Missing, Missing,
                              Absent, Text("nan"), Absent, Missing);
      && Raises(t, item, toFloat)
      && Import(Parsed(Some([item])), t, toFloat) == t
  {
  }

  /** The constraints the import keeps: non-NULL names are unique, station
      names are unique, ids are unique and below the next id, and every
      station reference names a station. */
  ghost predicate Valid(t: Tables) {
    && (forall i, j :: 0 <= i < j < |t.rows| && t.rows[i].name.Some? ==> t.rows[i].name != t.rows[j].name)
    && (forall i, j :: 0 <= i < j < |t.rows| ==> t.rows[i].id != t.rows[j].id)
    && (forall i :: 0 <= i < |t.rows| ==> t.rows[i].id < t.nextRowId)
    && (forall i, j :: 0 <= i < j < |t.stations| ==> t.stations[i].mrt != t.stations[j].mrt)
    && (forall i, j :: 0 <= i < j < |t.stations| ==> t.stations[i].id != t.stations[j].id)
    && (forall i :: 0 <= i < |t.stations| ==> 0 <= t.stations[i].id < t.nextStationId)
    && (forall i :: 0 <= i < |t.rows| && t.rows[i].mrtId.Some? ==>
          exists k :: 0 <= k < |t.stations| && t.stations[k].id == t.rows[i].mrtId.value)
  }

  /** Appending a station whose name is new keeps the constraints. */
  lemma AddStationValid(t: Tables, mrt: string)
    requires Valid(t)
    requires forall k :: 0 <= k < |t.stations| ==> t.stations[k].mrt != mrt
    ensures Valid(t.(stations := t.stations + [Station(t.nextStationId, mrt)], nextStationId := t.nextStationId + 1))
  {
    var ss := t.stations + [Station(t.nextStationId, mrt)];
    assert forall k :: 0 <= k < |t.stations| ==> ss[k] == t.stations[k];
    forall i | 0 <= i < |t.rows| && t.rows[i].mrtId.Some?
      ensures exists k :: 0 <= k < |ss| && ss[k].id == t.rows[i].mrtId.value
    {
      var k :| 0 <= k < |t.stations| && t.stations[k].id == t.rows[i].mrtId.value;
      assert ss[k] == t.stations[k];
    }
  }

  /** Resolving a station keeps the constraints. */
  lemma ResolveStationValid(t: Tables, mrt: string)
    requires Valid(t)
    ensures Valid(ResolveStation(t, mrt).0)
  {
    if PyStrip(mrt) != "" && StationId(t.stations, mrt).None? {
      AddStationValid(t, mrt);
    }
  }

  /** Resolving a station at most appends one station, and the id it
      yields names a station whose text is the `MRT` value. */
  lemma ResolveStationNames(t: Tables, mrt: string)
    ensures var (t', id) := ResolveStation(t, mrt);
      && |t.stations| <= |t'.stations| <= |t.stations| + 1
      && t'.stations[..|t.stations|] == t.stations
      && (id.Some? ==> exists k :: 0 <= k < |t'.stations| && t'.stations[k] == Station(id.value, mrt))
  {
    if PyStrip(mrt) != "" && StationId(t.stations, mrt).None? {
      var ss := t.stations + [Station(t.nextStationId, mrt)];
      assert ss[|t.stations|] == Station(t.nextStationId, mrt);
      assert ss[..|t.stations|] == t.stations;
    }
  }

  /** One item keeps the constraints and adds at most one row. */
  lemma ImportItemValid(t: Tables, item: Item, toFloat: string -> Float)
    requires Valid(t)
    ensures var r := ImportItem(t, item, toFloat);
      r.Some? ==> Valid(r.value) && t.rows <= r.value.rows && |r.value.rows| <= |t.rows| + 1
  {
    var r := ImportItem(t, item, toFloat);
    if r.Some? && item.Entry? && !NameTaken(t.rows, Get(item.name)) {
      var mrt := MrtText(item.mrt).value;
      ResolveStationValid(t, mrt);
      ResolveStationNames(t, mrt);
      var (t', mrtId) := ResolveStation(t, mrt);
      var row := r.value.rows[|t.rows|];
      assert r.value == t'.(rows := t'.rows + [row], nextRowId := t'.nextRowId + 1);
      AddRowValid(t', row);
    }
  }

  /** One item that does not raise adds a row exactly when it is an object
      whose name is not taken, and that row carries the item's name and a
      station that is blank exactly when the `MRT` text is, and otherwise
      names a station with that text. */
  lemma ImportItemAdds(t: Tables, item: Item, toFloat: string -> Float)
    requires Valid(t)
    ensures var r := ImportItem(t, item, toFloat);
      r.Some? ==> (|r.value.rows| == |t.rows| + 1 <==> item.Entry? && !NameTaken(t.rows, Get(item.name)))
    ensures var r := ImportItem(t, item, toFloat);
      r.Some? && |r.value.rows| == |t.rows| + 1 ==>
        && item.Entry? && MrtText(item.mrt).Some?
        && var row := r.value.rows[|t.rows|];
        && row.name == Get(item.name)
        && !TooLong(row.name) && !TooLong(row.category) && !TooLong(row.address)
        && (PyStrip(MrtText(item.mrt).value) == "" <==> row.mrtId.None?)
        && (row.mrtId.Some? ==>
              exists k :: 0 <= k < |r.value.stations| && r.value.stations[k] == Station(row.mrtId.value, MrtText(item.mrt).value))
  {
    var r := ImportItem(t, item, toFloat);
    if r.Some? && item.Entry? && !NameTaken(t.rows, Get(item.name)) {
      ResolveStationNames(t, MrtText(item.mrt).value);
    }
  }

  /** Appending a row with the next id, a name not taken and a station
      reference that names a station keeps the constraints. */
  lemma AddRowValid(t: Tables, row: Imported)
    requires Valid(t)
    requires row.id == t.nextRowId && !NameTaken(t.rows, row.name)
    requires row.mrtId.Some? ==> exists k :: 0 <= k < |t.stations| && t.stations[k].id == row.mrtId.value
    ensures Valid(t.(rows := t.rows + [row], nextRowId := t.nextRowId + 1))
  {
    var rows := t.rows + [row];
    assert forall i :: 0 <= i < |t.rows| ==> rows[i] == t.rows[i];
    forall i, j | 0 <= i < j < |rows| && rows[i].name.Some?
      ensures rows[i].name != rows[j].name
    {
      if j == |t.rows| {
        assert rows[i] == t.rows[i];
      }
    }
  }

  /** The whole loop keeps the constraints and only appends rows. */
  lemma {:induction false} ImportItemsValid(t: Tables, items: seq<Item>, toFloat: string -> Float)
    requires Valid(t)
    ensures var r := ImportItems(t, items, toFloat);
      r.Some? ==> Valid(r.value) && t.rows <= r.value.rows
    decreases |items|
  {
    if |items| > 0 {
      ImportItemValid(t, items[0], toFloat);
      var r0 := ImportItem(t, items[0], toFloat);
      if r0.Some? {
        ImportItemsValid(r0.value, items[1..], toFloat);
      }
    }
  }

  /** After one item, an object with a non-NULL name has a row with that
      name. */
  lemma ImportItemTakes(t: Tables, item: Item, toFloat: string -> Float)
    requires Valid(t)
    ensures var r := ImportItem(t, item, toFloat);
      r.Some? && item.Entry? && Get(item.name).Some? ==> NameTaken(r.value.rows, Get(item.name))
  {
    ImportItemAdds(t, item, toFloat);
    var r := ImportItem(t, item, toFloat);
    if r.Some? && item.Entry? && Get(item.name).Some? && !NameTaken(t.rows, Get(item.name)) {
      assert r.value.rows[|t.rows|].name == Get(item.name);
    }
  }

  /** A name taken before appending rows is still taken after. */
  lemma TakenStays(rows: seq<Imported>, rows': seq<Imported>, name: Option<string>)
    requires rows <= rows' && NameTaken(rows, name)
    ensures NameTaken(rows', name)
  {
    var k :| 0 <= k < |rows| && rows[k].name == name;
    assert rows'[k] == rows[k];
  }

  /** After an import that completes, every object in the feed with a
      non-NULL name has a row with that name. */
  lemma {:induction false} ImportCovers(t: Tables, items: seq<Item>, toFloat: string -> Float)
    requires Valid(t)
    ensures var r := ImportItems(t, items, toFloat);
      r.Some? ==> forall i :: 0 <= i < |items| && items[i].Entry? && Get(items[i].name).Some? ==>
        NameTaken(r.value.rows, Get(items[i].name))
    decreases |items|
  {
    if |items| > 0 {
      var r0 := ImportItem(t, items[0], toFloat);
      var r := ImportItems(t, items, toFloat);
      if r0.None? {
        assert r.None?;
      } else {
        ImportItemValid(t, items[0], toFloat);
        ImportItemTakes(t, items[0], toFloat);
        ImportCovers(r0.value, items[1..], toFloat);
        ImportItemsValid(r0.value, items[1..], toFloat);
        assert r == ImportItems(r0.value, items[1..], toFloat);
        if r.Some? {
          forall i | 0 <= i < |items| && items[i].Entry? && Get(items[i].name).Some?
            ensures NameTaken(r.value.rows, Get(items[i].name))
          {
            if i == 0 {
              TakenStays(r0.value.rows, r.value.rows, Get(items[0].name));
            } else {
              assert items[i] == items[1..][i - 1];
            }
          }
        }
      }
    }
  }

  /** Importing the same feed twice adds nothing the second time, when
      every object in it has a non-NULL name. (A NULL name is never taken,
      so such an object is inserted again on every run.) */
  lemma {:induction false} ImportTwiceAddsNothing(t: Tables, items: seq<Item>, toFloat: string -> Float)
    requires Valid(t)
    requires forall i :: 0 <= i < |items| && items[i].Entry? ==> Get(items[i].name).Some?
    ensures var r := ImportItems(t, items, toFloat);
      r.Some? ==> ImportItems(r.value, items, toFloat) == Some(r.value)
  {
    var r := ImportItems(t, items, toFloat);
    if r.Some? {
      ImportCovers(t, items, toFloat);
      CompletedPassedChecks(t, items, toFloat);
      SkipAllTaken(r.value, items, toFloat);
    }
  }

  /** The checks an object passes before its name is looked up: both
      coordinates convert and `file` is not NULL. */
  predicate PassesChecks(item: Item, toFloat: string -> Float) {
    item.Entry? ==>
      CoordOk(item.latitude, toFloat) && CoordOk(item.longitude, toFloat) && !item.file.Null?
  }

  /** Items whose names are all taken and that pass the checks before the
      name lookup change nothing. */
  lemma {:induction false} SkipAllTaken(t: Tables, items: seq<Item>, toFloat: string -> Float)
    requires forall i :: 0 <= i < |items| && items[i].Entry? ==> NameTaken(t.rows, Get(items[i].name))
    requires forall i :: 0 <= i < |items| ==> PassesChecks(items[i], toFloat)
    ensures ImportItems(t, items, toFloat) == Some(t)
    decreases |items|
  {
    if |items| > 0 {
      assert forall i :: 1 <= i < |items| ==> items[i] == items[1..][i - 1];
      SkipAllTaken(t, items[1..], toFloat);
    }
  }

  /** A loop that completes met no object with a NULL `file` or a
      coordinate `float` rejects. */
  lemma {:induction false} CompletedPassedChecks(t: Tables, items: seq<Item>, toFloat: string -> Float)
    requires ImportItems(t, items, toFloat).Some?
    ensures forall i :: 0 <= i < |items| ==> PassesChecks(items[i], toFloat)
    decreases |items|
  {
    if |items| > 0 {
      var r0 := ImportItem(t, items[0], toFloat);
      CompletedPassedChecks(r0.value, items[1..], toFloat);
      assert forall i :: 1 <= i < |items| ==> items[i] == items[1..][i - 1];
    }
  }
}

=== FILE: legacy_app.dfy ===
/** The first server, app.py: `GET /api/attractions` and `GET /api/mrts`
    over its single `attractions` table, whose `mrt` column holds the
    station name and whose `images` column holds a JSON list. */
module LegacyApp {
  import opened Wrappers
  import opened Text
  import opened Seqs
  import opened Paging

  /** A row of app.py's `attractions` table. */
  datatype Row = Row(
    id: int,
    name: Option<string>,
    category: Option<string>,
    description: Option<string>,
    address: Option<string>,
    transport: Option<string>,
    mrt: Option<string>,
    images: string)

  /** A returned record: the row with `images` decoded. */
  datatype Record = Record(row: Row, images: seq<string>)

  /** Python truthiness of an optional query string: present and not empty. */
  predicate Truthy(keyword: Option<string>) {
    keyword.Some? && keyword.value != ""
  }

  /** `name LIKE '%keyword%'`; a NULL name never matches. */
  predicate NameMatches(keyword: string, row: Row) {
    row.name.Some? && Contains(row.name.value, keyword)
  }

  /** The rows the query selects before `LIMIT`/`OFFSET`: all of them, or
      those whose name contains a truthy keyword. */
  function Selected(table: seq<Row>, keyword: Option<string>): (rows: seq<Row>)
    ensures !Truthy(keyword) ==> rows == table
    ensures Truthy(keyword) ==> forall r :: r in rows <==> r in table && NameMatches(keyword.value, r)
    ensures IsSubseq(rows, table)
  {
    if Truthy(keyword) then
      var keep := r => NameMatches(keyword.value, r);
      FilterMembers(table, keep);
      FilterIsSubseq(table, keep);
      Filter(table, keep)
    else
      SubseqRefl(table);
      table
  }

  /** `json.loads` of every `images` column, in order; `None` when one of
      them does not decode. */
  function DecodeAll(rows: seq<Row>, decode: string -> Option<seq<string>>): (r: Option<seq<Record>>)
    ensures r.Some? <==> forall k :: 0 <= k < |rows| ==> decode(rows[k].images).Some?
    ensures r.Some? ==> |r.value| == |rows| && forall k :: 0 <= k < |rows| ==>
      r.value[k].row == rows[k] && Some(r.value[k].images) == decode(rows[k].images)
  {
    if |rows| == 0 then Some([])
    else
      var d := decode(rows[0].images);
      var rest := DecodeAll(rows[1..], decode);
      if d.None? || rest.None? then
        assert d.None? ==> decode(rows[0].images).None?;
        None
      else
        var out := [Record(rows[0], d.value)] + rest.value;
        assert forall k :: 1 <= k < |rows| ==> rows[k] == rows[1..][k - 1];
        Some(out)
  }

  /** `get_attractions(page, keyword)`, with `json.loads` as the oracle
      `decode`. Failures carry the status code: 500 for an unreachable
      database, for the negative `OFFSET` MySQL rejects, and for an
      `images` column that does not decode. */
  function GetAttractions(db: Db<seq<Row>>, page: int, keyword: Option<string>,
                          decode: string -> Option<seq<string>>): (r: Result<Page<Record>, nat>)
    ensures r.Failure? ==> r.error == 500
    ensures db.Down? || page < 0 ==> r.Failure?
    ensures r.Success? ==> db.Up? && page >= 0 && var rows := Selected(db.tables, keyword);
      && |r.value.items| == (if |rows| <= page * PerPage then 0 else Min(PerPage, |rows| - page * PerPage))
      && (forall k :: 0 <= k < |r.value.items| ==>
            && page * PerPage + k < |rows|
            && r.value.items[k].row == rows[page * PerPage + k]
            && decode(rows[page * PerPage + k].images) == Some(r.value.items[k].images))
      && (r.value.next.Some? <==> (page + 1) * PerPage < |rows|)
      && (r.value.next.Some? ==> r.value.next.value == page + 1)
  {
    if db.Down? || page * PerPage < 0 then Failure(500)
    else
      var p := PageOf(Selected(db.tables, keyword), page);
      match DecodeAll(p.items, decode)
      case None => Failure(500)
      case Some(records) => Success(Page(records, p.next))
  }

  /** With a truthy keyword every record's name contains it; without one
      the page is the plain table window. The call fails only for an
      unreachable database, a negative page, or an undecodable row of the
      page. */
  lemma GetAttractionsFilter(db: Db<seq<Row>>, page: int, keyword: Option<string>,
                             decode: string -> Option<seq<string>>)
    ensures var r := GetAttractions(db, page, keyword, decode);
      r.Success? && Truthy(keyword) ==> forall rec :: rec in r.value.items ==> NameMatches(keyword.value, rec.row)
    ensures var r := GetAttractions(db, page, keyword, decode);
      r.Failure? && db.Up? && page >= 0 ==>
        exists k :: 0 <= k < |PageOf(Selected(db.tables, keyword), page).items| &&
          decode(PageOf(Selected(db.tables, keyword), page).items[k].images).None?
  {
    var r := GetAttractions(db, page, keyword, decode);
    if r.Success? && Truthy(keyword) {
      var rows := Selected(db.tables, keyword);
      forall rec | rec in r.value.items
        ensures NameMatches(keyword.value, rec.row)
      {
        var k :| 0 <= k < |r.value.items| && r.value.items[k] == rec;
        assert rows[page * PerPage + k] in rows;
      }
    }
  }

  /** The station names in the table: non-NULL and non-empty, in row order. */
  function Stations(table: seq<Row>): (r: seq<string>)
    ensures forall x :: x in r <==> x != "" && exists k :: 0 <= k < |table| && table[k].mrt == Some(x)
  {
    if |table| == 0 then []
    else
      var m := table[0].mrt;
      var rest := Stations(table[1..]);
      assert forall k :: 1 <= k < |table| ==> table[k] == table[1..][k - 1];
      if m.Some? && m.value != "" then [m.value] + rest else rest
  }

  /** `get_mrts()`: `SELECT DISTINCT mrt ... WHERE mrt IS NOT NULL AND
      mrt <> ''`; 500 for an unreachable database. */
  function GetMrts(db: Db<seq<Row>>): (r: Result<seq<string>, nat>)
    ensures r.Failure? <==> db.Down?
    ensures r.Failure? ==> r.error == 500
    ensures r.Success? ==> NoDuplicates(r.value)
    ensures r.Success? ==> forall x :: x in r.value <==>
      x != "" && exists k :: 0 <= k < |db.tables| && db.tables[k].mrt == Some(x)
  {
    if db.Down? then Failure(500) else Success(Distinct(Stations(db.tables)))
  }
}

=== FILE: orders.dfy ===
/** app/crud/order.py: order numbers, order creation after the payment
    call, and the owner-only order lookup. */
module Orders {
  import opened Wrappers
  import opened Text
  import opened Decimal
  import opened BookingStore

  // ---------------------------------------------------------------------
  // generate_order_number

  /** `order_number LIKE 'prefix-%'`. */
  predicate OfDay(prefix: string, number: string) {
    StartsWith(number, prefix + "-")
  }

  /** `CAST(SUBSTRING_INDEX(order_number, '-', -1) AS UNSIGNED)`. */
  function SeqOf(number: string): nat {
    CastUnsigned(AfterLast(number, '-'))
  }

  /** `MAX(...)` of the sequence numbers of the day's orders; `None` (SQL
      NULL) when the day has none. */
  function MaxSeq(prefix: string, numbers: seq<string>): (m: Option<nat>)
    ensures m.None? <==> forall k :: 0 <= k < |numbers| ==> !OfDay(prefix, numbers[k])
    ensures m.Some? ==> forall k :: 0 <= k < |numbers| && OfDay(prefix, numbers[k]) ==> SeqOf(numbers[k]) <= m.value
  {
    if |numbers| == 0 then None
    else
      var rest := MaxSeq(prefix, numbers[1..]);
      assert forall k :: 1 <= k < |numbers| ==> numbers[k] == numbers[1..][k - 1];
      if !OfDay(prefix, numbers[0]) then rest
      else if rest.None? || SeqOf(numbers[0]) >= rest.value then Some(SeqOf(numbers[0]))
      else rest
  }

  /** The maximum is the sequence number of one of the day's orders. */
  lemma {:induction false} MaxSeqAttained(prefix: string, numbers: seq<string>) returns (k: nat)
    requires MaxSeq(prefix, numbers).Some?
    ensures k < |numbers| && OfDay(prefix, numbers[k]) && SeqOf(numbers[k]) == MaxSeq(prefix, numbers).value
    decreases |numbers|
  {
    var rest := MaxSeq(prefix, numbers[1..]);
    if OfDay(prefix, numbers[0]) && (rest.None? || SeqOf(numbers[0]) >= rest.value) {
      k := 0;
    } else {
      var k' := MaxSeqAttained(prefix, numbers[1..]);
      assert numbers[1..][k'] == numbers[k' + 1];
      k := k' + 1;
    }
  }

  /** The day's next sequence number: one past the largest, or 1. */
  function NextSeq(prefix: string, numbers: seq<string>): (n: nat)
    ensures n >= 1
    ensures forall k :: 0 <= k < |numbers| && OfDay(prefix, numbers[k]) ==> SeqOf(numbers[k]) < n
  {
    match MaxSeq(prefix, numbers)
    case None => 1
    case Some(m) => m + 1
  }

  /** `generate_order_number(conn)` with the date prefix `%Y%m%d` passed in:
      `f"{prefix}-{seq_id:04d}"`. */
  function GenerateOrderNumber(prefix: string, numbers: seq<string>): (r: string)
    ensures OfDay(prefix, r)
  {
    var r := prefix + "-" + Pad4(NextSeq(prefix, numbers));
    assert r[..|prefix| + 1] == prefix + "-";
    r
  }

  /** The part after the last `-` of a new number is at least four digits
      and reads back as the sequence number; the number is new, and its
      sequence number exceeds that of every order of the day. */
  lemma GenerateOrderNumberProperties(prefix: string, numbers: seq<string>)
    ensures var r := GenerateOrderNumber(prefix, numbers);
      && AfterLast(r, '-') == Pad4(NextSeq(prefix, numbers))
      && |AfterLast(r, '-')| >= 4
      && SeqOf(r) == NextSeq(prefix, numbers)
      && r !in numbers
      && (forall k :: 0 <= k < |numbers| && OfDay(prefix, numbers[k]) ==> SeqOf(numbers[k]) < SeqOf(r))
  {
    var n := NextSeq(prefix, numbers);
    var d := Pad4(n);
    var r := GenerateOrderNumber(prefix, numbers);
    forall i | 0 <= i < |d|
      ensures d[i] != '-'
    {
      assert IsDigit(d[i]);
    }
    assert r == prefix + ['-'] + d;
    AfterLastOfSuffix(prefix, '-', d);
    PadRoundTrip(n);
    forall k | 0 <= k < |numbers|
      ensures numbers[k] != r
    {
      if OfDay(prefix, numbers[k]) {
        assert SeqOf(numbers[k]) < SeqOf(r);
      }
    }
  }

  // ---------------------------------------------------------------------
  // create_order

  /** A row of `orders`. */
  datatype Order = Order(
    number: string, userId: int, price: int, attractionId: int, date: string, time: string,
    contactName: string, contactEmail: string, contactPhone: string, status: int)

  /** The order part of the request body. */
  datatype OrderRequest = OrderRequest(
    prime: string, price: int, attractionId: int, attractionName: string, date: string, time: string,
    contactName: string, contactEmail: string, contactPhone: string)

  /** The outcome of the payment call: the `status` of its JSON reply (if
      it is an integer), or the exception it raised. */
  datatype Payment = Paid(status: Option<int>) | CallFailed(reason: string)

  /** The tables an order touches. */
  datatype OrderDb = OrderDb(orders: seq<Order>, bookings: seq<Booking>, attractions: seq<AttractionInfo>)

  function Numbers(orders: seq<Order>): (ns: seq<string>)
    ensures |ns| == |orders| && forall k :: 0 <= k < |orders| ==> ns[k] == orders[k].number
  {
    seq(|orders|, k requires 0 <= k < |orders| => orders[k].number)
  }

  /** `0 if result.get("status") == 0 else 1`. */
  function StoredStatus(p: Payment): (s: int)
    requires p.Paid?
    ensures s == 0 <==> p.status == Some(0)
    ensures s == 0 || s == 1
  {
    if p.status == Some(0) then 0 else 1
  }

  /** `create_order(user_id, body)` with the payment call's outcome and the
      date prefix passed in: the tables afterwards and the order number.
      A failed payment call is re-raised before anything is written;
      otherwise the order is inserted and all of the user's bookings are
      deleted in the same commit. */
  function CreateOrder(db: Db<OrderDb>, userId: int, req: OrderRequest, prefix: string, payment: Payment): (r: Result<(OrderDb, string), string>)
    ensures db.Down? ==> r == Failure(db.reason)
    ensures db.Up? && payment.CallFailed? ==> r == Failure(payment.reason)
    ensures r.Success? ==> db.Up? && payment.Paid? && var (after, number) := r.value;
      && number == GenerateOrderNumber(prefix, Numbers(db.tables.orders))
      && after.orders == db.tables.orders + [Order(number, userId, req.price, req.attractionId, req.date, req.time,
                                                   req.contactName, req.contactEmail, req.contactPhone, StoredStatus(payment))]
      && after.bookings == WithoutUser(db.tables.bookings, userId)
      && after.attractions == db.tables.attractions
  {
    if db.Down? then Failure(db.reason)
    else
      var t := db.tables;
      var number := GenerateOrderNumber(prefix, Numbers(t.orders));
      match payment
      case CallFailed(reason) => Failure(reason)
      case Paid(_) =>
        var order := Order(number, userId, req.price, req.attractionId, req.date, req.time,
                           req.contactName, req.contactEmail, req.contactPhone, StoredStatus(payment));
        Success((t.(orders := t.orders + [order], bookings := WithoutUser(t.bookings, userId)), number))
  }

  /** After a completed order the user has no bookings left, other users'
      bookings are kept, the stored status is 0 exactly when the payment
      reported 0, and the new order number was not in use. */
  lemma CreateOrderEffect(t: OrderDb, userId: int, req: OrderRequest, prefix: string, payment: Payment)
    ensures var r := CreateOrder(Up(t), userId, req, prefix, payment);
      r.Success? ==> var (after, number) := r.value;
        && (forall b :: b in after.bookings ==> b.userId != userId)
        && (forall b :: b in t.bookings && b.userId != userId ==> b in after.bookings)
        && after.orders[|after.orders| - 1].status == (if payment.status == Some(0) then 0 else 1)
        && (forall k :: 0 <= k < |t.orders| ==> t.orders[k].number != number)
  {
    var r := CreateOrder(Up(t), userId, req, prefix, payment);
    if r.Success? {
      var number := r.value.1;
      GenerateOrderNumberProperties(prefix, Numbers(t.orders));
      forall k | 0 <= k < |t.orders|
        ensures t.orders[k].number != number
      {
        assert Numbers(t.orders)[k] == t.orders[k].number;
      }
    }
  }

  // ---------------------------------------------------------------------
  // fetch_order

  /** The joined row `fetch_order` returns. */
  datatype OrderView = OrderView(
    number: string, price: int, date: string, time: string,
    contactName: string, contactEmail: string, contactPhone: string, status: int,
    attractionId: int, attractionName: Option<string>, attractionAddress: Option<string>,
    attractionImage: Option<string>)

  /** `JSON_UNQUOTE(JSON_EXTRACT(a.images, '$[0]'))`: the first URL of a
      list, NULL for an empty list, and for any other value what MySQL
      extracts from it when it wraps it as a one-element array. */
  function OrderImage(images: Images): (r: Option<string>)
    ensures images.ImageList? ==> r == FirstImage(images)
    ensures images.NotAList? ==> r == images.extracted
  {
    match images
    case ImageList(urls) => if |urls| > 0 then Some(urls[0]) else None
    case NotAList(extracted) => extracted
  }

  /** The order's image and the booking's differ only on a value that is
      not a list: SQLAlchemy's `isinstance` test gives no image, while
      MySQL's path `$[0]` gives the value itself. */
  lemma OrderImageVersusBooking(images: Images)
    ensures OrderImage(images) != FirstImage(images) <==> images.NotAList? && images.extracted.Some?
    ensures OrderImage(NotAList(Some("a.jpg"))) == Some("a.jpg") && FirstImage(NotAList(Some("a.jpg"))).None?
  {
  }

  /** The joined row of one order. */
  function ViewOf(o: Order, a: AttractionInfo): (v: OrderView)
    ensures v.number == o.number && v.price == o.price && v.status == o.status
    ensures v.attractionId == a.id && v.attractionImage == OrderImage(a.images)
  {
    OrderView(o.number, o.price, o.date, o.time, o.contactName, o.contactEmail, o.contactPhone, o.status,
              a.id, a.name, a.address, OrderImage(a.images))
  }

  /** The order `o` is the one asked for and its attraction exists, so the
      inner join keeps it. */
  predicate Wanted(t: OrderDb, number: string, userId: int, o: Order) {
    o.number == number && o.userId == userId && HasAttraction(t.attractions, o.attractionId)
  }

  /** `fetch_order(order_number, user_id)`: the first order with that
      number that belongs to that user and whose attraction exists. */
  function FetchOrder(t: OrderDb, number: string, userId: int): (r: Option<OrderView>)
    ensures r.None? <==> forall k :: 0 <= k < |t.orders| ==> !Wanted(t, number, userId, t.orders[k])
    ensures r.Some? ==>
      exists k :: && 0 <= k < |t.orders| && Wanted(t, number, userId, t.orders[k])
                  && r.value == ViewOf(t.orders[k], AttractionById(t.attractions, t.orders[k].attractionId))
    ensures r.Some? ==> r.value.number == number
  {
    FirstWanted(t, number, userId, t.orders)
  }

  function FirstWanted(t: OrderDb, number: string, userId: int, os: seq<Order>): (r: Option<OrderView>)
    ensures r.None? <==> forall k :: 0 <= k < |os| ==> !Wanted(t, number, userId, os[k])
    ensures r.Some? ==>
      exists k :: && 0 <= k < |os| && Wanted(t, number, userId, os[k])
                  && r.value == ViewOf(os[k], AttractionById(t.attractions, os[k].attractionId))
    ensures r.Some? ==> r.value.number == number
  {
    if |os| == 0 then None
    else if Wanted(t, number, userId, os[0]) then Some(ViewOf(os[0], AttractionById(t.attractions, os[0].attractionId)))
    else
      var r := FirstWanted(t, number, userId, os[1..]);
      assert forall k :: 1 <= k < |os| ==> os[k] == os[1..][k - 1];
      r
  }

  /** Another user asking for an existing order number gets nothing. */
  lemma FetchOrderOwnerOnly(t: OrderDb, number: string, owner: int, other: int)
    requires owner != other
    requires forall k :: 0 <= k < |t.orders| && t.orders[k].number == number ==> t.orders[k].userId == owner
    ensures FetchOrder(t, number, other).None?
  {
  }
}

=== FILE: paging.dfy ===
/** The server's page window: `LIMIT per_page + 1 OFFSET page * per_page`,
    then the extra row decides whether a next page exists and is dropped. */
module Paging {
  import opened Wrappers

  /** Attractions per page, in app.py and in app/crud/attraction.py. */
  const PerPage: nat := 12

  function Min(a: int, b: int): int {
    if a <= b then a else b
  }

  /** SQL `LIMIT limit OFFSET offset` over the rows in table order. */
  function Window<T>(rows: seq<T>, offset: nat, limit: nat): (w: seq<T>)
    ensures |w| == if offset >= |rows| then 0 else Min(limit, |rows| - offset)
    ensures forall k :: 0 <= k < |w| ==> offset + k < |rows| && w[k] == rows[offset + k]
  {
    if offset >= |rows| then [] else rows[offset..Min(offset + limit, |rows|)]
  }

  /** One page of results and the number of the page after it. */
  datatype Page<T> = Page(items: seq<T>, next: Option<int>)

  /** Given the up to `PerPage + 1` rows fetched for `page`: a next page
      exists exactly when the extra row came back, and only the first
      `PerPage` rows are kept. */
  function Paginate<T>(fetched: seq<T>, page: int): (p: Page<T>)
    ensures |p.items| <= PerPage && |p.items| <= |fetched|
    ensures p.items == fetched[..|p.items|]
    ensures p.next.Some? <==> |fetched| > PerPage
    ensures p.next.Some? ==> p.next.value == page + 1
    ensures p.next.None? ==> p.items == fetched
  {
    if |fetched| > PerPage then Page(fetched[..PerPage], Some(page + 1))
    else Page(fetched, None)
  }

  /** Page `page` of `rows`: the window of `PerPage + 1` rows at offset
      `page * PerPage`, paginated. It holds the rows from `page * PerPage`
      up to the next multiple of `PerPage`, and it has a successor exactly
      when rows remain after it. */
  function PageOf<T>(rows: seq<T>, page: nat): (p: Page<T>)
    ensures var lo := Min(page * PerPage, |rows|);
      p.items == rows[lo..Min(lo + PerPage, |rows|)]
    ensures p.next.Some? <==> page * PerPage + PerPage < |rows|
    ensures p.next.Some? ==> p.next.value == page + 1
  {
    var w := Window(rows, page * PerPage, PerPage + 1);
    var p := Paginate(w, page);
    var lo := Min(page * PerPage, |rows|);
    assert p.items == rows[lo..Min(lo + PerPage, |rows|)] by {
      assert |p.items| == Min(lo + PerPage, |rows|) - lo;
      forall k | 0 <= k < |p.items|
        ensures p.items[k] == rows[lo + k]
      {
        assert p.items[k] == w[k];
      }
    }
    p
  }

  /** What a client collects by requesting `page` and then following
      `nextPage` until it is null. */
  function Follow<T>(rows: seq<T>, page: nat): seq<T>
    decreases |rows| - page * PerPage
  {
    var p := PageOf(rows, page);
    if p.next.Some? then p.items + Follow(rows, page + 1) else p.items
  }

  /** Following `nextPage` from `page` yields every row from
      `page * PerPage` on, each once and in table order; from page 0 that is
      the whole table. */
  lemma {:induction false} FollowCollectsRest<T>(rows: seq<T>, page: nat)
    ensures Follow(rows, page) == rows[Min(page * PerPage, |rows|)..]
    decreases |rows| - page * PerPage
  {
    var p := PageOf(rows, page);
    var lo := Min(page * PerPage, |rows|);
    if p.next.Some? {
      FollowCollectsRest(rows, page + 1);
      assert (page + 1) * PerPage == lo + PerPage;
      assert rows[lo..] == rows[lo..lo + PerPage] + rows[lo + PerPage..];
    }
  }
}

=== FILE: seqs.dfy ===
/** Order-preserving selection and de-duplication over sequences. */
module Seqs {

  /** `a` is `b` with some elements left out, order kept. */
  predicate IsSubseq<T(==)>(a: seq<T>, b: seq<T>)
    decreases |b|
  {
    |a| == 0 || (|b| > 0 &&
      if a[0] == b[0] then IsSubseq(a[1..], b[1..]) else IsSubseq(a, b[1..]))
  }

  /** Every sequence is a subsequence of itself. */
  lemma {:induction false} SubseqRefl<T>(xs: seq<T>)
    ensures IsSubseq(xs, xs)
  {
    if |xs| > 0 {
      SubseqRefl(xs[1..]);
    }
  }

  /** The elements of `xs` that satisfy `p`, in order: a Python list
      comprehension with a condition, or a `forEach` with an early `return`. */
  function Filter<T>(xs: seq<T>, p: T -> bool): (r: seq<T>)
    ensures |r| <= |xs|
  {
    if |xs| == 0 then []
    else (if p(xs[0]) then [xs[0]] else []) + Filter(xs[1..], p)
  }

  /** The filter keeps exactly the elements that satisfy `p`. */
  lemma {:induction false} FilterMembers<T>(xs: seq<T>, p: T -> bool)
    ensures forall x :: x in Filter(xs, p) ==> x in xs && p(x)
    ensures forall x :: x in xs && p(x) ==> x in Filter(xs, p)
  {
    if |xs| > 0 {
      FilterMembers(xs[1..], p);
      assert xs == [xs[0]] + xs[1..];
    }
  }

  /** Filtering distributes over concatenation. */
  lemma {:induction false} FilterAppend<T>(xs: seq<T>, ys: seq<T>, p: T -> bool)
    ensures Filter(xs + ys, p) == Filter(xs, p) + Filter(ys, p)
  {
    if |xs| > 0 {
      assert (xs + ys)[0] == xs[0];
      assert (xs + ys)[1..] == xs[1..] + ys;
      FilterAppend(xs[1..], ys, p);
    } else {
      assert xs + ys == ys;
    }
  }

  /** A filter that every element passes changes nothing. */
  lemma {:induction false} FilterAll<T>(xs: seq<T>, p: T -> bool)
    requires forall k :: 0 <= k < |xs| ==> p(xs[k])
    ensures Filter(xs, p) == xs
  {
    if |xs| > 0 {
      assert forall k :: 1 <= k < |xs| ==> xs[1..][k - 1] == xs[k];
      FilterAll(xs[1..], p);
      assert [xs[0]] + xs[1..] == xs;
    }
  }

  /** A filter that no element passes keeps nothing. */
  lemma {:induction false} FilterNone<T>(xs: seq<T>, p: T -> bool)
    requires forall k :: 0 <= k < |xs| ==> !p(xs[k])
    ensures Filter(xs, p) == []
  {
    if |xs| > 0 {
      assert forall k :: 1 <= k < |xs| ==> xs[1..][k - 1] == xs[k];
      FilterNone(xs[1..], p);
    }
  }

  /** The result of a filter is a subsequence of its input. */
  lemma {:induction false} FilterIsSubseq<T>(xs: seq<T>, p: T -> bool)
    ensures IsSubseq(Filter(xs, p), xs)
  {
    if |xs| > 0 {
      FilterIsSubseq(xs[1..], p);
      var rest := Filter(xs[1..], p);
      if p(xs[0]) {
        assert Filter(xs, p) == [xs[0]] + rest;
        assert ([xs[0]] + rest)[1..] == rest;
      } else {
        assert Filter(xs, p) == rest;
        if |rest| > 0 {
          FilterMembers(xs[1..], p);
          assert rest[0] in rest;
        }
      }
    }
  }

  /** A relation that holds between every earlier and later element of
      `xs` holds between every earlier and later element of a filter of it. */
  lemma {:induction false} FilterPairwise<T>(xs: seq<T>, p: T -> bool, rel: (T, T) -> bool)
    requires forall i, j :: 0 <= i < j < |xs| ==> rel(xs[i], xs[j])
    ensures forall i, j :: 0 <= i < j < |Filter(xs, p)| ==> rel(Filter(xs, p)[i], Filter(xs, p)[j])
  {
    if |xs| > 0 {
      var tail := Filter(xs[1..], p);
      FilterMembers(xs[1..], p);
      assert forall i :: 0 <= i < |xs| - 1 ==> xs[1..][i] == xs[i + 1];
      FilterPairwise(xs[1..], p, rel);
      var r := Filter(xs, p);
      if p(xs[0]) {
        assert r == [xs[0]] + tail;
        forall i, j | 0 <= i < j < |r|
          ensures rel(r[i], r[j])
        {
          if i == 0 {
            assert r[j] == tail[j - 1] && tail[j - 1] in tail;
            var k :| 0 <= k < |xs[1..]| && xs[1..][k] == r[j];
            assert rel(xs[0], xs[k + 1]);
          } else {
            assert r[i] == tail[i - 1] && r[j] == tail[j - 1];
            assert rel(tail[i - 1], tail[j - 1]);
          }
        }
      } else {
        assert r == tail;
      }
    }
  }

  /** No element occurs twice. */
  predicate NoDuplicates<T(==)>(xs: seq<T>) {
    forall i, j :: 0 <= i < j < |xs| ==> xs[i] != xs[j]
  }

  /** The distinct elements of `xs` in order of first occurrence: SQL
      `SELECT DISTINCT`. */
  function Distinct<T(==)>(xs: seq<T>): (r: seq<T>)
    ensures forall x :: x in r ==> x in xs
    ensures forall x :: x in xs ==> x in r
    ensures NoDuplicates(r)
  {
    if |xs| == 0 then []
    else
      var r := Distinct(xs[..|xs| - 1]);
      var last := xs[|xs| - 1];
      assert xs == xs[..|xs| - 1] + [last];
      if last in r then r else r + [last]
  }
}

=== FILE: text.dfy ===
/** String functions of the two host languages (Python `str`, JavaScript
    `String`) and of MySQL, over `string == seq<char>`. */
module Text {

  /** `p` is a prefix of `s`: Python `s.startswith(p)`. */
  predicate StartsWith(s: string, p: string) {
    |p| <= |s| && s[..|p|] == p
  }

  /** `p` is a suffix of `s`: Python `s.endswith(p)`. */
  predicate EndsWith(s: string, p: string) {
    |p| <= |s| && s[|s| - |p|..] == p
  }

  /** `sub` occurs somewhere in `s`: the SQL pattern `LIKE '%sub%'`. */
  predicate Contains(s: string, sub: string)
    decreases |s|
  {
    StartsWith(s, sub) || (|s| > 0 && Contains(s[1..], sub))
  }

  /** An occurrence at offset `i` makes `Contains` true. */
  lemma {:induction false} ContainsAt(s: string, sub: string, i: nat)
    requires i + |sub| <= |s| && s[i..i + |sub|] == sub
    ensures Contains(s, sub)
    decreases i
  {
    if i > 0 {
      assert s[1..][i - 1..i - 1 + |sub|] == s[i..i + |sub|];
      ContainsAt(s[1..], sub, i - 1);
    }
  }

  /** ASCII lower-casing of one character. */
  function LowerAscii(c: char): char {
    if 'A' <= c <= 'Z' then (c as int + 32) as char else c
  }

  /** Python `s.lower().endswith(suffix)` for a lower-case ASCII `suffix`
      made of `.` and the letters of image extensions. Only the tail of `s`
      matters and no non-ASCII character lowers to one of those characters,
      so lowering the tail character by character is exact. */
  predicate LowerEndsWith(s: string, suffix: string) {
    |suffix| <= |s| &&
    forall i :: 0 <= i < |suffix| ==> LowerAscii(s[|s| - |suffix| + i]) == suffix[i]
  }

  /** Python `re` with IGNORECASE: `c` in the subject matches the lower-case
      pattern character `p`. Besides ASCII case, `re` treats LONG S as `s`
      and DOTLESS I and CAPITAL I WITH DOT ABOVE as `i`. */
  predicate CharMatchesIgnoreCase(c: char, p: char) {
    || LowerAscii(c) == p
    || (p == 's' && c == '\U{17F}')
    || (p == 'i' && (c == '\U{131}' || c == '\U{130}'))
  }

  /** The lower-case pattern `p` matches the start of `s`, ignoring case. */
  predicate StartsWithIgnoreCase(s: string, p: string) {
    |p| <= |s| && forall i :: 0 <= i < |p| ==> CharMatchesIgnoreCase(s[i], p[i])
  }

  /** Python `str.isspace()`, which is also what `\s` matches in a `re`
      pattern over `str`. */
  predicate IsPySpace(c: char) {
    || c == ' '
    || '\t' <= c <= '\r'
    || '\U{1C}' <= c <= '\U{1F}'
    || c == '\U{85}' || c == '\U{A0}' || c == '\U{1680}'
    || '\U{2000}' <= c <= '\U{200A}'
    || c == '\U{2028}' || c == '\U{2029}' || c == '\U{202F}'
    || c == '\U{205F}' || c == '\U{3000}'
  }

  /** The characters JavaScript's `String.prototype.trim` removes. Unlike
      Python it includes the byte-order mark and excludes U+001C..U+001F and
      U+0085. */
  predicate IsJsSpace(c: char) {
    || c == ' '
    || '\t' <= c <= '\r'
    || c == '\U{A0}' || c == '\U{1680}'
    || '\U{2000}' <= c <= '\U{200A}'
    || c == '\U{2028}' || c == '\U{2029}' || c == '\U{202F}'
    || c == '\U{205F}' || c == '\U{3000}' || c == '\U{FEFF}'
  }

  /** Drops the leading characters that satisfy `space`. */
  function TrimStart(s: string, space: char -> bool): (r: string)
    ensures EndsWith(s, r)
    ensures |r| > 0 ==> !space(r[0])
    ensures forall i :: 0 <= i < |s| - |r| ==> space(s[i])
  {
    if |s| > 0 && space(s[0]) then TrimStart(s[1..], space) else s
  }

  /** Drops the trailing characters that satisfy `space`. */
  function TrimEnd(s: string, space: char -> bool): (r: string)
    ensures StartsWith(s, r)
    ensures |r| > 0 ==> !space(r[|r| - 1])
    ensures forall i :: |r| <= i < |s| ==> space(s[i])
  {
    if |s| > 0 && space(s[|s| - 1]) then TrimEnd(s[..|s| - 1], space) else s
  }

  /** Drops leading and trailing `space` characters. */
  function Trim(s: string, space: char -> bool): string {
    TrimEnd(TrimStart(s, space), space)
  }

  /** Python `s.strip()`. */
  function PyStrip(s: string): string {
    Trim(s, IsPySpace)
  }

  /** JavaScript `s.trim()`. */
  function JsTrim(s: string): string {
    Trim(s, IsJsSpace)
  }

  /** A trimmed string is a contiguous piece of the input, neither end of it
      is a space, and trimming it again changes nothing. */
  lemma TrimProperties(s: string, space: char -> bool)
    ensures var r := Trim(s, space);
      && |r| <= |s|
      && Contains(s, r)
      && (|r| > 0 ==> !space(r[0]) && !space(r[|r| - 1]))
      && Trim(r, space) == r
  {
    var t := TrimStart(s, space);
    var r := TrimEnd(t, space);
    var i := |s| - |t|;
    assert s[i..] == t;
    assert t[..|r|] == r;
    assert s[i..i + |r|] == r;
    ContainsAt(s, r, i);
    if |r| > 0 {
      assert r[0] == t[0];
    }
    assert TrimStart(r, space) == r;
    assert TrimEnd(r, space) == r;
  }

  /** Python `s.split(sep)` for a one-character separator: never empty, and
      no piece contains the separator. */
  function Split(s: string, sep: char): (parts: seq<string>)
    ensures |parts| >= 1
    ensures forall k :: 0 <= k < |parts| ==> sep !in parts[k]
  {
    if |s| == 0 then [""]
    else
      var rest := Split(s[1..], sep);
      if s[0] == sep then [""] + rest
      else [[s[0]] + rest[0]] + rest[1..]
  }

  /** Python `sep.join(parts)`. */
  function Join(parts: seq<string>, sep: char): string
    requires |parts| >= 1
  {
    if |parts| == 1 then parts[0] else parts[0] + [sep] + Join(parts[1..], sep)
  }

  /** Joining the pieces of a split gives back the input. */
  lemma {:induction false} JoinSplit(s: string, sep: char)
    ensures Join(Split(s, sep), sep) == s
  {
    if |s| > 0 {
      JoinSplit(s[1..], sep);
      var rest := Split(s[1..], sep);
      if s[0] == sep {
        assert ([""] + rest)[1..] == rest;
      } else {
        var parts := [[s[0]] + rest[0]] + rest[1..];
        if |rest| > 1 {
          assert parts[1..] == rest[1..];
          assert Join(rest, sep) == rest[0] + [sep] + Join(rest[1..], sep);
        }
        assert s == [s[0]] + s[1..];
      }
    }
  }

  /** Splitting `a + tail` where `a` holds no separator glues `a` onto the
      first piece of `tail`. */
  lemma {:induction false} SplitPrefix(a: string, tail: string, sep: char)
    requires sep !in a
    ensures var t := Split(tail, sep);
      Split(a + tail, sep) == [a + t[0]] + t[1..]
  {
    if |a| > 0 {
      SplitPrefix(a[1..], tail, sep);
      assert (a + tail)[0] == a[0];
      assert (a + tail)[1..] == a[1..] + tail;
      assert [a[0]] + (a[1..] + Split(tail, sep)[0]) == a + Split(tail, sep)[0];
    } else {
      var t := Split(tail, sep);
      assert a + tail == tail;
      assert a + t[0] == t[0];
      assert [t[0]] + t[1..] == t;
    }
  }

  /** Splitting the join of separator-free pieces gives back the pieces. */
  lemma {:induction false} SplitJoin(parts: seq<string>, sep: char)
    requires |parts| >= 1
    requires forall k :: 0 <= k < |parts| ==> sep !in parts[k]
    ensures Split(Join(parts, sep), sep) == parts
  {
    if |parts| == 1 {
      SplitPrefix(parts[0], "", sep);
      assert parts[0] + "" == parts[0];
    } else {
      var j := Join(parts[1..], sep);
      SplitJoin(parts[1..], sep);
      assert Split([sep] + j, sep) == [""] + parts[1..];
      SplitPrefix(parts[0], [sep] + j, sep);
      assert parts[0] + [sep] + j == parts[0] + ([sep] + j);
      assert parts[0] + "" == parts[0];
      assert [parts[0]] + parts[1..] == parts;
    }
  }

  /** MySQL `SUBSTRING_INDEX(s, c, -1)`: what follows the last `c`, or all
      of `s` when it holds no `c`. */
  function AfterLast(s: string, c: char): (r: string)
    ensures c !in r
    ensures EndsWith(s, r)
    ensures |r| < |s| ==> s[|s| - |r| - 1] == c
  {
    if |s| == 0 then ""
    else if s[|s| - 1] == c then ""
    else AfterLast(s[..|s| - 1], c) + [s[|s| - 1]]
  }

  /** What follows the last `c` of `p + [c] + t` is `t` when `t` holds no `c`. */
  lemma {:induction false} AfterLastOfSuffix(p: string, c: char, t: string)
    requires c !in t
    ensures AfterLast(p + [c] + t, c) == t
  {
    if |t| > 0 {
      var s := p + [c] + t;
      var t' := t[..|t| - 1];
      assert s[..|s| - 1] == p + [c] + t';
      AfterLastOfSuffix(p, c, t');
      assert t == t' + [t[|t| - 1]];
    } else {
      assert p + [c] + t == p + [c];
    }
  }
}

=== FILE: user_router.dfy ===
/** app/api/routers/user.py: `POST /api/user` (sign-up) and
    `PUT /api/user/auth` (sign-in). FastAPI validates each body against a
    schema of app/schemas/user.py before the handler runs; the token the
    sign-in signs is an oracle `sign` over its claims, and the bcrypt hash
    of a new password is an input. */
module UserRouter {
  import opened Wrappers
  import opened Http
  import opened Deps
  import opened Users
  import AuthClient

  /** A JSON body as the string fields it carries. */
  datatype UserBody = UserBody(name: Option<string>, email: Option<string>, password: Option<string>)

  /** The body both pages send to sign in: e-mail and password, no name. */
  function SigninBody(email: string, password: string): (b: UserBody)
    ensures b.name.None? && b.email == Some(email) && b.password == Some(password)
  {
    UserBody(None, Some(email), Some(password))
  }

  /** `UserCreate`: a name, an e-mail and a password. */
  predicate FitsUserCreate(b: UserBody) {
    b.name.Some? && b.email.Some? && b.password.Some?
  }

  /** `UserLogin`: an e-mail and a password. */
  predicate FitsUserLogin(b: UserBody) {
    b.email.Some? && b.password.Some?
  }

  /** `signup`: a body without the three fields is the 422. Otherwise
      `create_user` runs to its end, inserting the user when the e-mail is
      new, and returns a pair, from which the handler unpacks three names:
      that raises, and every validated request gets the plain 500. */
  function Signup(t: UserTable, b: UserBody, pwHash: string): (r: (UserTable, Reply<string>))
    ensures !FitsUserCreate(b) ==> r == (t, Invalid)
    ensures FitsUserCreate(b) ==> r.1 == Crash
    ensures FitsUserCreate(b) && HasEmail(t.rows, b.email.value) ==> r.0 == t
    ensures FitsUserCreate(b) && !HasEmail(t.rows, b.email.value) ==>
      && r.0.rows == t.rows + [User(t.nextId, b.name.value, b.email.value, pwHash)]
      && r.0.nextId == t.nextId + 1
  {
    if !FitsUserCreate(b) then (t, Invalid)
    else
      var (t', _) := CreateUser(t, b.name.value, b.email.value, pwHash);
      (t', Crash)
  }

  /** The sign-in handler once the body has validated: the signed token of
      the claims, or the 400 with the error as its detail. */
  function SigninHandler(t: UserTable, email: string, password: string,
                         check: (string, string) -> bool, sign: Claims -> string): (r: Reply<string>)
    ensures r.Ok? <==> Authenticate(t, email, password, check).Success?
    ensures r.Ok? ==> r.body == sign(Authenticate(t, email, password, check).value)
    ensures !r.Ok? ==> r == Error(400, BadCredentials)
  {
    match Authenticate(t, email, password, check)
    case Failure(m) => Error(400, m)
    case Success(c) => Ok(sign(c))
  }

  /** `signin` as written: the body is validated against `UserCreate`, so a
      body without a name is the 422 and the handler never runs. */
  function SigninAsWritten(t: UserTable, b: UserBody, check: (string, string) -> bool,
                           sign: Claims -> string): (r: Reply<string>)
    ensures !FitsUserCreate(b) <==> r == Invalid
    ensures FitsUserCreate(b) ==> r == SigninHandler(t, b.email.value, b.password.value, check, sign)
  {
    if !FitsUserCreate(b) then Invalid else SigninHandler(t, b.email.value, b.password.value, check, sign)
  }

  /** `signin` validated against `UserLogin`, the schema the module defines
      for it: the name is not needed. */
  function Signin(t: UserTable, b: UserBody, check: (string, string) -> bool,
                  sign: Claims -> string): (r: Reply<string>)
    ensures !FitsUserLogin(b) <==> r == Invalid
    ensures FitsUserLogin(b) ==> r == SigninHandler(t, b.email.value, b.password.value, check, sign)
  {
    if !FitsUserLogin(b) then Invalid else SigninHandler(t, b.email.value, b.password.value, check, sign)
  }

  /** The sign-in reply as the pages read it: the status, `detail` when it
      is a string (the 422's is a list), and `token`; the plain 500 is not
      JSON. */
  function SigninReceived(r: Reply<string>): (a: AuthClient.SigninReply)
    ensures a.SigninUnreadable? <==> r.Crash?
    ensures r.Ok? ==> a == AuthClient.SigninReply(200, None, Some(r.body))
    ensures r.Error? ==> a == AuthClient.SigninReply(r.status, Some(r.message), None)
    ensures r.Invalid? ==> a == AuthClient.SigninReply(422, None, None)
  {
    match r
    case Ok(token) => AuthClient.SigninReply(200, None, Some(token))
    case Error(status, m) => AuthClient.SigninReply(status, Some(m), None)
    case Invalid => AuthClient.SigninReply(422, None, None)
    case Crash => AuthClient.SigninUnreadable
  }

  /** The sign-up reply as the pages read it: the 400's body is
      `{"detail": ...}` and the 422's too, with no `error`; the plain 500 is
      not JSON. */
  function SignupReceived(r: Reply<string>): (a: AuthClient.SignupReply)
    ensures a.SignupUnreadable? <==> r.Crash?
    ensures !r.Crash? ==> a == AuthClient.SignupReply(false, None)
  {
    match r
    case Crash => AuthClient.SignupUnreadable
    case _ => AuthClient.SignupReply(false, None)
  }

  /** Signing up from either page registers a new e-mail, but the reply is
      the plain 500, so both pages only log: no success note, no switch to
      the sign-in form, and no duplicate message for a known e-mail. */
  lemma SignupRegistersSilently(t: UserTable, name: string, email: string, password: string, pwHash: string)
    ensures var (t', reply) := Signup(t, UserBody(Some(name), Some(email), Some(password)), pwHash);
      && AuthClient.SignupOnHome(SignupReceived(reply)) == AuthClient.Logged
      && AuthClient.SignupOnAttraction(SignupReceived(reply)) == AuthClient.Logged
      && HasEmail(t'.rows, email)
      && (HasEmail(t.rows, email) <==> t' == t)
  {
    var t' := Signup(t, UserBody(Some(name), Some(email), Some(password)), pwHash).0;
    if !HasEmail(t.rows, email) {
      assert t'.rows[|t.rows|].email == email;
      assert |t'.rows| != |t.rows|;
    }
  }

  /** As written, the pages' sign-in body never reaches the handler: it is
      the 422, whatever the table holds. The home page takes any status but
      400 as success, so it stores "undefined" as the token, shows the
      signed-in label and goes home; the attraction page stores it too. A
      library that rejects "undefined" then answers every guarded request
      with the 403 of a bad token. */
  lemma SigninAsWrittenRefused(st: AuthClient.Storage, here: string, t: UserTable, email: string, password: string,
                               check: (string, string) -> bool, sign: Claims -> string,
                               decode: string -> Option<Claims>)
    requires decode("undefined").None?
    ensures SigninAsWritten(t, SigninBody(email, password), check, sign) == Invalid
    ensures var home := AuthClient.SigninOnHome(st, SigninReceived(Invalid));
      && home.storage == st[AuthClient.TokenKey := "undefined"]
      && home.navigate == Some("/") && home.note.None?
      && AuthClient.LoginLabel(home.storage) == AuthClient.SignedInLabel
    ensures AuthClient.SigninOnAttraction(st, SigninReceived(Invalid), here).storage[AuthClient.TokenKey] == "undefined"
    ensures CurrentUser(Some("Bearer " + "undefined"), decode) == Failure(BadToken)
  {
    CurrentUserOfClientHeader("undefined", decode);
  }

  /** With `UserLogin`, the pages' sign-in body reaches the handler: the
      right password stores the signed token and goes home; an unknown
      e-mail and a wrong password both answer 400 with
      `Users.BadCredentials`, which neither page recognises, so both show
      the generic retry message and store nothing. */
  lemma SigninAnswers(st: AuthClient.Storage, here: string, t: UserTable, email: string, password: string,
                      check: (string, string) -> bool, sign: Claims -> string)
    ensures var r := Signin(t, SigninBody(email, password), check, sign);
      var home := AuthClient.SigninOnHome(st, SigninReceived(r));
      var away := AuthClient.SigninOnAttraction(st, SigninReceived(r), here);
      && (r.Ok? ==> home.storage == st[AuthClient.TokenKey := r.body] && home.navigate == Some("/"))
      && (r.Ok? ==> away.storage == st[AuthClient.TokenKey := r.body][AuthClient.RedirectKey := here] && away.closes)
      && (!r.Ok? ==> home == AuthClient.SigninEffect(st, Some(AuthClient.Note(true, AuthClient.SigninFailed)), None, false))
      && (!r.Ok? ==> away == AuthClient.SigninEffect(st, Some(AuthClient.Note(true, AuthClient.SigninFailed)), None, false))
  {
  }

  /** With `UserLogin`, registering and then signing in from a page with
      the same password, when bcrypt accepts it, stores a token that
      `get_current_user` reads back as the new user, provided the library
      decodes what it signed. */
  lemma RegisterThenSignInThrough(st: AuthClient.Storage, t: UserTable, name: string, email: string, password: string,
                                  pwHash: string, check: (string, string) -> bool, sign: Claims -> string,
                                  decode: string -> Option<Claims>)
    requires !HasEmail(t.rows, email) && check(password, pwHash)
    requires forall c :: decode(sign(c)) == Some(c) && ' ' !in sign(c)
    ensures var t' := Signup(t, UserBody(Some(name), Some(email), Some(password)), pwHash).0;
      var stored := AuthClient.SigninOnHome(st, SigninReceived(Signin(t', SigninBody(email, password), check, sign))).storage;
      && AuthClient.TokenKey in stored
      && CurrentUser(Some("Bearer " + stored[AuthClient.TokenKey]), decode) == Success(Claims(t.nextId, name, email))
  {
    RegisterThenSignIn(t, name, email, password, pwHash, check);
    var c := Claims(t.nextId, name, email);
    CurrentUserOfClientHeader(sign(c), decode);
  }
}

=== FILE: users.dfy ===
/** app/crud/user.py: registration with a duplicate-e-mail check and
    sign-in against a password hash. bcrypt is an oracle: the hash of a new
    password is an input, and `check(password, hash)` is `bcrypt.checkpw`. */
module Users {
  import opened Wrappers
  import opened Deps

  const DuplicateEmail: string := "Email 已重複註冊"
  const BadCredentials: string := "帳號或密碼錯誤"

  /** A row of `users`. */
  datatype User = User(id: nat, name: string, email: string, passwordHash: string)

  /** The `users` table and its next `AUTO_INCREMENT` id. */
  datatype UserTable = UserTable(rows: seq<User>, nextId: nat)

  predicate HasEmail(rows: seq<User>, email: string) {
    exists k :: 0 <= k < |rows| && rows[k].email == email
  }

  /** No two users share an e-mail address, and ids are below the next id
      and unique. */
  ghost predicate Valid(t: UserTable) {
    && (forall i, j :: 0 <= i < j < |t.rows| ==> t.rows[i].email != t.rows[j].email)
    && (forall i, j :: 0 <= i < j < |t.rows| ==> t.rows[i].id != t.rows[j].id)
    && (forall i :: 0 <= i < |t.rows| ==> t.rows[i].id < t.nextId)
  }

  /** `create_user(name, email, password)`, with `pwHash` the bcrypt hash
      of the password: the table afterwards and the `(ok, error)` pair as
      `Success(true)` or `Failure(message)`. */
  function CreateUser(t: UserTable, name: string, email: string, pwHash: string): (r: (UserTable, Result<bool, string>))
    ensures r.1.Failure? <==> HasEmail(t.rows, email)
    ensures r.1.Failure? ==> r.0 == t && r.1.error == DuplicateEmail
    ensures r.1.Success? ==> r.1.value && HasEmail(r.0.rows, email)
    ensures r.1.Success? ==> |r.0.rows| == |t.rows| + 1 && r.0.rows[..|t.rows|] == t.rows
    ensures r.1.Success? ==> r.0.rows[|t.rows|] == User(t.nextId, name, email, pwHash)
  {
    if HasEmail(t.rows, email) then (t, Failure(DuplicateEmail))
    else
      var rows := t.rows + [User(t.nextId, name, email, pwHash)];
      assert rows[|t.rows|].email == email;
      (UserTable(rows, t.nextId + 1), Success(true))
  }

  /** Registration keeps e-mail addresses and ids unique. */
  lemma CreateUserKeepsValid(t: UserTable, name: string, email: string, pwHash: string)
    requires Valid(t)
    ensures Valid(CreateUser(t, name, email, pwHash).0)
  {
  }

  /** The first user with the e-mail address (`SELECT ... WHERE email=%s`,
      `fetchone`). */
  function UserByEmail(rows: seq<User>, email: string): (r: Option<User>)
    ensures r.None? <==> !HasEmail(rows, email)
    ensures r.Some? ==> r.value in rows && r.value.email == email
    ensures r.Some? ==>
      exists k :: 0 <= k < |rows| && rows[k] == r.value && forall i :: 0 <= i < k ==> rows[i].email != email
  {
    if |rows| == 0 then None
    else if rows[0].email == email then Some(rows[0])
    else
      var r := UserByEmail(rows[1..], email);
      assert forall k :: 1 <= k < |rows| ==> rows[k] == rows[1..][k - 1];
      r
  }

  /** `authenticate_user(email, password)`: the claims of the token it
      signs, or the error. An unknown e-mail and a wrong password give the
      same error, so a caller cannot tell them apart. */
  function Authenticate(t: UserTable, email: string, password: string, check: (string, string) -> bool): (r: Result<Claims, string>)
    ensures r.Failure? ==> r.error == BadCredentials
    ensures !HasEmail(t.rows, email) ==> r.Failure?
    ensures r.Success? <==> HasEmail(t.rows, email) && check(password, UserByEmail(t.rows, email).value.passwordHash)
    ensures r.Success? ==>
      exists k :: 0 <= k < |t.rows| && t.rows[k].email == email && r.value == Claims(t.rows[k].id, t.rows[k].name, email)
  {
    match UserByEmail(t.rows, email)
    case None => Failure(BadCredentials)
    case Some(u) =>
      if !check(password, u.passwordHash) then Failure(BadCredentials)
      else Success(Claims(u.id, u.name, u.email))
  }

  /** Registering and then signing in with the same password, when bcrypt
      accepts the password against its hash, yields the new user's claims. */
  lemma RegisterThenSignIn(t: UserTable, name: string, email: string, password: string, pwHash: string,
                           check: (string, string) -> bool)
    requires !HasEmail(t.rows, email)
    requires check(password, pwHash)
    ensures var (t', ok) := CreateUser(t, name, email, pwHash);
      ok == Success(true) && Authenticate(t', email, password, check) == Success(Claims(t.nextId, name, email))
  {
    var t' := CreateUser(t, name, email, pwHash).0;
    assert t'.rows[|t.rows|].email == email;
    assert UserByEmail(t'.rows, email) == Some(User(t.nextId, name, email, pwHash)) by {
      FirstMatchAfter(t.rows, User(t.nextId, name, email, pwHash));
    }
  }

  /** Looking up an e-mail absent from `rows` in `rows + [u]` finds `u`. */
  lemma {:induction false} FirstMatchAfter(rows: seq<User>, u: User)
    requires !HasEmail(rows, u.email)
    ensures UserByEmail(rows + [u], u.email) == Some(u)
  {
    if |rows| > 0 {
      assert (rows + [u])[1..] == rows[1..] + [u];
      assert forall k :: 1 <= k < |rows| ==> rows[k] == rows[1..][k - 1];
      FirstMatchAfter(rows[1..], u);
    }
  }
}

=== FILE: wrappers.dfy ===
/** Failure-compatible wrappers shared by every module of the model. */
module Wrappers {

  /** A value that may be absent: Python's `None`, JavaScript's `null`. */
  datatype Option<+T> = None | Some(value: T) {

    /** The wrapped value, or `default` when absent. */
    function GetOr(default: T): T {
      match this
      case Some(v) => v
      case None => default
    }
  }

  /** Either a value or an error. */
  datatype Result<+R, +E> = Success(value: R) | Failure(error: E)

  /** The database as one request sees it: reachable with its tables, or
      the connection could not be opened, with the exception's text. */
  datatype Db<+T> = Up(tables: T) | Down(reason: string)
}
